=== FILE: README.md ===
# boxful-rag-bot, modelled in Dafny

The repository is a retrieval-augmented support bot for a help centre. An
ingest run crawls the help centre's article pages and extracts each article's
title and body. It cuts the body into overlapping chunks, embeds every chunk
and stores the vectors. A chat route answers a question in four steps: it
embeds the question, ranks the stored chunks by cosine similarity, refuses
when the best score is too low, and otherwise asks a chat model with the
retrieved context.

This project models that core as pure functions over immutable data, plus a
few methods whose loops mirror the source's loops.

- The outside world is a parameter: HTTP replies, the HTML parser's view of a
  page, the URL parser, the clock, random draws, the square root and the
  tokenizer.
- Strings are sequences of characters.
- Numbers are mathematical reals and integers, with JavaScript's
  truncations and floors written out.
- The bytes of a UTF-8 encoding and the 32-bit FNV hash use explicit byte
  and `bv32` types.

Modules follow the source files:

| module | models |
|---|---|
| `Chunk` | `chunkText` |
| `Score` | `cosineSimilarity` |
| `Retrieve` | `retrieveTopK` |
| `Crawl` | jitter, `Retry-After` parsing, the fetch retry schedule, `normalizeUrl` |
| `Discover` | the link-following crawl |
| `Embed` | the three embedding back-ends and their dispatch |
| `Article` | `parseArticleHtml` |
| `Ingest` | `safeId`, `embedWithRetries`, the per-article items |
| `Llm` | the chat client |
| `Chat` | the `/v1/chat` handler |

Supporting modules:

| module | provides |
|---|---|
| `Text` | trimming, whitespace rewriting, splitting, joining, decimal rendering |
| `Dedup` | first-occurrence de-duplication |
| `Order` | string ordering and sorting |
| `Encoding` | UTF-8 and base64url |
| `Env` | environment numbers |
| `Arith` | real-arithmetic facts |
| `Wrappers` | `Option` and `Result` |

## Model

| member | source | states |
|---|---|---|
| Env.TimeoutMs | src/ingest/embed.ts:3-7 | A timeout read from the environment is at least 1000. It is the default when the variable is unset or not a finite number, the truncated value when that is at least 1000, and 1000 otherwise. |
| Chunk.ClampConfig | src/ingest/chunk.ts:11-15 | The chunk size is the truncated setting but at least 1. The overlap is the truncated setting clamped to 0..size-1, so the window always advances. |
| Chunk.ConfigFromEnv | src/ingest/chunk.ts:1-15 | Unset variables give size 950 and overlap 200, and every configuration is valid. |
| Chunk.Clean | src/ingest/chunk.ts:17-21 | The cleaned text has no carriage return, no space or tab before a line break, no three line breaks in a row, and no whitespace at either end. Its non-blank characters are exactly those of the input, in order. |
| Chunk.RemoveCarriageReturnsKeepsText | src/ingest/chunk.ts:18 | Dropping carriage returns keeps every non-blank character in order. |
| Chunk.CleanFixed | src/ingest/chunk.ts:17-21 | Text already in that form comes back unchanged, because every stage of the pre-clean has nothing to do on it. |
| Chunk.CleanIdempotent | src/ingest/chunk.ts:17-21 | Cleaning twice is the same as cleaning once. |
| Chunk.ChunkText | src/ingest/chunk.ts:8-39 | Blank text gives no chunk, and text within the size gives itself as the only chunk. Every chunk is non-empty, trimmed and at most `size` long. |
| Chunk.WindowsTile | src/ingest/chunk.ts:26-36 | The windows cover the cleaned text up to its end. Each is at most `size` wide, and full width unless it reaches the end. Each later window starts `overlap` before the previous one ends. |
| Chunk.WindowsAdvance | src/ingest/chunk.ts:29-36 | The first window is `[0, size)`, and consecutive windows start `size - overlap >= 1` apart and share exactly `overlap` characters. |
| Chunk.WindowsRebuildText | src/ingest/chunk.ts:26-36 | Stitching the windows back together, dropping each overlap, rebuilds the cleaned text exactly: nothing is lost or repeated. |
| Chunk.ChunksComeFromWindows | src/ingest/chunk.ts:31-32 | Every chunk is the trimmed text of some window. |
| Chunk.ChunkCount | src/ingest/chunk.ts:31-32 | There are at most as many chunks as windows, and exactly as many when no window is blank. |
| Chunk.ChunkTextLoop | src/ingest/chunk.ts:8-39 | The loop with `start`, `end` and `break`, as written, computes the same chunks as the functional definition. |
| Score.Cosine | src/rag/score.ts:1-19 | Vectors of different lengths score 0. |
| Score.CosineLoop | src/rag/score.ts:4-18 | The accumulating loop computes the cosine of the definition. |
| Score.CauchySchwarz | src/rag/score.ts:4-14 | The dot product squared is at most the product of the squared norms. |
| Score.CosineBounded | src/rag/score.ts:16-18 | For a true square root, every score lies in [-1, 1]. |
| Score.CosineSymmetric | src/rag/score.ts:1-19 | The score does not depend on the order of its arguments. |
| Score.CosineSelf | src/rag/score.ts:16-18 | A non-zero vector scores 1 against itself, and a zero vector scores 0. |
| Score.CosineZero | src/rag/score.ts:16-17 | A zero vector on either side scores 0, because the zero denominator is caught. |
| Retrieve.ScoreAll | src/rag/retrieve.ts:30-33 | Each stored item gets its own cosine score against the query, in store order. |
| Retrieve.SortHits | src/rag/retrieve.ts:35 | Sorting the hits permutes them. |
| Retrieve.SortHitsRanked | src/rag/retrieve.ts:35 | Sorted hits are by descending score, with equal scores kept in store order, as a stable sort keeps them. |
| Retrieve.RankedUnique | src/rag/retrieve.ts:35 | Only one ranking of a given set of hits exists, so the sort's result is determined. |
| Retrieve.RankedFirstIsMax | src/rag/retrieve.ts:35-38 | The first ranked hit has the highest score. |
| Retrieve.BestSpec | src/rag/retrieve.ts:35-38 | The kept hits are ranked, and as many as `slice(0, topK)` keeps. When any are kept, the top score is at least every item's score. |
| Retrieve.Retrieve | src/rag/retrieve.ts:12-60 | A missing index gives no match, and a failed query embedding is passed on. A match always has a top score of at least `MIN_SCORE`. |
| Retrieve.RetrieveMatch | src/rag/retrieve.ts:24-59 | With an index and a query vector there is a match exactly when the best score reaches `MIN_SCORE`. The match carries that score, the joined context blocks and the de-duplicated sources. |
| Retrieve.SourcesSpec | src/rag/retrieve.ts:48-57 | The sources have distinct URLs, each comes from a kept hit, and every kept hit's URL is among them. |
| Retrieve.DimensionMismatchRefuses | src/rag/retrieve.ts:30-39 | When no stored vector has the query's length, every score is 0, and a positive `MIN_SCORE` refuses. |
| Retrieve.ContextHasEveryHit | src/rag/retrieve.ts:41-46 | The context contains each hit's numbered block, its URL line and its chunk. |
| Dedup.DedupBy | src/rag/retrieve.ts:49-57 | The seen-set filter, run left to right, yields the first occurrence of each key. |
| Dedup.FirstOccurrencesSpec | src/rag/retrieve.ts:49-57 | The first occurrences have distinct keys and cover every key of the input. Each one comes from the input, at a position where its key had not been seen. |
| Crawl.Jitter | src/ingest/crawl.ts:19-22 | For a draw in [0, 1) the jittered delay stays within `floor(base * 0.2)` of the base, and so within 0 and 1.2 times the base. |
| Crawl.Backoff | src/ingest/crawl.ts:40 | The exponential delay before attempt `n` is at most both `maxDelay` and `minDelay * 2^(n-1)`, and equals one of them, so it is their minimum. |
| Crawl.BackoffMonotone | src/ingest/crawl.ts:40 | Later attempts never wait less before jitter, and never more than `maxDelay`. |
| Crawl.ParseRetryAfterMs | src/ingest/crawl.ts:24-34 | An absent or empty header gives nothing. A non-negative number of seconds gives its floor in milliseconds, and results are never negative. A non-empty header gives nothing only when it is neither a non-negative number nor a date. |
| Crawl.DefaultSchedule | src/ingest/crawl.ts:11-40 | With the default settings a page is requested at most six times, and the back-offs before jitter are 250, 500, 1000, 2000 and 2500 ms. |
| Crawl.Fetch | src/ingest/crawl.ts:36-66 | At most `retries + 1` requests are made, and every request but the last got a retriable status (429 or 5xx). The last reply decides the outcome. Negative retries make no request and fail with status 0. |
| Crawl.FetchRetriesThrough | src/ingest/crawl.ts:38-57 | If every earlier attempt was retriable and the reply at attempt `k <= retries` is OK, the fetch returns that body after exactly `k + 1` requests. |
| Crawl.RetryAfterWait | src/ingest/crawl.ts:59-62 | A reply's `Retry-After` header contributes at most one wait, and only the one `parseRetryAfterMs` reads from it. |
| Crawl.FetchStopStep | src/ingest/crawl.ts:38-57 | A request that ends the run is the last one, and only the back-off before it is slept. |
| Crawl.FetchRetryPauses | src/ingest/crawl.ts:38-62 | After a retriable reply below the retry count, the run sleeps the back-off, then the reply's `Retry-After` wait, then continues with one more request. |
| Crawl.FetchPauses | src/ingest/crawl.ts:38-62 | The sleeps of a run are, in order, the schedule of its requests. Each attempt but the first gets a jittered back-off before it. After a retriable reply, unless its attempt number equals the retry count, the run sleeps the `Retry-After` wait the reply asks for. How long each pause lasts is given by `Crawl.PauseMs`: the jittered back-off, or the wait capped at four times `maxDelay`. |
| Crawl.ThreeRetriesThenOk | src/ingest/crawl.ts:38-62 | Three retriable replies and then an ok one, with at least three retries allowed, give the body after four requests. There are exactly three back-offs, before attempts 1, 2 and 3, each after any `Retry-After` wait of the reply before it. With non-negative settings these back-offs never shrink and stay within `maxDelay`. |
| Crawl.ThreeRetriesSchedule | src/ingest/crawl.ts:38-62 | The schedule of those four requests, attempt by attempt. |
| Crawl.FetchDelaysBounded | src/ingest/crawl.ts:39-62 | For draws in [0, 1), every pause lies between 0 and four times `maxDelay`. |
| Crawl.Normalize | src/ingest/crawl.ts:68-83 | The fragment is dropped while origin and path are kept. A `page` parameter leaves only `?page=<value>`, or nothing when the value is empty. Otherwise an article URL loses its query, and any other URL keeps it. |
| Crawl.NormalizeUrl | src/ingest/crawl.ts:68-83 | An unparsable URL is returned unchanged; otherwise the result is the printed normal form. |
| Crawl.NormalizeIdempotent | src/ingest/crawl.ts:68-83 | Normalizing twice is normalizing once. |
| Crawl.NormalizeUrlIdempotent | src/ingest/crawl.ts:68-83 | When printing and parsing round-trip, normalizing a URL string twice is normalizing it once. |
| Discover.Classify | src/ingest/crawl.ts:113-149 | Skipped links are the empty `href`s and those starting `mailto:`, `javascript:` or `#`, plus unresolvable links, other origins and other paths. A kept link is the normalized resolved URL on the root's origin under `/support/solutions`. It is an article exactly when its path contains the articles path. |
| Discover.PageLinks | src/ingest/crawl.ts:103-113 | A page that could not be fetched contributes no link; otherwise each anchor is classified in document order. |
| Discover.ExpandPage | src/ingest/crawl.ts:113-150 | The queue only grows at its end, by followable pages not yet visited or queued, each once. Every followable link ends up visited or queued, and the found articles stay distinct and gain exactly the page's articles. |
| Discover.DiscoverArticleUrls | src/ingest/crawl.ts:85-154 | The articles found are sorted, and they are exactly the ones linked from visited pages. No page is visited twice, and the walk stops once `KB_MAX_PAGES` pages are visited. The root page comes first, and every later page is linked from an earlier one. If the walk ends under the page limit, every followable link of a visited page was visited. |
| Order.Sort | src/ingest/crawl.ts:153 | Sorting permutes the URLs. |
| Order.SortAscending | src/ingest/crawl.ts:153 | Distinct URLs come out in strictly ascending code-unit order. |
| Order.AscendingUnique | src/ingest/crawl.ts:153 | Two ascending lists with the same elements are equal, so the sorted result is determined by the set of URLs. |
| Embed.LocalDimAsWritten | src/ingest/embed.ts:29-32 | The local dimension as written is never negative and is 512 when unset. |
| Embed.LocalDimAsWrittenCanBeZero | src/ingest/embed.ts:29-32 | A setting of 0.5 passes the positivity test and floors to dimension 0. |
| Embed.LocalDim | src/ingest/embed.ts:29-32 | The corrected dimension is at least 1. It agrees with the code whenever the code's value is positive. |
| Embed.NormalizeUnit | src/ingest/embed.ts:34-39 | Normalizing a non-zero vector gives squared norm 1. |
| Embed.NormalizeZero | src/ingest/embed.ts:34-39 | The all-zero vector is left as it is, because its norm falls back to 1. |
| Embed.FnvCheckValue | src/ingest/embed.ts:53-61 | The 32-bit FNV-1a hash of `a` with the standard offset and prime is `0xE40C292C`. |
| Embed.HashToken | src/ingest/embed.ts:53-61 | The per-character loop computes both hashes, the second on code units shifted by 13. |
| Embed.Signed | src/ingest/embed.ts:58-62 | `Math.imul`'s signed 32-bit reading of a hash is its two's-complement value. |
| Embed.Bucket | src/ingest/embed.ts:62 | The bucket `abs(h1) % dim` is a valid index. |
| Embed.AddToken | src/ingest/embed.ts:62-64 | Adding a token changes only its bucket, by its sign. |
| Embed.TallyOrderFree | src/ingest/embed.ts:52-65 | The token counts do not depend on token order. |
| Embed.TallySkipsShort | src/ingest/embed.ts:50 | One-character tokens contribute nothing. |
| Embed.EmbedLocal | src/ingest/embed.ts:42-68 | At the corrected dimension, the local embedder fails with the array-length error exactly when the dimension is 2^32 or more. Otherwise it returns a vector of that dimension. |
| Embed.EmbedLocalAsWritten | src/ingest/embed.ts:29-68 | At the dimension the code computes, the embedder fails exactly when that dimension is 2^32 or more. Otherwise it returns a vector of that dimension, which is empty at dimension 0. |
| Embed.EmbedLocalAsWrittenAgrees | src/ingest/embed.ts:29-68 | The code's embedder and the corrected one agree whenever the code's dimension is positive. At dimension 0 the code gives `[]`, while the corrected embedder gives a 512-entry vector. |
| Embed.EmbedLocalAsWrittenEmptyAtHalf | src/ingest/embed.ts:29-68 | With `EMBED_LOCAL_DIM=0.5` the code embeds every text as `[]`. |
| Embed.EmbedLocalUnitOrZero | src/ingest/embed.ts:42-68 | A successful local embedding is either all zero or of unit length. This holds for both the corrected and the as-written embedder, including the code's empty vector. |
| Embed.Prefix | src/ingest/embed.ts:83 | The prompt is the text cut to the budget: a prefix, no longer than the budget, and the whole text when it fits. |
| Embed.OllamaFrom | src/ingest/embed.ts:78-115 | No request is made below 120 characters of budget, which fails with the too-long error. Each request sends the text cut to its budget, and each retry halves the budget. |
| Embed.OllamaRetriesOnOverflow | src/ingest/embed.ts:98-103 | Every request but the last got a 500 whose body mentions the context length. |
| Embed.OllamaLastSettles | src/ingest/embed.ts:97-112 | The last reply decides the outcome: a vector, a missing-vector error, a status error or a timeout. |
| Embed.OllamaRequestCount | src/ingest/embed.ts:82-103 | `n` requests need a starting budget of at least `120 * 2^(n-1)`. |
| Embed.Ollama | src/ingest/embed.ts:70-116 | Every prompt is a prefix of the text no longer than `OLLAMA_EMBED_MAX_CHARS`. |
| Embed.Gemini | src/ingest/embed.ts:118-160 | A blank key fails before any request. Otherwise one request is sent, with the trimmed model, the task type and the text cut to `GEMINI_EMBED_MAX_CHARS`, and its reply decides the outcome. |
| Embed.EmbedText | src/ingest/embed.ts:162-180 | The lower-cased provider picks `local`, `ollama` or `gemini`, and any other name fails as unsupported. The local branch is the corrected embedder, including its array-length error. |
| Embed.EmbedTextCaseInsensitive | src/ingest/embed.ts:166 | The provider name's case does not matter. |
| Embed.EmbedTextDefaultsToOllama | src/ingest/embed.ts:166-172 | An unset provider means Ollama. |
| Article.Title | src/ingest/parseArticle.ts:11-14 | The title is never empty, is trimmed, and has no run of whitespace. Its non-blank characters are those of the heading when it has text, otherwise those of the document title when that has text. |
| Article.TitleSourceText | src/ingest/parseArticle.ts:11-14 | The chosen title text has the non-blank characters of the heading, else of the document title, else it is the default title. |
| Article.TitleNormalForm | src/ingest/parseArticle.ts:14 | Collapsing and trimming the title again changes nothing. |
| Article.TitleDefault | src/ingest/parseArticle.ts:14 | With neither heading nor title text the title is `Artículo`. |
| Article.TitlePrefersHeading | src/ingest/parseArticle.ts:14 | A heading with text decides the title whatever the document title is. |
| Article.FirstPresent | src/ingest/parseArticle.ts:20-31 | Every container before the chosen one is absent, and the chosen one is present. |
| Article.BestText | src/ingest/parseArticle.ts:31 | The body comes from the first present container, or from the whole document when none is. |
| Article.CleanBody | src/ingest/parseArticle.ts:37-42 | The cleaned body has no non-breaking space, no space or tab before a line break, no three line breaks in a row, and no whitespace at either end. Its non-blank characters are exactly those of the container text, in order. |
| Article.ReplaceNbsp | src/ingest/parseArticle.ts:38 | Every non-breaking space becomes a space, every other character stays, and the non-blank characters are kept. |
| Article.CleanBodyIdempotent | src/ingest/parseArticle.ts:37-42 | Cleaning twice is cleaning once. |
| Article.ParseArticleHtml | src/ingest/parseArticle.ts:8-47 | A page is rejected exactly when its cleaned body is shorter than 120 characters. Otherwise it yields the normalized title and that body. |
| Article.ParsedBodyStable | src/ingest/parseArticle.ts:8-47 | Re-extracting an accepted body gives the same article. |
| Article.LaterContainersIgnored | src/ingest/parseArticle.ts:20-31 | Containers after the first present one do not affect the article. |
| Encoding.Utf8Injective | src/ingest/run.ts:26-28 | Different strings have different UTF-8 bytes. |
| Encoding.Base64UrlRoundTrip | src/ingest/run.ts:26-28 | Decoding the unpadded base64url text gives back the bytes. |
| Encoding.Base64UrlFoobar | src/ingest/run.ts:26-28 | `foobar` encodes as `Zm9vYmFy`, as in section 10 of RFC 4648. |
| Encoding.Base64UrlSafeDigits | src/ingest/run.ts:26-28 | Digits 62 and 63 are written `-` and `_`, without padding. |
| Ingest.SafeId | src/ingest/run.ts:26-28 | An id uses only URL-safe characters, with the length of unpadded base64url of the UTF-8 bytes. |
| Ingest.SafeIdInjective | src/ingest/run.ts:26-28 | Different strings have different ids. |
| Ingest.ChunkIdInjective | src/ingest/run.ts:90 | The id of `url#i` determines both the URL and the chunk index. |
| Ingest.RetriesFrom | src/ingest/run.ts:38-53 | A success ends the attempts and returns that attempt's vector. Otherwise every allowed attempt was made and the last error is thrown. Before attempt `n + 1` the wait is `250 * (n + 1)` ms. |
| Ingest.DefaultEmbedRetriesSchedule | src/ingest/run.ts:43-59 | With the default two retries, a chunk that always fails costs three calls. The sleeps between them are 250 and 500 ms, and the third error is thrown. |
| Ingest.EmbedWithRetriesSpec | src/ingest/run.ts:38-53 | With `retries >= 0` there are 1 to `floor(retries) + 1` attempts, all failures but the last. The outcome is the last attempt's vector or error, and the waits grow by 250 ms. |
| Ingest.EmbedWithRetriesNegative | src/ingest/run.ts:42-52 | Negative retries make no attempt and throw `undefined`. |
| Ingest.EmbedWithRetriesFractional | src/ingest/run.ts:43-49 | A fractional retry count never meets `attempt === retries`, so it still sleeps after the last failed attempt. |
| Ingest.EmbeddedPrefixUnique | src/ingest/run.ts:88-100 | The embedded prefix of an article is exactly the chunks before its first failure. |
| Ingest.ChunkItems | src/ingest/run.ts:88-100 | Items are pushed for the chunks before the first failed embedding, in order. Each carries the URL, the title, the chunk, its `url#i` id and its embedding. |
| Ingest.AssembleItems | src/ingest/run.ts:88-100 | The push loop builds the same items, and it fails exactly when a chunk is left unembedded. |
| Ingest.ArticleItems | src/ingest/run.ts:74-103 | A failed fetch or a rejected page contributes nothing. Every item carries the article's URL and its own chunk's id. |
| Ingest.ArticleItemsParsed | src/ingest/run.ts:83-100 | A parsed article contributes one item per chunk of its body, up to the first chunk whose embedding failed. Each item's embedding is that chunk's retried embedding. |
| Ingest.ChunkItemsComplete | src/ingest/run.ts:88-100 | When every embedding succeeds, every chunk becomes an item. |
| Ingest.IngestItems | src/ingest/run.ts:71-110 | Every stored item belongs to a discovered article and has a chunk id of that article. |
| Ingest.IngestIdsDistinct | src/ingest/run.ts:71-110 | For distinct article URLs, the stored items' ids are all distinct. |
| Text.TrimKeepsText | src/ingest/chunk.ts:21 | Trimming keeps every non-blank character in order. |
| Text.CollapseSpacesKeepsText | src/ingest/parseArticle.ts:14 | Collapsing whitespace runs to one space keeps every non-blank character in order. |
| Text.StripLineEndBlanksKeepsText | src/ingest/chunk.ts:19 | Removing spaces and tabs before line breaks keeps every non-blank character in order. |
| Text.CollapseBlankLinesKeepsText | src/ingest/chunk.ts:20 | Shortening runs of line breaks to two keeps every non-blank character in order. |
| Text.NonBlankConcat | src/ingest/chunk.ts:17-21 | The non-blank characters of a concatenation are those of each part, in order. |
| Text.Trim | src/ingest/chunk.ts:21 | `trim` removes exactly the leading and trailing JavaScript whitespace. The result is the middle slice and is empty only for blank text. |
| Text.TrimIdempotent | src/ingest/chunk.ts:21 | Trimming twice is trimming once. |
| Text.Split | src/rag/llm.ts:33 | Splitting on a character gives at least one piece. No piece holds the separator, and joining the pieces with it rebuilds the text. |
| Text.DecimalRoundTrip | src/ingest/run.ts:90 | The decimal rendering of an index reads back as that index. |
| Llm.LlmTimeoutMs | src/rag/llm.ts:1-5 | The chat timeout is at least 1000: 20000 when unset or not finite, 1000 when empty, else the truncated value raised to 1000. |
| Llm.SplitUniqueCsv | src/rag/llm.ts:32-34 | The model list keeps the first occurrence of each trimmed, non-empty comma-separated piece. |
| Llm.SplitUniqueCsvSpec | src/rag/llm.ts:32-34 | The models are non-empty, trimmed, comma-free and distinct. They are exactly the non-empty trimmed pieces. |
| Llm.SplitUniqueCsvCovers | src/rag/llm.ts:32-34 | Each non-blank piece of the setting appears, trimmed, in the list. |
| Llm.UiModelsSource | src/rag/llm.ts:40-46 | The list comes from the first defined of `UI_CHAT_MODELS_GEMINI`, `GEMINI_CHAT_MODELS` and `GEMINI_CHAT_MODEL`, else from the default pair. |
| Llm.UiChatModels | src/rag/llm.ts:40-47 | The offered models are distinct, non-empty and trimmed. |
| Llm.UiChatModelsEmptyKept | src/rag/llm.ts:41-46 | A defined but empty `UI_CHAT_MODELS_GEMINI` wins and offers no model, because `??` only skips undefined. |
| Llm.ChatModel | src/rag/llm.ts:88-96 | The model is the trimmed request when not blank, else a non-empty `GEMINI_CHAT_MODEL`, else `gemini-2.5-flash`, so never empty. |
| Llm.ChatModelKeepsOffered | src/rag/llm.ts:88-96 | An offered model is used as it is. |
| Llm.AskLlmGemini | src/rag/llm.ts:49-86 | A blank key fails before any request. Otherwise the request carries the model, the prompt, the trimmed key and the timeout. The outcome is what the server's reply to that request gives, and an answer is never blank and always trimmed. |
| Llm.Answer | src/rag/llm.ts:56-85 | A timeout, transport failure or non-2xx status fails with the matching error. A 2xx with JSON gives the extracted text, and a 2xx without JSON fails. |
| Llm.ReplyText | src/rag/llm.ts:77-85 | The extracted text is non-empty and trimmed. Without a parts array, or when the joined parts are blank, it is the fallback sentence. |
| Llm.ReplyTextKeepsParts | src/rag/llm.ts:77-83 | Every non-blank string part appears, trimmed, in the answer. |
| Llm.AskLlm | src/rag/llm.ts:88-97 | The request names the chosen model, and failing for the missing key is the same as making no request. |
| Llm.NoKeyNoRequest | src/rag/llm.ts:51-54 | Without a key the outcome does not depend on the chat server. |
| Chat.Validate | src/routes/chat.ts:12-17 | A body passes exactly when it is an object with a 3 to 2000 character question, an optional string conversation id, an optional provider `ollama` or `gemini`, and an optional model of 2 to 120 characters. |
| Chat.EffectiveProvider | src/routes/chat.ts:57-61 | The provider is the requested one when it is enabled, else the default. It is always an enabled one. |
| Chat.SelectedModel | src/routes/chat.ts:62-65 | A model is selected exactly when the trimmed request is non-empty and offered, and then it is that trimmed request. |
| Chat.SelectedModelOffered | src/routes/chat.ts:62-65 | Since offered models are never empty, being offered alone decides. |
| Chat.ConfidenceOf | src/routes/chat.ts:167-168 | High exactly from 0.85, medium exactly on [0.8, 0.85), low below 0.8. |
| Chat.ConfidenceMonotone | src/routes/chat.ts:167-168 | A higher score never gets a lower grade. |
| Chat.IncludesContains | src/routes/chat.ts:73-78 | The position-by-position `includes` agrees with occurrence of the fragment. |
| Chat.AnswerText | src/routes/chat.ts:80-159 | A model answer is sent as it is, and every fixed reply starts with its fixed text. |
| Chat.NotesListSources | src/routes/chat.ts:106-158 | The no-LLM, LLM-down and bad-provider replies list every source as `- title: url`. |
| Chat.HandleChat | src/routes/chat.ts:46-175 | An invalid body is rejected with nothing else done, and no request reaches the model without an `askLlm` call. |
| Chat.Respond | src/routes/chat.ts:67-174 | The model is called exactly when retrieval matched and `NO_LLM` is not `1`. |
| Chat.Caught | src/routes/chat.ts:125-128 | The catch sees either the answer or the thrown error's message. |
| Chat.AfterLlm | src/routes/chat.ts:125-174 | An answer is returned with the sources and its grade. A failure is either re-thrown or answered at low confidence with the sources. |
| Chat.ModelFailure | src/routes/chat.ts:127-162 | A failed model call is re-thrown with its own message exactly when that message names neither the chat service nor a bad provider. A message naming the chat service gets the unavailable-model note with the sources; a bad provider gets the configuration note. |
| Chat.AsksOnlyWithEvidence | src/routes/chat.ts:49-126 | The model is asked exactly when the body is valid, retrieval matched and `NO_LLM` is not `1`. |
| Chat.RejectsBeforeRetrieval | src/routes/chat.ts:49-55 | An invalid body's reply does not depend on retrieval or the model. |
| Chat.RefusesWithoutEvidence | src/routes/chat.ts:92-100 | No match gives the fixed refusal, no sources, low confidence and no model call. |
| Chat.RetrievalFailure | src/routes/chat.ts:71-89 | A retrieval error naming the embedding service gets the fixed reply, and any other is re-thrown. |
| Chat.GradedOnlyFromModel | src/routes/chat.ts:104-174 | A grade above low only comes from a model answer, graded by the best score. |
| Chat.ModelAnswerKeepsSources | src/routes/chat.ts:170-174 | A model answer is returned with all the retrieval's sources and is never blank. |
| Chat.SelectedModelSent | src/routes/chat.ts:62-65 | An offered model chosen in the request is the model the chat request names. |
| Chat.EmbeddingErrorsRecognised | src/routes/chat.ts:73-79 | The embedding client's timeout, status, too-long and missing-key errors all match one of the recognised fragments. |
| Chat.LlmErrorsRecognised | src/routes/chat.ts:130-139 | The chat client's missing-key, timeout and status errors all match one of the recognised fragments. |
| Chat.EmbeddingFailureAnswered | src/routes/chat.ts:71-87 | Those embedding failures get the fixed reply and are never re-thrown. |
| Chat.LlmFailureAnswered | src/routes/chat.ts:127-149 | Those chat failures get the sources at low confidence and are never re-thrown. |

## Left out

- Network access, `fetch`, `AbortController` timers and `sleep`. Replies are
  parameters; a timeout is one kind of reply; pauses and waits are returned
  as values rather than slept.
- Randomness and the clock. The jitter draw and `Date.now()` are parameters;
  `Date.parse` is an oracle field of the header.
- HTML parsing. `node-html-parser` is an oracle that gives the heading and
  title texts, the noise-free text of each candidate container, and a page's
  anchors.
- The WHATWG URL parser. Resolution, parsing and printing are parameters;
  `NormalizeUrlIdempotent` assumes printing and parsing round-trip.
- Query-string percent-encoding in `normalizeUrl`. The page value is kept as
  the parsed value.
- The tokenizer of the local embedder. Lower-casing, NFKD normalization and
  the Unicode-class regular expression are a parameter giving the tokens as
  UTF-16 code units.
- Floating point. Scores and settings are exact reals, and `Math.sqrt` is a
  parameter. Settings read through the finite-or-default readers
  (`getEnvNum` and the embedding and chat timeouts, dimension and budgets)
  have a "not finite" case for `NaN` and the infinities. The crawler's
  `KB_MAX_PAGES`, `SCRAPE_RETRIES`, `SCRAPE_MIN_DELAY_MS` and
  `SCRAPE_MAX_DELAY_MS` are read with a bare `Number(...)` and are finite
  reals here.
- `Crawl.Fetch`: `SCRAPE_RETRIES=Infinity`, which retries 429 and 5xx replies
  forever, is not modelled, because the retry count must be finite for the
  loop's measure. `NaN` is not modelled either: the code then makes no
  request and fails with status 0, the same as a negative count.
- `Discover.DiscoverArticleUrls`: `KB_MAX_PAGES=Infinity`, which removes the
  page cap, is not modelled, because the cap bounds the walk. `NaN` is not
  modelled either: the code then visits no page and finds no article.
- Text outside the Basic Multilingual Plane. String lengths are counted in
  characters, which equal JavaScript's UTF-16 lengths only on BMP text.
- Lower-casing. Only ASCII letters are lowered. The lowered text is compared
  against ASCII fragments and provider names, which no other character
  lowers onto, so the comparisons are the code's.
- `Embed.EmbedText`: the unsupported-provider message shows the name with
  only its ASCII letters lowered. `toLowerCase()` lowers every letter, so
  `EMBED_PROVIDER=Ö` reads "ö" in the code's message and "Ö" in the model's.
- `Embed.EmbedText`: its local branch uses the corrected dimension
  `Embed.LocalDim` (see Findings). The code's own behaviour is
  `Embed.EmbedLocalAsWritten`, which embeds every text as `[]` for settings in
  (0, 1). Running out of memory on a large but valid array length is not
  modelled.
- Concurrency in the ingest run. `pLimit` runs articles in parallel; the model
  processes them in discovery order, so item order across articles is that
  order.
- Reading and writing `vectors.json`, logging, progress counters and the
  `created_at` stamp. The stored index is a parameter of retrieval, and the
  code does not validate it either.
- The prompt template in `src/rag/prompt.ts`. It is a parameter of the chat
  handler.
- The `/v1/models` route and the static UI in `src/routes/ui.ts`. These are
  display code and are not part of this model.
- The 400 reply's `details` (zod's flattened error). A rejection is a single
  case.
- `Crawl.ParseRetryAfterMs`: the date branch's value is not stated in the
  contract beyond being non-negative.
- `Embed.Ollama`: the contract states the prompt bounds. The reply order and
  the outcome are stated by the lemmas about `Embed.OllamaFrom`.
- `Chat.HandleChat`: its contract states only rejection and call/request
  consistency. The answers themselves are stated about `Chat.Respond` by the
  lemmas that follow it.

Three behaviours of the code are easy to miss, and the model keeps them:

- `fetchHtml` retries only 429 and 5xx statuses (`src/ingest/crawl.ts:54`); any other failing status ends the fetch with an error.
- A rejected `fetch` leaves `fetchHtml` at once: nothing around the call at `src/ingest/crawl.ts:44` catches it, so transport errors are never retried.
- Nothing checks the dimension of the stored vectors: `cosineSimilarity` scores a vector of another length 0 (`src/rag/score.ts:2`).

## Findings

| source | as written | input that shows it | evidently intended | confidence | as-written member | corrected member |
|---|---|---|---|---|---|---|
| src/ingest/embed.ts:29-32 | `Number.isFinite(v) && v > 0 ? Math.floor(v) : 512` accepts any positive value and floors it afterwards | `EMBED_LOCAL_DIM=0.5` gives dimension 0, so every local embedding is the empty vector | a dimension of at least 1, falling back to 512 | medium, not executed | Embed.LocalDimAsWritten, Embed.EmbedLocalAsWrittenEmptyAtHalf | Embed.LocalDim, Embed.EmbedLocal |

=== FILE: arith.dfy ===
/** Small facts of ordered-field arithmetic over the reals that the
    similarity and back-off proofs share. */
module Arith {

  lemma MulLeNonneg(k: real, x: real, y: real)
    requires k >= 0.0 && x <= y
    ensures k * x <= k * y
  {
  }

  lemma MulLtPos(k: real, x: real, y: real)
    requires k > 0.0 && x < y
    ensures k * x < k * y
  {
  }

  /** A fraction `u` of a positive `m` lies in `[0, m)`; the product is a
      parameter so that callers hand over the very term they hold. */
  lemma UnitScaled(u: real, m: real, x: real)
    requires 0.0 <= u < 1.0 && m > 0.0 && x == u * m
    ensures 0.0 <= x < m
  {
  }

  lemma DivCancel(x: real, y: real)
    requires x != 0.0
    ensures x * (y / x) == y
  {
  }

  lemma DivSelf(x: real)
    requires x != 0.0
    ensures x / x == 1.0
  {
  }

  lemma MulPos(a: real, b: real, p: real)
    requires a > 0.0 && b > 0.0 && p == a * b
    ensures p > 0.0
  {
  }

  /** The square `e` of a non-zero `x` is positive. The square is a
      parameter so that callers hand over the very term they hold. */
  lemma SquarePos(x: real, e: real)
    requires x != 0.0 && e == x * x
    ensures e > 0.0
  {
    if x > 0.0 {
      MulPos(x, x, e);
    } else {
      MulPos(-x, -x, e);
    }
  }

  /** `(x / d)² = x² / d²`. Every product is a parameter, so that callers
      hand over the very terms they hold. */
  lemma DivSquare(x: real, d: real, q: real, qq: real, xx: real, dd: real, p: real)
    requires d != 0.0 && q == x / d && qq == q * q && xx == x * x && dd == d * d
    requires dd != 0.0 && p == xx / dd
    ensures qq == p
  {
    DivCancel(d, x);
    assert dd * qq == (d * q) * (d * q);
    DivCancel(dd, xx);
    MulCancel(dd, qq, p);
  }

  lemma MulCancel(k: real, a: real, b: real)
    requires k != 0.0 && k * a == k * b
    ensures a == b
  {
    assert k * (a - b) == 0.0;
  }

  lemma DivAdd(a: real, b: real, c: real)
    requires c != 0.0
    ensures a / c + b / c == (a + b) / c
  {
  }

  lemma SquareLt(p: real, d: real)
    requires 0.0 <= p < d
    ensures p * p < d * d
  {
    calc {
      p * p;
    <= { MulLeNonneg(p, p, d); }
      p * d;
    <  { MulLtPos(d, p, d); }
      d * d;
    }
  }

  lemma DivWithin(d: real, p: real)
    requires p > 0.0 && -p <= d <= p
    ensures -1.0 <= d / p <= 1.0
  {
    var q := d / p;
    DivCancel(p, d);
    if q > 1.0 {
      calc {
        p;
      <  { MulLtPos(p, 1.0, q); }
        p * q;
      ==
        d;
      }
    } else if q < -1.0 {
      calc {
        d;
      ==
        p * q;
      <  { MulLtPos(p, q, -1.0); }
        -p;
      }
    }
  }

  /** A non-negative `p` whose square bounds `d²` bounds `|d|`. */
  lemma AbsBound(d: real, p: real)
    requires p >= 0.0 && d * d <= p * p
    ensures -p <= d <= p
  {
    if d > p {
      SquareLt(p, d);
    } else if d < -p {
      SquareLt(p, -d);
    }
  }
}

=== FILE: article.dfy ===
/** The article extractor (`src/ingest/parseArticle.ts`) after the HTML is
    parsed: choosing the title, choosing the content container, cleaning its
    text and rejecting pages with too little of it. The document tree is an
    oracle: the trimmed-or-absent texts of the first `h1` and `title`, and
    for each container selector the text of its first match once `script`,
    `style`, `noscript` and `svg` elements, and inside it `nav`, `aside`,
    `footer`, `form` and `button` elements, are removed. */
module Article {
  import opened Wrappers
  import opened Text

  /** The title used when the page has neither heading nor title text. */
  const DefaultTitle := "Artículo"

  /** Bodies shorter than this are rejected. */
  const MinBodyChars: nat := 120

  /** The containers tried for the body, most specific first (the layouts of
      the help-centre product the knowledge base is hosted on). */
  const ContainerSelectors: seq<string> := [
    ".solution-article-content",
    ".article-description",
    ".solution-article",
    ".article-content",
    ".kb-article",
    "article",
    "main"
  ]

  /** What the extractor reads off the parsed document. `h1` and `docTitle`
      are the texts of the first `h1` and `title` elements, if any;
      `container(sel)` is the cleaned-of-noise text of the first element
      matching `sel`, if any; `rootText` is the text of the whole document
      once noise is removed. */
  datatype Page = Page(h1: Option<string>, docTitle: Option<string>,
                       container: string -> Option<string>, rootText: string)

  datatype ParsedArticle = ParsedArticle(title: string, bodyText: string)

  /** JavaScript truthiness of an optional trimmed text: present and not
      empty. */
  predicate Truthy(t: Option<string>) {
    t.Some? && |Trim(t.value)| > 0
  }

  // ---------------------------------------------------------------- title

  /** `(h1 || docTitle || "Artículo")`, each text trimmed first. */
  function TitleSource(h1: Option<string>, docTitle: Option<string>): (r: string)
    ensures |r| > 0 && Trimmed(r)
  {
    if Truthy(h1) then Trim(h1.value)
    else if Truthy(docTitle) then Trim(docTitle.value)
    else DefaultTitle
  }

  /** The title with its whitespace runs collapsed to single spaces and
      trimmed: never empty, trimmed, and single-spaced, and carrying exactly
      the non-blank characters of the heading, else of the document title
      (the default case is `TitleDefault`). */
  function Title(h1: Option<string>, docTitle: Option<string>): (r: string)
    ensures |r| > 0 && Trimmed(r) && SingleSpaced(r)
    ensures Truthy(h1) ==> NonBlank(r) == NonBlank(h1.value)
    ensures !Truthy(h1) && Truthy(docTitle) ==> NonBlank(r) == NonBlank(docTitle.value)
  {
    var t := TitleSource(h1, docTitle);
    TitleSourceText(h1, docTitle);
    CollapseSpacesKeepsText(t);
    TrimKeepsText(CollapseSpaces(t));
    CollapseStartsWith(t);
    CollapseSpacesShape(t);
    var c := CollapseSpaces(t);
    var r := Trim(c);
    SingleSpacedSlice(c, SpaceRun(c), SpaceRun(c) + |r|);
    r
  }

  /** The chosen source has the text of the heading, else of the document
      title. */
  lemma TitleSourceText(h1: Option<string>, docTitle: Option<string>)
    ensures Truthy(h1) ==> NonBlank(TitleSource(h1, docTitle)) == NonBlank(h1.value)
    ensures !Truthy(h1) && Truthy(docTitle) ==> NonBlank(TitleSource(h1, docTitle)) == NonBlank(docTitle.value)
    ensures !Truthy(h1) && !Truthy(docTitle) ==> TitleSource(h1, docTitle) == DefaultTitle
  {
    if Truthy(h1) {
      TrimKeepsText(h1.value);
    } else if Truthy(docTitle) {
      TrimKeepsText(docTitle.value);
    }
  }

  /** The title is in normal form: collapsing and trimming it again changes
      nothing. */
  lemma TitleNormalForm(h1: Option<string>, docTitle: Option<string>)
    ensures Trim(CollapseSpaces(Title(h1, docTitle))) == Title(h1, docTitle)
  {
    var r := Title(h1, docTitle);
    CollapseSpacesFixed(r);
    TrimTrimmed(r);
  }

  /** A page with neither a heading nor a title text gets the default
      title. */
  lemma TitleDefault(h1: Option<string>, docTitle: Option<string>)
    requires !Truthy(h1) && !Truthy(docTitle)
    ensures Title(h1, docTitle) == DefaultTitle
  {
    DefaultTitleNormal();
  }

  lemma DefaultTitleNormal()
    ensures Trim(CollapseSpaces(DefaultTitle)) == DefaultTitle
  {
    assert forall i :: 0 <= i < |DefaultTitle| ==> !IsSpace(DefaultTitle[i]);
    CollapseSpacesFixed(DefaultTitle);
    TrimTrimmed(DefaultTitle);
  }

  /** A heading with text decides the title whatever the document title
      says. */
  lemma TitlePrefersHeading(h1: Option<string>, docTitle: Option<string>, other: Option<string>)
    requires Truthy(h1)
    ensures Title(h1, docTitle) == Title(h1, other)
  {
  }

  // ----------------------------------------------------------------- body

  /** The position of the first selector in `sels` that matches. */
  function FirstPresent(sels: seq<string>, container: string -> Option<string>): (k: nat)
    ensures k <= |sels|
    ensures forall j :: 0 <= j < k ==> container(sels[j]).None?
    ensures k < |sels| ==> container(sels[k]).Some?
  {
    if |sels| == 0 then 0
    else if container(sels[0]).Some? then 0
    else 1 + FirstPresent(sels[1..], container)
  }

  /** `candidates[0] ?? root`: the text of the first container present, or
      the whole document's when none is. */
  function BestText(page: Page): (r: string)
    ensures var k := FirstPresent(ContainerSelectors, page.container);
      && (k < |ContainerSelectors| ==> r == page.container(ContainerSelectors[k]).value)
      && (k == |ContainerSelectors| ==> r == page.rootText)
  {
    var k := FirstPresent(ContainerSelectors, page.container);
    if k < |ContainerSelectors| then page.container(ContainerSelectors[k]).value else page.rootText
  }

  /** `s.replace(/\u00a0/g, " ")`: non-breaking spaces become plain ones. */
  function ReplaceNbsp(s: string): (r: string)
    ensures |r| == |s| && '\U{A0}' !in r
    ensures forall i :: 0 <= i < |s| && s[i] != '\U{A0}' ==> r[i] == s[i]
    ensures forall i :: 0 <= i < |s| && s[i] == '\U{A0}' ==> r[i] == ' '
    ensures NonBlank(r) == NonBlank(s)
  {
    var r := seq(|s|, i requires 0 <= i < |s| => if s[i] == '\U{A0}' then ' ' else s[i]);
    NonBlankSameText(s, r);
    r
  }

  lemma ReplaceNbspFixed(s: string)
    requires '\U{A0}' !in s
    ensures ReplaceNbsp(s) == s
  {
  }

  /** No non-breaking space, no space or tab before a line break, no three
      line breaks in a row, and no whitespace at either end. */
  predicate Clean(s: string) {
    '\U{A0}' !in s && NoBlankBeforeNewline(s) && NoTripleNewline(s) && Trimmed(s)
  }

  /** Whitespace at line ends and runs of blank lines removed, then
      trimmed. */
  function CleanBody(s: string): (r: string)
    ensures Clean(r)
    ensures NonBlank(r) == NonBlank(s)
  {
    var a := ReplaceNbsp(s);
    var b := StripLineEndBlanks(a);
    StripStage(a);
    StripLineEndBlanksKeepsText(a);
    var c := CollapseBlankLines(b);
    CollapseStage(b);
    CollapseBlankLinesKeepsText(b);
    TrimStage(c);
    TrimKeepsText(c);
    Trim(c)
  }

  lemma StripStage(a: string)
    requires '\U{A0}' !in a
    ensures '\U{A0}' !in StripLineEndBlanks(a) && NoBlankBeforeNewline(StripLineEndBlanks(a))
  {
    StripLineEndBlanksNoBlankBeforeNewline(a);
  }

  lemma CollapseStage(b: string)
    requires '\U{A0}' !in b && NoBlankBeforeNewline(b)
    ensures var c := CollapseBlankLines(b);
      '\U{A0}' !in c && NoBlankBeforeNewline(c) && NoTripleNewline(c)
  {
    CollapseBlankLinesKeepsNoBlank(b);
  }

  lemma TrimStage(c: string)
    requires '\U{A0}' !in c && NoBlankBeforeNewline(c) && NoTripleNewline(c)
    ensures Clean(Trim(c))
  {
    var r := Trim(c);
    var a := SpaceRun(c);
    NoBlankBeforeNewlineSlice(c, a, a + |r|);
    NoTripleSlice(c, a, a + |r|);
  }

  /** Cleaning is idempotent: a cleaned body is left as it is. */
  lemma CleanBodyIdempotent(s: string)
    ensures CleanBody(CleanBody(s)) == CleanBody(s)
  {
    CleanFixed(CleanBody(s));
  }

  /** Clean text is left as it is. */
  lemma CleanFixed(r: string)
    requires Clean(r)
    ensures CleanBody(r) == r
  {
    ReplaceNbspFixed(r);
    StripLineEndBlanksFixed(r);
    CollapseBlankLinesFixed(r);
    TrimTrimmed(r);
  }

  // -------------------------------------------------------------- article

  /** `parseArticleHtml`: no article when the cleaned body is shorter than
      the minimum (an empty one included); otherwise the title and the
      cleaned body. */
  function ParseArticleHtml(page: Page): (r: Option<ParsedArticle>)
    ensures r.None? <==> |CleanBody(BestText(page))| < MinBodyChars
    ensures r.Some? ==> && r.value.title == Title(page.h1, page.docTitle)
                        && r.value.bodyText == CleanBody(BestText(page))
                        && |r.value.title| > 0
                        && |r.value.bodyText| >= MinBodyChars
  {
    var title := Title(page.h1, page.docTitle);
    var body := CleanBody(BestText(page));
    if |body| == 0 || |body| < MinBodyChars then None else Some(ParsedArticle(title, body))
  }

  /** An accepted article is stable under re-extraction: feeding its body
      back as the page text yields the same body. */
  lemma ParsedBodyStable(page: Page, other: Page)
    requires ParseArticleHtml(page).Some?
    requires FirstPresent(ContainerSelectors, other.container) == |ContainerSelectors|
    requires other.rootText == ParseArticleHtml(page).value.bodyText
    requires other.h1 == page.h1 && other.docTitle == page.docTitle
    ensures ParseArticleHtml(other) == ParseArticleHtml(page)
  {
    CleanBodyIdempotent(BestText(page));
  }

  /** Only the first present container matters: containers after it can
      change freely without changing the article. */
  lemma LaterContainersIgnored(page: Page, other: Page, k: nat)
    requires k < |ContainerSelectors|
    requires forall j :: 0 <= j <= k ==> other.container(ContainerSelectors[j]) == page.container(ContainerSelectors[j])
    requires page.container(ContainerSelectors[k]).Some?
    requires other.h1 == page.h1 && other.docTitle == page.docTitle
    ensures ParseArticleHtml(other) == ParseArticleHtml(page)
  {
    FirstPresentPrefix(ContainerSelectors, page.container, other.container, k);
  }

  lemma {:induction false} FirstPresentPrefix(sels: seq<string>, f: string -> Option<string>, g: string -> Option<string>, k: nat)
    requires k < |sels|
    requires forall j :: 0 <= j <= k ==> f(sels[j]) == g(sels[j])
    requires f(sels[k]).Some?
    ensures FirstPresent(sels, f) == FirstPresent(sels, g) <= k
    decreases k
  {
    if k > 0 && f(sels[0]).None? {
      forall j | 0 <= j <= k - 1 ensures f(sels[1..][j]) == g(sels[1..][j]) {
        assert sels[1..][j] == sels[j + 1];
      }
      FirstPresentPrefix(sels[1..], f, g, k - 1);
    }
  }
}

=== FILE: chat.dfy ===
/** The `/v1/chat` handler (`src/routes/chat.ts`): it validates the body and
    picks the provider and the model. It retrieves context, refuses without
    evidence and stays off the model when `NO_LLM=1`. Otherwise it asks the
    model and grades the answer by the best score, turning known service
    failures into fixed answers. Retrieval, the prompt template and the chat
    server are inputs. */
module Chat {
  import opened Wrappers
  import opened Text
  import Retrieve
  import Llm
  import Embed

  // ------------------------------------------------------------ validation

  /** A field of the JSON body: absent, a string, or any other JSON value. */
  datatype Field = Missing | Str(s: string) | NotStr

  /** The request body: not an object, or an object with the four fields
      the schema knows (others are ignored). */
  datatype Body = NotObject | Object(question: Field, conversationId: Field, provider: Field, model: Field)

  /** The validated request. */
  datatype ChatIn = ChatIn(question: string, provider: Option<string>, model: Option<string>)

  /** The providers the schema accepts. */
  const SchemaProviders: seq<string> := ["ollama", "gemini"]

  predicate QuestionOk(f: Field) {
    f.Str? && 3 <= |f.s| <= 2000
  }

  predicate ConversationOk(f: Field) {
    f.Missing? || f.Str?
  }

  predicate ProviderOk(f: Field) {
    f.Missing? || (f.Str? && f.s in SchemaProviders)
  }

  predicate ModelOk(f: Field) {
    f.Missing? || (f.Str? && 2 <= |f.s| <= 120)
  }

  /** The value of an optional string field. */
  function Given(f: Field): Option<string> {
    if f.Str? then Some(f.s) else None
  }

  /** `ChatIn.safeParse`: the body passes when it is an object with a
      question of 3 to 2000 characters, an optional string conversation id,
      an optional provider among the two accepted, and an optional model of
      2 to 120 characters. */
  function Validate(body: Body): (r: Option<ChatIn>)
    ensures r.Some? <==> && body.Object? && QuestionOk(body.question) && ConversationOk(body.conversationId)
                         && ProviderOk(body.provider) && ModelOk(body.model)
    ensures r.Some? ==> && 3 <= |r.value.question| <= 2000
                        && (r.value.provider.Some? ==> r.value.provider.value in SchemaProviders)
                        && (r.value.model.Some? ==> 2 <= |r.value.model.value| <= 120)
    ensures r.Some? ==> r.value == ChatIn(body.question.s, Given(body.provider), Given(body.model))
  {
    match body
    case NotObject => None
    case Object(question, conversationId, provider, model) =>
      if QuestionOk(question) && ConversationOk(conversationId) && ProviderOk(provider) && ModelOk(model)
      then Some(ChatIn(question.s, Given(provider), Given(model)))
      else None
  }

  // ------------------------------------------------------- provider, model

  /** The requested provider when it is enabled, else the default. */
  function EffectiveProvider(requested: Option<string>): (p: string)
    ensures p in Llm.UiProviders
    ensures requested.Some? && requested.value in Llm.UiProviders ==> p == requested.value
    ensures !(requested.Some? && requested.value in Llm.UiProviders) ==> p == Llm.DefaultProvider
  {
    if requested.Some? && |requested.value| > 0 && requested.value in Llm.UiProviders then requested.value
    else Llm.DefaultProvider
  }

  /** The requested model, trimmed, when it is among the offered ones;
      otherwise none, and the client falls back on its own choice. */
  function SelectedModel(requested: Option<string>, allowed: seq<string>): (m: Option<string>)
    ensures m.Some? <==> requested.Some? && Trim(requested.value) in allowed && |Trim(requested.value)| > 0
    ensures m.Some? ==> m.value == Trim(requested.value) && m.value in allowed
  {
    if requested.Some? && |Trim(requested.value)| > 0 && Trim(requested.value) in allowed
    then Some(Trim(requested.value))
    else None
  }

  /** Since the offered models are never empty, only membership decides. */
  lemma SelectedModelOffered(requested: Option<string>, env: Llm.LlmEnv)
    ensures SelectedModel(requested, Llm.UiChatModels(env)).Some? <==>
              requested.Some? && Trim(requested.value) in Llm.UiChatModels(env)
  {
  }

  // ---------------------------------------------------------- confidence

  datatype Confidence = Low | Medium | High

  /** The grade of an answer by the best chunk's score. */
  function ConfidenceOf(topScore: real): (c: Confidence)
    ensures c == High <==> topScore >= 0.85
    ensures c == Medium <==> 0.8 <= topScore < 0.85
    ensures c == Low <==> topScore < 0.8
  {
    if topScore >= 0.85 then High else if topScore >= 0.8 then Medium else Low
  }

  function Rank(c: Confidence): nat {
    match c
    case Low => 0
    case Medium => 1
    case High => 2
  }

  /** A better score never lowers the grade. */
  lemma ConfidenceMonotone(a: real, b: real)
    requires a <= b
    ensures Rank(ConfidenceOf(a)) <= Rank(ConfidenceOf(b))
  {
  }

  // ------------------------------------------------------------- messages

  /** `s.includes(p)`, tried position by position. */
  predicate Includes(s: string, p: string)
    decreases |s|
  {
    |p| <= |s| && (s[..|p|] == p || Includes(s[1..], p))
  }

  /** The positional search agrees with occurrence. */
  lemma {:induction false} IncludesContains(s: string, p: string)
    ensures Includes(s, p) <==> Contains(s, p)
    decreases |s|
  {
    if |p| <= |s| {
      if s[..|p|] == p {
        assert OccursAt(s, p, 0);
      } else {
        IncludesContains(s[1..], p);
        if Contains(s[1..], p) {
          var i :| 0 <= i <= |s[1..]| - |p| && OccursAt(s[1..], p, i);
          ShiftRight(s, p, i);
        }
        if Contains(s, p) {
          var i :| 0 <= i <= |s| - |p| && OccursAt(s, p, i);
          ShiftLeft(s, p, i);
        }
      }
    }
  }

  lemma ShiftRight(s: string, p: string, i: nat)
    requires |s| > 0 && OccursAt(s[1..], p, i)
    ensures Contains(s, p)
  {
    assert s[i + 1..i + 1 + |p|] == s[1..][i..i + |p|];
    assert OccursAt(s, p, i + 1);
  }

  lemma ShiftLeft(s: string, p: string, i: nat)
    requires OccursAt(s, p, i) && s[..|p|] != p
    ensures Contains(s[1..], p)
  {
    assert s[1..][i - 1..i - 1 + |p|] == s[i..i + |p|];
    assert OccursAt(s[1..], p, i - 1);
  }

  /** Failures of the embedding service, recognised by their message. */
  predicate EmbeddingDown(msg: string) {
    || Includes(msg, "Embedding request timeout")
    || Includes(msg, "Ollama embeddings error")
    || Includes(msg, "Gemini embeddings error")
    || Includes(msg, "ECONNREFUSED")
    || Includes(msg, "fetch failed")
  }

  /** Failures of the chat model, recognised by their message; the test on
      the lower-cased message only looks for ASCII letters, which no other
      character lower-cases onto. */
  predicate LlmDown(provider: string, msg: string) {
    && (provider == "ollama" || provider == "gemini")
    && (|| Includes(msg, "ECONNREFUSED")
        || Includes(msg, "fetch failed")
        || Includes(msg, "LLM request timeout")
        || Includes(msg, "Ollama chat error")
        || Includes(msg, "Gemini chat error")
        || Includes(AsciiLower(msg), "model"))
  }

  predicate BadProvider(msg: string) {
    Includes(msg, "Unsupported LLM_PROVIDER")
  }

  /** `- <title>: <url>` per source, one per line. */
  function SourceLines(sources: seq<Retrieve.Source>): string {
    Join(seq(|sources|, i requires 0 <= i < |sources| => SourceLine(sources[i])), "\n")
  }

  function SourceLine(s: Retrieve.Source): string {
    "- " + s.title + ": " + s.url
  }

  /** Every source is listed. */
  lemma SourceLinesListEvery(sources: seq<Retrieve.Source>, i: nat)
    requires i < |sources|
    ensures Contains(SourceLines(sources), SourceLine(sources[i]))
  {
    var lines := seq(|sources|, i requires 0 <= i < |sources| => SourceLine(sources[i]));
    JoinContainsParts(lines, "\n");
    assert lines[i] == SourceLine(sources[i]);
  }

  /** The answers the handler gives: the model's text, or one of the fixed
      replies, some of which list the sources. */
  datatype Answer = FromModel(text: string) | EmbeddingDownNote | Refusal
                  | NoLlmNote(listed: seq<Retrieve.Source>) | LlmDownNote(listed: seq<Retrieve.Source>)
                  | BadProviderNote(listed: seq<Retrieve.Source>)

  /** The fixed text of an answer: all of a fixed reply, the part before
      the source list of a listing one, nothing for the model's. */
  function Preamble(a: Answer): string {
    match a
    case FromModel(_) => ""
    case EmbeddingDownNote =>
      "No pude consultar el servicio de embeddings en este momento.\n\n" +
      "Si usas Ollama, verifica que esté corriendo. Si usas Gemini, revisa GEMINI_API_KEY. También puedes usar EMBED_PROVIDER=local para evitar depender de embeddings remotos."
    case Refusal =>
      "No encontré información suficiente en la base de conocimiento para responder esa consulta.\n\n" +
      "Si quieres, puedes crear un ticket de soporte y te ayudamos."
    case NoLlmNote(_) =>
      "Encontré información relacionada en la base de conocimiento, pero el modo IA está desactivado (NO_LLM=1).\n\n" +
      "Fuentes:\n"
    case LlmDownNote(_) =>
      "No pude consultar el modelo de IA configurado en este momento.\n\n" +
      "Aun así, encontré información relacionada en la base de conocimiento. Revisa estas fuentes:\n"
    case BadProviderNote(_) =>
      "El proveedor de IA configurado no es válido. Usa LLM_PROVIDER=ollama o LLM_PROVIDER=gemini, o activa NO_LLM=1.\n\n" +
      "Mientras tanto, revisa estas fuentes:\n"
  }

  /** The text of an answer as sent to the client: the model's text as it
      is, a fixed reply, or a fixed lead followed by the source lines. */
  function AnswerText(a: Answer): (t: string)
    ensures a.FromModel? ==> t == a.text
    ensures !a.FromModel? ==> StartsWith(t, Preamble(a))
  {
    match a
    case FromModel(text) => text
    case EmbeddingDownNote => Preamble(a)
    case Refusal => Preamble(a)
    case _ =>
      LeadOf(Preamble(a), SourceLines(a.listed));
      Preamble(a) + SourceLines(a.listed)
  }

  lemma LeadOf(q: string, rest: string)
    ensures StartsWith(q + rest, q)
  {
    assert (q + rest)[..|q|] == q;
  }

  /** A listing reply names every source it was given. */
  lemma NotesListSources(a: Answer, i: nat)
    requires a.NoLlmNote? || a.LlmDownNote? || a.BadProviderNote?
    requires i < |a.listed|
    ensures Contains(AnswerText(a), SourceLine(a.listed[i]))
  {
    ListingContains(Preamble(a), a.listed, i);
  }

  lemma ListingContains(head: string, sources: seq<Retrieve.Source>, i: nat)
    requires i < |sources|
    ensures Contains(head + SourceLines(sources), SourceLine(sources[i]))
  {
    SourceLinesListEvery(sources, i);
    ContainsExtend(SourceLines(sources), SourceLine(sources[i]), head, "");
    assert head + SourceLines(sources) + "" == head + SourceLines(sources);
  }

  // -------------------------------------------------------------- handler

  /** What the handler answers: the 400 `invalid_request` reply, an answer
      with its sources and grade, or the error it re-throws (a 500). */
  datatype Response = Rejected | Answered(answer: Answer, sources: seq<Retrieve.Source>, confidence: Confidence)
                    | Thrown(message: string)

  /** The arguments of the `askLlm` call. */
  datatype LlmCall = LlmCall(prompt: string, model: Option<string>)

  /** The response, the `askLlm` call if one was made, and the request that
      reached the chat server if one did. */
  datatype ChatRun = ChatRun(response: Response, call: Option<LlmCall>, request: Option<Llm.GeminiChatRequest>)

  /** `NO_LLM` and the chat client's variables. */
  datatype ChatEnv = ChatEnv(noLlm: Option<string>, llm: Llm.LlmEnv)

  /** The outside world: `retrieveTopK` (its result, or the message it threw),
      the prompt template, and the chat server. */
  datatype Services = Services(retrieve: string -> Result<Retrieve.Retrieval, string>,
                               prompt: (string, string) -> string,
                               send: Llm.GeminiChatRequest -> Llm.ChatReply)

  /** The handler. */
  function HandleChat(env: ChatEnv, body: Body, svc: Services): (run: ChatRun)
    ensures Validate(body).None? ==> run == ChatRun(Rejected, None, None)
    ensures run.request.Some? ==> run.call.Some?
  {
    match Validate(body)
    case None => ChatRun(Rejected, None, None)
    case Some(req) =>
      var provider := EffectiveProvider(req.provider);
      var selected := SelectedModel(req.model, Llm.UiChatModels(env.llm));
      Respond(env, req.question, provider, selected, svc.retrieve(req.question), svc)
  }

  /** The handler once the request is valid and the retrieval is in. */
  function Respond(env: ChatEnv, question: string, provider: string, selected: Option<string>,
                   retrieved: Result<Retrieve.Retrieval, string>, svc: Services): (run: ChatRun)
    ensures run.call.Some? <==> retrieved.Success? && retrieved.value.Match? && env.noLlm != Some("1")
    ensures run.request.Some? ==> run.call.Some?
  {
    match retrieved
    case Failure(msg) =>
      if EmbeddingDown(msg) then ChatRun(Answered(EmbeddingDownNote, [], Low), None, None)
      else ChatRun(Thrown(msg), None, None)
    case Success(NoMatch) => ChatRun(Answered(Refusal, [], Low), None, None)
    case Success(Match(topScore, context, sources)) =>
      if env.noLlm == Some("1") then ChatRun(Answered(NoLlmNote(sources), sources, Low), None, None)
      else
        var prompt := svc.prompt(question, context);
        var llm := Llm.AskLlm(env.llm, prompt, selected, svc.send);
        ChatRun(AfterLlm(provider, sources, topScore, Caught(llm.outcome)), Some(LlmCall(prompt, selected)), llm.request)
  }

  /** The model's answer, or the message of the error the call threw. */
  function Caught(outcome: Result<string, Llm.LlmError>): (r: Result<string, string>)
    ensures outcome.Success? <==> r.Success?
    ensures outcome.Success? ==> r.value == outcome.value
    ensures outcome.Failure? ==> r.error == Llm.LlmErrorMessage(outcome.error)
  {
    match outcome
    case Success(answer) => Success(answer)
    case Failure(e) => Failure(Llm.LlmErrorMessage(e))
  }

  /** The answer once the model replied or failed. */
  function AfterLlm(provider: string, sources: seq<Retrieve.Source>, topScore: real,
                    outcome: Result<string, string>): (r: Response)
    ensures outcome.Success? ==> r == Answered(FromModel(outcome.value), sources, ConfidenceOf(topScore))
    ensures outcome.Failure? ==> r.Thrown? || (r.Answered? && r.confidence == Low && r.sources == sources)
  {
    match outcome
    case Success(answer) => Answered(FromModel(answer), sources, ConfidenceOf(topScore))
    case Failure(msg) =>
      if LlmDown(provider, msg) then Answered(LlmDownNote(sources), sources, Low)
      else if BadProvider(msg) then Answered(BadProviderNote(sources), sources, Low)
      else Thrown(msg)
  }

  // ----------------------------------------------------------- properties

  /** The model is asked exactly when the request is valid, the retrieval
      found evidence and `NO_LLM` is not `1`. */
  lemma AsksOnlyWithEvidence(env: ChatEnv, body: Body, svc: Services)
    ensures var run := HandleChat(env, body, svc);
      run.call.Some? <==> && Validate(body).Some?
                          && svc.retrieve(Validate(body).value.question).Success?
                          && svc.retrieve(Validate(body).value.question).value.Match?
                          && env.noLlm != Some("1")
  {
  }

  /** An invalid body is rejected before anything is consulted: the reply
      does not depend on the retriever or the servers. */
  lemma RejectsBeforeRetrieval(env: ChatEnv, body: Body, svc: Services, other: Services)
    requires Validate(body).None?
    ensures HandleChat(env, body, svc) == HandleChat(env, body, other) == ChatRun(Rejected, None, None)
  {
  }

  /** Without evidence the handler refuses with no sources and low
      confidence. */
  lemma RefusesWithoutEvidence(env: ChatEnv, question: string, provider: string, selected: Option<string>, svc: Services)
    ensures Respond(env, question, provider, selected, Success(Retrieve.NoMatch), svc)
         == ChatRun(Answered(Refusal, [], Low), None, None)
  {
  }

  /** A failed retrieval is answered with the fixed message when it names
      the embedding service, and re-thrown otherwise. */
  lemma RetrievalFailure(env: ChatEnv, question: string, provider: string, selected: Option<string>,
                         msg: string, svc: Services)
    ensures var run := Respond(env, question, provider, selected, Failure(msg), svc);
      && (EmbeddingDown(msg) ==> run == ChatRun(Answered(EmbeddingDownNote, [], Low), None, None))
      && (!EmbeddingDown(msg) ==> run == ChatRun(Thrown(msg), None, None))
  {
  }

  /** A failed model call is answered with the sources and the fixed note
      when its message names the chat service or a bad provider, and
      re-thrown, as the message of the error, exactly otherwise. */
  lemma ModelFailure(env: ChatEnv, question: string, provider: string, selected: Option<string>,
                     topScore: real, context: string, sources: seq<Retrieve.Source>, svc: Services)
    requires env.noLlm != Some("1")
    requires Llm.AskLlm(env.llm, svc.prompt(question, context), selected, svc.send).outcome.Failure?
    ensures var m := Llm.LlmErrorMessage(Llm.AskLlm(env.llm, svc.prompt(question, context), selected, svc.send).outcome.error);
      var r := Respond(env, question, provider, selected, Success(Retrieve.Match(topScore, context, sources)), svc).response;
      && (r.Thrown? <==> !LlmDown(provider, m) && !BadProvider(m))
      && (r.Thrown? ==> r == Thrown(m))
      && (LlmDown(provider, m) ==> r == Answered(LlmDownNote(sources), sources, Low))
      && (!LlmDown(provider, m) && BadProvider(m) ==> r == Answered(BadProviderNote(sources), sources, Low))
  {
  }

  /** Only a model answer can be graded above low, and its grade is the
      banding of the best score. */
  lemma GradedOnlyFromModel(env: ChatEnv, question: string, provider: string, selected: Option<string>,
                            retrieved: Result<Retrieve.Retrieval, string>, svc: Services)
    requires Respond(env, question, provider, selected, retrieved, svc).response.Answered?
    requires Respond(env, question, provider, selected, retrieved, svc).response.confidence != Low
    ensures retrieved.Success? && retrieved.value.Match? && env.noLlm != Some("1")
    ensures var run := Respond(env, question, provider, selected, retrieved, svc);
      && run.request.Some?
      && run.response.confidence == ConfidenceOf(retrieved.value.topScore)
      && Llm.AskLlm(env.llm, run.call.value.prompt, selected, svc.send).outcome == Success(run.response.answer.text)
      && run.response.answer.FromModel?
  {
  }

  /** A model answer comes back with every source of the retrieval and is
      never blank. */
  lemma ModelAnswerKeepsSources(env: ChatEnv, question: string, provider: string, selected: Option<string>,
                                topScore: real, context: string, sources: seq<Retrieve.Source>, svc: Services)
    requires env.noLlm != Some("1")
    requires Llm.AskLlm(env.llm, svc.prompt(question, context), selected, svc.send).outcome.Success?
    ensures var run := Respond(env, question, provider, selected, Success(Retrieve.Match(topScore, context, sources)), svc);
      && run.response.Answered? && run.response.sources == sources
      && run.response.answer.FromModel?
      && |AnswerText(run.response.answer)| > 0 && Trimmed(AnswerText(run.response.answer))
  {
  }

  /** A model chosen from the offered list is the one the request names. */
  lemma SelectedModelSent(env: ChatEnv, question: string, provider: string, m: string,
                          retrieved: Result<Retrieve.Retrieval, string>, svc: Services)
    requires m in Llm.UiChatModels(env.llm)
    requires Respond(env, question, provider, Some(m), retrieved, svc).request.Some?
    ensures Respond(env, question, provider, Some(m), retrieved, svc).request.value.model == m
  {
    Llm.ChatModelKeepsOffered(env.llm, m);
  }

  // ------------------------------------------------ known service failures

  /** A message includes its leading fragment. */
  lemma IncludesLeading(p: string, rest: string)
    ensures Includes(p + rest, p)
  {
    assert (p + rest)[..|p|] == p;
  }

  /** The embedding client's timeouts, error statuses, missing key and
      overflow all name the embedding service, so the handler answers them
      with the fixed message rather than an error. */
  lemma EmbeddingErrorsRecognised(e: Embed.EmbedError)
    requires e.Timeout? || e.OllamaStatus? || e.OllamaTooLong? || e.GeminiNoKey? || e.GeminiStatus?
    ensures EmbeddingDown(Embed.EmbedErrorMessage(e))
  {
    match e
    case Timeout(ms) =>
      IncludesLeading("Embedding request timeout", " after " + Decimal(if ms < 0 then 0 else ms) + "ms");
    case OllamaStatus(model, status, text, body) =>
      IncludesLeading("Ollama embeddings error", " (" + model + "): " + Decimal(status) + " " + text + ". " + body);
    case OllamaTooLong(model) =>
      IncludesLeading("Ollama embeddings error", " (" + model + "): input too long even after truncation");
    case GeminiNoKey =>
      IncludesLeading("Gemini embeddings error", ": missing GEMINI_API_KEY");
    case GeminiStatus(model, status, text, body) =>
      IncludesLeading("Gemini embeddings error", " (" + model + "): " + Decimal(status) + " " + text + ". " + body);
  }

  /** The chat client's missing key, timeout and error statuses all name the
      chat service, so the handler answers them with the sources instead of
      an error. */
  lemma LlmErrorsRecognised(e: Llm.LlmError)
    requires e.NoKey? || e.Timeout? || e.Status?
    ensures LlmDown(Llm.DefaultProvider, Llm.LlmErrorMessage(e))
  {
    match e
    case NoKey =>
      IncludesLeading("Gemini chat error", ": missing GEMINI_API_KEY");
    case Timeout(ms) =>
      IncludesLeading("LLM request timeout", " after " + Decimal(if ms < 0 then 0 else ms) + "ms");
    case Status(model, status, text, raw) =>
      IncludesLeading("Gemini chat error", " (" + model + "): " + Decimal(status) + " " + text + ". " + raw);
  }

  /** A retrieval that failed in the embedding client is answered with the
      fixed note, never re-thrown. */
  lemma EmbeddingFailureAnswered(env: ChatEnv, question: string, provider: string, selected: Option<string>,
                                 e: Embed.EmbedError, svc: Services)
    requires e.Timeout? || e.OllamaStatus? || e.OllamaTooLong? || e.GeminiNoKey? || e.GeminiStatus?
    ensures Respond(env, question, provider, selected, Failure(Embed.EmbedErrorMessage(e)), svc)
         == ChatRun(Answered(EmbeddingDownNote, [], Low), None, None)
  {
    EmbeddingErrorsRecognised(e);
  }

  /** When the chat client fails for a missing key, a timeout or an error
      status, the handler answers with the sources at low confidence. */
  lemma LlmFailureAnswered(env: ChatEnv, question: string, selected: Option<string>,
                           topScore: real, context: string, sources: seq<Retrieve.Source>, svc: Services)
    requires env.noLlm != Some("1")
    requires var o := Llm.AskLlm(env.llm, svc.prompt(question, context), selected, svc.send).outcome;
      o.Failure? && (o.error.NoKey? || o.error.Timeout? || o.error.Status?)
    ensures Respond(env, question, Llm.DefaultProvider, selected, Success(Retrieve.Match(topScore, context, sources)), svc).response
         == Answered(LlmDownNote(sources), sources, Low)
  {
    LlmErrorsRecognised(Llm.AskLlm(env.llm, svc.prompt(question, context), selected, svc.send).outcome.error);
  }
}

=== FILE: chunk.dfy ===
/** The text chunker (`chunkText`): clamps its configuration, cleans the
    text, and cuts it into overlapping fixed-size windows whose trimmed,
    non-empty contents are the chunks. */
module Chunk {
  import opened Text
  import opened Env

  const DefaultSize: real := 950.0
  const DefaultOverlap: real := 200.0

  /** Chunker configuration after clamping. */
  datatype Config = Config(size: nat, overlap: nat)

  predicate ValidConfig(c: Config) {
    c.size >= 1 && c.overlap <= c.size - 1
  }

  /** The clamp: the size is the truncated raw size raised to at least 1; the
      overlap is the truncated raw overlap forced into `[0, size - 1]`. */
  function ClampConfig(rawSize: real, rawOverlap: real): (c: Config)
    ensures ValidConfig(c)
    ensures Trunc(rawSize) >= 1 ==> c.size == Trunc(rawSize)
    ensures Trunc(rawSize) < 1 ==> c.size == 1
    ensures 0 <= Trunc(rawOverlap) < c.size ==> c.overlap == Trunc(rawOverlap)
    ensures Trunc(rawOverlap) < 0 ==> c.overlap == 0
    ensures Trunc(rawOverlap) >= c.size ==> c.overlap == c.size - 1
  {
    var size := Max(1, Trunc(rawSize));
    var overlap := Min(Max(0, Trunc(rawOverlap)), Max(0, size - 1));
    Config(size, overlap)
  }

  /** `CHUNK_SIZE_CHARS` and `CHUNK_OVERLAP_CHARS` as read by the chunker. */
  function ConfigFromEnv(sizeVar: EnvNum, overlapVar: EnvNum): (c: Config)
    ensures ValidConfig(c)
    ensures sizeVar.Unset? && overlapVar.Unset? ==> c == Config(950, 200)
  {
    ClampConfig(GetEnvNum(sizeVar, DefaultSize), GetEnvNum(overlapVar, DefaultOverlap))
  }

  // ------------------------------------------------------------- cleanup

  /** `s.replace(/\r/g, "")`. */
  function RemoveCarriageReturns(s: string): (r: string)
    ensures '\r' !in r
    ensures forall ch :: ch in r ==> ch in s
  {
    if |s| == 0 then []
    else
      var rest := RemoveCarriageReturns(s[1..]);
      assert forall ch :: ch in s[1..] ==> ch in s;
      if s[0] == '\r' then rest else [s[0]] + rest
  }

  /** The chunker's pre-clean: carriage returns removed, blanks before line
      ends removed, three or more newlines collapsed to two, then trimmed. */
  function Clean(text: string): (r: string)
    ensures Cleaned(r)
    ensures NonBlank(r) == NonBlank(text)
  {
    var a := RemoveCarriageReturns(text);
    RemoveCarriageReturnsKeepsText(text);
    var b := StripLineEndBlanks(a);
    StripLineEndBlanksNoBlankBeforeNewline(a);
    StripLineEndBlanksKeepsText(a);
    var c := CollapseBlankLines(b);
    CollapseBlankLinesKeepsNoBlank(b);
    CollapseBlankLinesKeepsText(b);
    var r := Trim(c);
    TrimKeepsText(c);
    NoBlankBeforeNewlineSlice(c, SpaceRun(c), SpaceRun(c) + |r|);
    NoTripleSlice(c, SpaceRun(c), SpaceRun(c) + |r|);
    r
  }

  /** No carriage return, no space or tab before a line break, no three line
      breaks in a row, and no whitespace at either end. */
  predicate Cleaned(s: string) {
    '\r' !in s && NoBlankBeforeNewline(s) && NoTripleNewline(s) && Trimmed(s)
  }

  /** Only carriage returns are dropped: the text is kept. */
  lemma {:induction false} RemoveCarriageReturnsKeepsText(s: string)
    ensures NonBlank(RemoveCarriageReturns(s)) == NonBlank(s)
    decreases |s|
  {
    if |s| > 0 {
      RemoveCarriageReturnsKeepsText(s[1..]);
      if s[0] != '\r' {
        NonBlankConcat([s[0]], RemoveCarriageReturns(s[1..]));
      }
    }
  }

  lemma {:induction false} RemoveCarriageReturnsFixed(s: string)
    requires '\r' !in s
    ensures RemoveCarriageReturns(s) == s
  {
    if |s| > 0 {
      RemoveCarriageReturnsFixed(s[1..]);
      assert s == [s[0]] + s[1..];
    }
  }

  /** Cleaned text is left as it is: every stage of the pre-clean has
      nothing to do on it. */
  lemma CleanFixed(s: string)
    requires Cleaned(s)
    ensures Clean(s) == s
  {
    RemoveCarriageReturnsFixed(s);
    StripLineEndBlanksFixed(s);
    CollapseBlankLinesFixed(s);
    TrimTrimmed(s);
  }

  /** Cleaning twice is cleaning once. */
  lemma CleanIdempotent(text: string)
    ensures Clean(Clean(text)) == Clean(text)
  {
    CleanFixed(Clean(text));
  }

  // ------------------------------------------------------------- windows

  /** The half-open range `[start, end)` of the cleaned text that one loop
      iteration looks at. */
  datatype Window = Window(start: nat, end: nat)

  predicate WithinText(ws: seq<Window>, n: nat) {
    forall i :: 0 <= i < |ws| ==> ws[i].start <= ws[i].end <= n
  }

  /** The windows the sliding loop visits once it is at `start`: one window
      `[start, min(start + size, len))`, then, unless that one reached the
      end, the windows from `end - overlap` on. */
  function WindowsFrom(len: nat, c: Config, start: nat): (ws: seq<Window>)
    requires ValidConfig(c) && start < len
    ensures |ws| >= 1 && ws[0].start == start
    ensures WithinText(ws, len)
    decreases len - start
  {
    if start + c.size >= len then [Window(start, len)]
    else [Window(start, start + c.size)] + WindowsFrom(len, c, start + c.size - c.overlap)
  }

  /** The windows over a cleaned text of length `len`. */
  function Windows(len: nat, c: Config): (ws: seq<Window>)
    requires ValidConfig(c) && len > 0
    ensures |ws| >= 1 && ws[0].start == 0
    ensures WithinText(ws, len)
  {
    WindowsFrom(len, c, 0)
  }

  /** The trimmed content of one window. The window bookkeeping below is
      stated for any trimming function `trim`, which keeps it apart from the
      character-level facts about whitespace; the chunker uses `Trim`. */
  function WindowText(trim: string -> string, cleaned: string, w: Window): string
    requires w.start <= w.end <= |cleaned|
  {
    trim(cleaned[w.start..w.end])
  }

  /** The non-empty trimmed window contents, in window order. */
  function ChunksOf(trim: string -> string, cleaned: string, ws: seq<Window>): (chunks: seq<string>)
    requires WithinText(ws, |cleaned|)
  {
    if |ws| == 0 then []
    else
      var slice := WindowText(trim, cleaned, ws[0]);
      (if |slice| > 0 then [slice] else []) + ChunksOf(trim, cleaned, ws[1..])
  }

  /** The chunker: empty cleaned text gives no chunk, text that fits in one
      window gives itself, longer text gives the non-empty trimmed window
      contents. Every chunk is non-empty, trimmed and at most `size` long. */
  function ChunkText(text: string, c: Config): (chunks: seq<string>)
    requires ValidConfig(c)
    ensures |Clean(text)| == 0 ==> chunks == []
    ensures 0 < |Clean(text)| <= c.size ==> chunks == [Clean(text)]
    ensures forall i :: 0 <= i < |chunks| ==> 0 < |chunks[i]| <= c.size && Trimmed(chunks[i])
  {
    var cleaned := Clean(text);
    if |cleaned| == 0 then []
    else if |cleaned| <= c.size then [cleaned]
    else
      var ws := Windows(|cleaned|, c);
      WindowsTile(|cleaned|, c, 0);
      ChunkBounds(cleaned, c, ws);
      ChunksOf(Trim, cleaned, ws)
  }

  lemma {:induction false} ChunkBounds(cleaned: string, c: Config, ws: seq<Window>)
    requires WithinText(ws, |cleaned|)
    requires forall i :: 0 <= i < |ws| ==> ws[i].end - ws[i].start <= c.size
    ensures forall i :: 0 <= i < |ChunksOf(Trim, cleaned, ws)| ==>
              0 < |ChunksOf(Trim, cleaned, ws)[i]| <= c.size && Trimmed(ChunksOf(Trim, cleaned, ws)[i])
  {
    if |ws| > 0 {
      ChunkBounds(cleaned, c, ws[1..]);
    }
  }

  // ----------------------------------------------------------- properties

  /** The shape of the window sequence: the last window ends at `len`, every
      window is `size` wide or cut at `len`, every window but the last ends
      before `len`, and each next window starts `overlap` characters before
      its predecessor ends. */
  lemma {:induction false} WindowsTile(len: nat, c: Config, start: nat)
    requires ValidConfig(c) && start < len
    ensures var ws := WindowsFrom(len, c, start);
      && ws[|ws| - 1].end == len
      && (forall i :: 0 <= i < |ws| ==> ws[i].start < ws[i].end <= ws[i].start + c.size && (ws[i].end < len ==> ws[i].end == ws[i].start + c.size))
      && (forall i :: 0 <= i < |ws| - 1 ==> ws[i].end < len)
      && (forall i, j :: 0 <= i && j == i + 1 && j < |ws| ==> ws[j].start == ws[i].end - c.overlap)
  {
    WindowsLast(len, c, start);
    WindowsWidth(len, c, start);
    WindowsBeforeEnd(len, c, start);
    WindowsOverlap(len, c, start);
  }

  /** Past the first window, the windows from `start` are the windows from
      the next start, shifted by one. */
  lemma WindowsFromShift(len: nat, c: Config, start: nat)
    requires ValidConfig(c) && start < len && start + c.size < len
    ensures 0 < start + c.size - c.overlap < len
    ensures var ws := WindowsFrom(len, c, start);
      var rest := WindowsFrom(len, c, start + c.size - c.overlap);
      && ws[0] == Window(start, start + c.size)
      && |ws| == |rest| + 1
      && forall k :: 0 <= k < |rest| ==> ws[k + 1] == rest[k]
  {
  }

  lemma {:induction false} WindowsLast(len: nat, c: Config, start: nat)
    requires ValidConfig(c) && start < len
    ensures var ws := WindowsFrom(len, c, start); ws[|ws| - 1].end == len
    decreases len - start
  {
    if start + c.size < len {
      var end := start + c.size;
      WindowsLast(len, c, end - c.overlap);
    }
  }

  lemma {:induction false} WindowsWidth(len: nat, c: Config, start: nat)
    requires ValidConfig(c) && start < len
    ensures var ws := WindowsFrom(len, c, start);
      forall i :: 0 <= i < |ws| ==> ws[i].start < ws[i].end <= ws[i].start + c.size && (ws[i].end < len ==> ws[i].end == ws[i].start + c.size)
    decreases len - start
  {
    if start + c.size < len {
      var end := start + c.size;
      WindowsFromShift(len, c, start);
      WindowsWidth(len, c, end - c.overlap);
      var ws := WindowsFrom(len, c, start);
      var rest := WindowsFrom(len, c, end - c.overlap);
      forall i | 0 <= i < |ws|
        ensures ws[i].start < ws[i].end <= ws[i].start + c.size && (ws[i].end < len ==> ws[i].end == ws[i].start + c.size)
      {
        if i > 0 {
          assert ws[i] == rest[i - 1];
        }
      }
    }
  }

  lemma {:induction false} WindowsBeforeEnd(len: nat, c: Config, start: nat)
    requires ValidConfig(c) && start < len
    ensures var ws := WindowsFrom(len, c, start);
      forall i :: 0 <= i < |ws| - 1 ==> ws[i].end < len
    decreases len - start
  {
    if start + c.size < len {
      var end := start + c.size;
      WindowsFromShift(len, c, start);
      WindowsBeforeEnd(len, c, end - c.overlap);
    }
  }

  lemma {:induction false} WindowsOverlap(len: nat, c: Config, start: nat)
    requires ValidConfig(c) && start < len
    ensures var ws := WindowsFrom(len, c, start);
      forall i, j :: 0 <= i && j == i + 1 && j < |ws| ==> ws[j].start == ws[i].end - c.overlap
    decreases len - start
  {
    if start + c.size < len {
      var end := start + c.size;
      WindowsFromShift(len, c, start);
      WindowsOverlap(len, c, end - c.overlap);
    }
  }

  /** For text longer than one window: the first window is `[0, size)`,
      successive windows advance by exactly `size - overlap >= 1`, every
      window but the last is exactly `size` wide, and consecutive windows
      share exactly `overlap` characters. */
  lemma WindowsAdvance(len: nat, c: Config, ws: seq<Window>)
    requires ValidConfig(c) && len > c.size
    requires ws == Windows(len, c)
    ensures ws[0] == Window(0, c.size)
    ensures c.size - c.overlap >= 1
    ensures forall i :: 0 <= i < |ws| - 1 ==> ws[i].end - ws[i].start == c.size
    ensures forall i, j :: 0 <= i && j == i + 1 && j < |ws| ==> ws[j].start - ws[i].start == c.size - c.overlap
    ensures forall i, j :: 0 <= i && j == i + 1 && j < |ws| ==> ws[i].end - ws[j].start == c.overlap
  {
    WindowsTile(len, c, 0);
  }

  ghost predicate StartsAscend(ws: seq<Window>) {
    forall i, j :: 0 <= i && j == i + 1 && j < |ws| ==> ws[i].start <= ws[j].start
  }

  /** What each window contributes that the next window does not repeat:
      the text from its start to the next window's start (all of it, for the
      last window). */
  ghost function Stitch(s: string, ws: seq<Window>): string
    requires |ws| >= 1 && WithinText(ws, |s|) && StartsAscend(ws)
  {
    if |ws| == 1 then s[ws[0].start..ws[0].end]
    else s[ws[0].start..ws[1].start] + Stitch(s, ws[1..])
  }

  /** Window starts never go backwards. */
  lemma {:induction false} WindowsAscend(len: nat, c: Config, start: nat)
    requires ValidConfig(c) && start < len
    ensures StartsAscend(WindowsFrom(len, c, start))
    decreases len - start
  {
    if start + c.size < len {
      var ws := WindowsFrom(len, c, start);
      var rest := WindowsFrom(len, c, start + c.size - c.overlap);
      WindowsFromShift(len, c, start);
      WindowsAscend(len, c, start + c.size - c.overlap);
      forall i, j | 0 <= i && j == i + 1 && j < |ws|
        ensures ws[i].start <= ws[j].start
      {
        if i > 0 {
          assert ws[i] == rest[i - 1] && ws[j] == rest[j - 1];
        }
      }
    }
  }

  /** The windows tile the cleaned text: without the overlaps they rebuild
      it exactly, with no gap and nothing repeated. */
  lemma {:induction false} WindowsRebuildText(s: string, c: Config, start: nat)
    requires ValidConfig(c) && start < |s|
    ensures StartsAscend(WindowsFrom(|s|, c, start))
    ensures Stitch(s, WindowsFrom(|s|, c, start)) == s[start..]
    decreases |s| - start
  {
    var ws := WindowsFrom(|s|, c, start);
    WindowsAscend(|s|, c, start);
    if start + c.size < |s| {
      var next := start + c.size - c.overlap;
      var rest := WindowsFrom(|s|, c, next);
      WindowsFromShift(|s|, c, start);
      WindowsRebuildText(s, c, next);
      assert ws[1..] == rest;
      assert Stitch(s, ws) == s[start..next] + Stitch(s, rest);
      assert s[start..] == s[start..next] + s[next..];
    } else {
      assert ws == [Window(start, |s|)];
    }
  }

  /** Every chunk is the trimmed content of one of the windows. */
  lemma {:induction false} ChunksComeFromWindows(trim: string -> string, cleaned: string, ws: seq<Window>)
    requires WithinText(ws, |cleaned|)
    ensures forall k :: 0 <= k < |ChunksOf(trim, cleaned, ws)| ==>
              exists j :: 0 <= j < |ws| && ChunksOf(trim, cleaned, ws)[k] == WindowText(trim, cleaned, ws[j])
  {
    if |ws| > 0 {
      ChunksComeFromWindows(trim, cleaned, ws[1..]);
      var rest := ChunksOf(trim, cleaned, ws[1..]);
      var slice := WindowText(trim, cleaned, ws[0]);
      var head: seq<string> := if |slice| > 0 then [slice] else [];
      var chunks := ChunksOf(trim, cleaned, ws);
      assert chunks == head + rest;
      forall k | 0 <= k < |chunks|
        ensures exists j :: 0 <= j < |ws| && chunks[k] == WindowText(trim, cleaned, ws[j])
      {
        if k < |head| {
          assert chunks[k] == WindowText(trim, cleaned, ws[0]);
        } else {
          assert chunks[k] == rest[k - |head|];
          var j :| 0 <= j < |ws[1..]| && rest[k - |head|] == WindowText(trim, cleaned, ws[1..][j]);
          assert ws[1..][j] == ws[j + 1];
          assert chunks[k] == WindowText(trim, cleaned, ws[j + 1]);
        }
      }
    } else {
      assert ChunksOf(trim, cleaned, ws) == [];
    }
  }

  /** At most one chunk per window, and exactly one per window when no window
      is all whitespace: a window is dropped only when it is blank. */
  lemma {:induction false} ChunkCount(cleaned: string, ws: seq<Window>)
    requires WithinText(ws, |cleaned|)
    ensures |ChunksOf(Trim, cleaned, ws)| <= |ws|
    ensures (forall j :: 0 <= j < |ws| ==> !AllSpace(cleaned[ws[j].start..ws[j].end])) ==> |ChunksOf(Trim, cleaned, ws)| == |ws|
  {
    if |ws| > 0 {
      ChunkCount(cleaned, ws[1..]);
    }
  }

  // ----------------------------------------------------------- the loop

  /** The chunks of consecutive window runs concatenate. */
  lemma {:induction false} ChunksOfAppend(trim: string -> string, cleaned: string, a: seq<Window>, b: seq<Window>)
    requires WithinText(a, |cleaned|) && WithinText(b, |cleaned|)
    ensures WithinText(a + b, |cleaned|)
    ensures ChunksOf(trim, cleaned, a + b) == ChunksOf(trim, cleaned, a) + ChunksOf(trim, cleaned, b)
  {
    if |a| == 0 {
      assert a + b == b;
    } else {
      ChunksOfAppend(trim, cleaned, a[1..], b);
      assert (a + b)[1..] == a[1..] + b;
    }
  }

  /** One loop iteration at window `k`: the loop's `end` is that window's
      end, and the loop either stops at the last window or moves on to the
      start of the next one. */
  lemma SlideStep(c: Config, len: nat, ws: seq<Window>, k: nat)
    requires ValidConfig(c) && len > c.size
    requires ws == Windows(len, c) && k < |ws|
    ensures var end := Min(ws[k].start + c.size, len);
      && end == ws[k].end
      && (end == len ==> k == |ws| - 1)
      && (end < len ==> k + 1 < |ws| && ws[k + 1].start == Max(0, end - c.overlap) < len)
  {
    WindowsTile(len, c, 0);
    if ws[k].end < len {
      assert ws[k + 1].start < ws[k + 1].end;
    }
  }

  /** The chunk of window `k`, if any, extends the chunks of the windows
      before it. */
  lemma ChunksOfSnoc(trim: string -> string, cleaned: string, ws: seq<Window>, k: nat)
    requires WithinText(ws, |cleaned|) && k < |ws|
    ensures ChunksOf(trim, cleaned, ws[..k + 1]) == ChunksOf(trim, cleaned, ws[..k]) +
              (if |WindowText(trim, cleaned, ws[k])| > 0 then [WindowText(trim, cleaned, ws[k])] else [])
  {
    assert ws[..k + 1] == ws[..k] + [ws[k]];
    ChunksOfAppend(trim, cleaned, ws[..k], [ws[k]]);
  }

  /** The sliding-window loop of `chunkText`, on text already cleaned and
      longer than one window: it emits exactly the chunks of the window
      model. The ghost index `k` tracks which window the loop is at. */
  method SlideWindows(trim: string -> string, cleaned: string, c: Config) returns (chunks: seq<string>)
    requires ValidConfig(c) && |cleaned| > c.size
    ensures chunks == ChunksOf(trim, cleaned, Windows(|cleaned|, c))
  {
    ghost var ws := Windows(|cleaned|, c);
    chunks := [];
    var start: nat := 0;
    ghost var k := 0;
    while start < |cleaned|
      invariant k < |ws| && start == ws[k].start < |cleaned|
      invariant chunks == ChunksOf(trim, cleaned, ws[..k])
      decreases |cleaned| - start
    {
      SlideStep(c, |cleaned|, ws, k);
      ChunksOfSnoc(trim, cleaned, ws, k);
      var end := Min(start + c.size, |cleaned|);
      var slice := WindowText(trim, cleaned, Window(start, end));
      if |slice| > 0 {
        chunks := chunks + [slice];
      }
      if end == |cleaned| {
        assert ws[..k + 1] == ws;
        break;
      }
      start := Max(0, end - c.overlap);
      k := k + 1;
    }
  }

  /** `chunkText` as written: the two early returns, then the loop. */
  method ChunkTextLoop(text: string, c: Config) returns (chunks: seq<string>)
    requires ValidConfig(c)
    ensures chunks == ChunkText(text, c)
  {
    var cleaned := Clean(text);
    if |cleaned| == 0 {
      return [];
    }
    if |cleaned| <= c.size {
      return [cleaned];
    }
    chunks := SlideWindows(Trim, cleaned, c);
  }
}

=== FILE: crawl.dfy ===
/** The crawler's request logic (`src/ingest/crawl.ts`): the jittered
    exponential back-off, the `Retry-After` reading, the retry schedule of
    `fetchHtml`, and `normalizeUrl`. The network, the clock and
    `Math.random` are oracles indexed by attempt number; a URL is an
    abstract record, with parsing and serialising passed in. */
module Crawl {
  import opened Wrappers
  import opened Env
  import opened Text
  import opened Arith

  const DefaultRetries: real := 5.0
  const DefaultMinDelayMs: real := 250.0
  const DefaultMaxDelayMs: real := 2500.0

  /** `SCRAPE_RETRIES`, `SCRAPE_MIN_DELAY_MS` and `SCRAPE_MAX_DELAY_MS`. */
  datatype RetryConfig = RetryConfig(retryCount: real, minDelay: real, maxDelay: real)

  /** The settings when none of the three variables is set. */
  const DefaultRetryConfig := RetryConfig(DefaultRetries, DefaultMinDelayMs, DefaultMaxDelayMs)

  // ------------------------------------------------------------- delays

  /** Half-width of the jitter band: `floor(base * 0.2)`. */
  function Spread(base: real): int {
    (base * 0.2).Floor
  }

  /** `jitter(base)` with `Math.random()` drawn as `u`: the base moved by a
      whole number of milliseconds within the spread on either side. */
  function Jitter(base: real, u: real): (j: real)
    ensures base >= 0.0 && 0.0 <= u < 1.0 ==>
              base - Spread(base) as real <= j <= base + Spread(base) as real
    ensures base >= 0.0 && 0.0 <= u < 1.0 ==> 0.0 <= j <= 1.2 * base
  {
    var p := Spread(base);
    var k := (u * (2 * p + 1) as real).Floor;
    if base >= 0.0 && 0.0 <= u < 1.0 then
      JitterDraw(p, u);
      base + k as real - p as real
    else
      base + k as real - p as real
  }

  /** The draw `floor(u * (2p + 1))` lands in `[0, 2p]`. */
  lemma JitterDraw(p: int, u: real)
    requires p >= 0 && 0.0 <= u < 1.0
    ensures 0 <= (u * (2 * p + 1) as real).Floor <= 2 * p
  {
    UnitScaled(u, (2 * p + 1) as real, u * (2 * p + 1) as real);
  }

  function Pow2(n: nat): (r: real)
    ensures r >= 1.0
  {
    if n == 0 then 1.0 else 2.0 * Pow2(n - 1)
  }

  /** The delay before attempt `attempt >= 1`, before jitter:
      `min(maxDelayMs, minDelayMs * 2^(attempt - 1))`. */
  function Backoff(cfg: RetryConfig, attempt: nat): (d: real)
    requires attempt >= 1
    ensures d <= cfg.maxDelay && d <= cfg.minDelay * Pow2(attempt - 1)
    ensures d == cfg.maxDelay || d == cfg.minDelay * Pow2(attempt - 1)
  {
    RealMin(cfg.maxDelay, cfg.minDelay * Pow2(attempt - 1))
  }

  /** A sleep of `fetchHtml`: the jittered back-off before attempt
      `attempt` with random draw `draw`, or a `Retry-After` wait of `ms`
      milliseconds before the cap. */
  datatype Pause = BackoffPause(attempt: nat, draw: real) | RetryAfterPause(ms: int)

  /** How long a pause sleeps, in milliseconds; a `Retry-After` wait is
      capped at four times `maxDelayMs`. */
  function PauseMs(cfg: RetryConfig, p: Pause): real {
    match p
    case BackoffPause(attempt, draw) => if attempt == 0 then 0.0 else Jitter(Backoff(cfg, attempt), draw)
    case RetryAfterPause(ms) => RealMin(cfg.maxDelay * 4.0, ms as real)
  }

  lemma {:induction false} Pow2Monotone(m: nat, n: nat)
    requires m <= n
    ensures Pow2(m) <= Pow2(n)
    decreases n
  {
    if m < n {
      Pow2Monotone(m, n - 1);
    }
  }

  /** With non-negative settings the back-off never shrinks from one
      attempt to the next and stays within `[0, maxDelayMs]`. */
  lemma BackoffMonotone(cfg: RetryConfig, a: nat, b: nat)
    requires cfg.minDelay >= 0.0 && cfg.maxDelay >= 0.0
    requires 1 <= a <= b
    ensures 0.0 <= Backoff(cfg, a) <= Backoff(cfg, b) <= cfg.maxDelay
  {
    var x, y := cfg.minDelay * Pow2(a - 1), cfg.minDelay * Pow2(b - 1);
    Pow2Monotone(a - 1, b - 1);
    MulLeNonneg(cfg.minDelay, Pow2(a - 1), Pow2(b - 1));
    MulLeNonneg(cfg.minDelay, 0.0, Pow2(a - 1));
    assert 0.0 <= x <= y;
    assert Backoff(cfg, a) == RealMin(cfg.maxDelay, x);
    assert Backoff(cfg, b) == RealMin(cfg.maxDelay, y);
  }

  // --------------------------------------------------------- Retry-After

  /** A `Retry-After` header value with the two conversions the reader
      applies to it: `Number(text)` and `Date.parse(text)` (`None` when that
      is NaN; otherwise milliseconds since the epoch). */
  datatype Header = Header(text: string, number: JsNumber, date: Option<int>)

  /** `parseRetryAfterMs`: no wait for a missing or empty header; a
      non-negative number of seconds in whole milliseconds; else a date,
      as the time left until it (0 once past); else no wait. */
  function ParseRetryAfterMs(h: Option<Header>, now: int): (r: Option<int>)
    ensures h.None? || h.value.text == "" ==> r.None?
    ensures r.Some? ==> r.value >= 0
    ensures h.Some? && h.value.text != "" && h.value.number.Finite? && h.value.number.value >= 0.0 ==>
              r.Some? && r.value as real <= h.value.number.value * 1000.0 < r.value as real + 1.0
    ensures r.None? && h.Some? && h.value.text != "" ==>
              h.value.date.None? && !(h.value.number.Finite? && h.value.number.value >= 0.0)
  {
    match h
    case None => None
    case Some(Header(text, number, date)) =>
      if text == "" then None
      else if number.Finite? && number.value >= 0.0 then Some((number.value * 1000.0).Floor)
      else match date
        case Some(when) => Some(if when - now > 0 then when - now else 0)
        case None => None
  }

  // ------------------------------------------------------------ fetching

  /** What `fetch` gave for one attempt: a thrown transport error, or a
      response with its status, body text and `Retry-After` header. */
  datatype Response = Transport(message: string) | Http(status: nat, body: string, retryAfter: Option<Header>)

  /** `res.ok`. */
  predicate Ok(status: nat) {
    200 <= status <= 299
  }

  /** The statuses worth another attempt: 429 and every 5xx. */
  predicate Retriable(status: nat) {
    status == 429 || 500 <= status <= 599
  }

  /** A response the loop answers with another attempt (when one is left). */
  predicate RetriedOn(res: Response) {
    res.Http? && Retriable(res.status)
  }

  /** What `fetchHtml` throws: the transport error as it came, or its own
      error naming the last status. */
  datatype FetchError = TransportError(message: string) | StatusError(status: nat)

  /** The message of the thrown error. */
  function ErrorMessage(e: FetchError, url: string): string {
    match e
    case TransportError(message) => message
    case StatusError(status) => "Fetch failed " + Decimal(status) + " for " + url
  }

  /** One run of `fetchHtml`: the body or the error thrown, how many
      requests were sent, and the sleeps in the order they happen. */
  datatype FetchRun = FetchRun(outcome: Result<string, FetchError>, requests: nat, pauses: seq<Pause>)

  /** The jittered back-off slept before attempt `attempt`; none before the
      first. */
  function BackoffBefore(attempt: nat, draw: nat -> real): (ps: seq<Pause>)
    ensures attempt == 0 ==> ps == []
    ensures attempt > 0 ==> ps == [BackoffPause(attempt, draw(attempt))]
  {
    if attempt > 0 then [BackoffPause(attempt, draw(attempt))] else []
  }

  /** The attempts `fetchHtml` may still make from `attempt` on: the
      integers `a` with `attempt <= a <= retryCount`. */
  function AttemptsLeft(cfg: RetryConfig, attempt: nat): nat {
    Max(0, cfg.retryCount.Floor + 1 - attempt)
  }

  /** The loop of `fetchHtml` from `attempt` on, `lastStatus` being the
      last non-ok status seen. `respond(a)`, `draw(a)` and `now(a)` are the
      response, the random draw and the clock for attempt `a`. */
  function FetchFrom(cfg: RetryConfig, respond: nat -> Response, draw: nat -> real,
                     now: nat -> int, attempt: nat, lastStatus: nat): (r: FetchRun)
    ensures r.requests <= AttemptsLeft(cfg, attempt)
    ensures r.requests == 0 <==> attempt as real > cfg.retryCount
    ensures r.requests == 0 ==> r.outcome == Failure(StatusError(lastStatus))
    ensures forall a :: attempt <= a < attempt + r.requests - 1 ==> RetriedOn(respond(a))
    ensures r.requests > 0 ==> Settles(respond(attempt + r.requests - 1), r.outcome)
    decreases AttemptsLeft(cfg, attempt)
  {
    if attempt as real > cfg.retryCount then
      FetchRun(Failure(StatusError(lastStatus)), 0, [])
    else
      var before := if attempt > 0 then [BackoffPause(attempt, draw(attempt))] else [];
      match respond(attempt)
      case Transport(message) => FetchRun(Failure(TransportError(message)), 1, before)
      case Http(status, body, retryAfter) =>
        if Ok(status) then FetchRun(Success(body), 1, before)
        else if !Retriable(status) || attempt as real == cfg.retryCount then
          FetchRun(Failure(StatusError(status)), 1, before)
        else
          var wait := match ParseRetryAfterMs(retryAfter, now(attempt))
            case Some(ms) => [RetryAfterPause(ms)]
            case None => [];
          var rest := FetchFrom(cfg, respond, draw, now, attempt + 1, status);
          FetchRun(rest.outcome, rest.requests + 1, before + wait + rest.pauses)
  }

  /** How the response of the last request decides the run: an ok response
      returns its body, a thrown error propagates, and any other status
      fails with that status. */
  predicate Settles(last: Response, outcome: Result<string, FetchError>) {
    match last
    case Transport(message) => outcome == Failure(TransportError(message))
    case Http(status, body, _) =>
      if Ok(status) then outcome == Success(body)
      else outcome == Failure(StatusError(status))
  }

  /** `fetchHtml(url)`: at most `retryCount + 1` requests; with a negative
      retry count none at all, and the error names status 0. */
  function Fetch(cfg: RetryConfig, respond: nat -> Response, draw: nat -> real, now: nat -> int): (r: FetchRun)
    ensures r.requests <= Max(0, cfg.retryCount.Floor + 1)
    ensures cfg.retryCount < 0.0 ==> r == FetchRun(Failure(StatusError(0)), 0, [])
    ensures forall a :: 0 <= a < r.requests - 1 ==> RetriedOn(respond(a))
    ensures r.requests > 0 ==> Settles(respond(r.requests - 1), r.outcome)
    ensures r.outcome.Success? ==> r.requests > 0 && respond(r.requests - 1).Http? && Ok(respond(r.requests - 1).status)
  {
    FetchFrom(cfg, respond, draw, now, 0, 0)
  }

  // ----------------------------------------------------------- properties

  /** With the default settings a page is requested at most six times, and
      the back-offs before jitter double from 250 ms until the 2500 ms cap. */
  lemma DefaultSchedule(respond: nat -> Response, draw: nat -> real, now: nat -> int)
    ensures Fetch(DefaultRetryConfig, respond, draw, now).requests <= 6
    ensures && Backoff(DefaultRetryConfig, 1) == 250.0
            && Backoff(DefaultRetryConfig, 2) == 500.0
            && Backoff(DefaultRetryConfig, 3) == 1000.0
            && Backoff(DefaultRetryConfig, 4) == 2000.0
            && Backoff(DefaultRetryConfig, 5) == 2500.0
  {
    assert Pow2(4) == 16.0 by {
      assert Pow2(2) == 4.0;
    }
  }

  /** The converse: when the responses before attempt `k` all ask for a
      retry, attempt `k` is within the retry count and its response is ok,
      the run returns that body after exactly `k + 1` requests. */
  lemma {:induction false} FetchRetriesThrough(cfg: RetryConfig, respond: nat -> Response, draw: nat -> real,
                                               now: nat -> int, attempt: nat, lastStatus: nat, k: nat)
    requires attempt <= k && k as real <= cfg.retryCount
    requires forall a :: attempt <= a < k ==> RetriedOn(respond(a))
    requires respond(k).Http? && Ok(respond(k).status)
    ensures var r := FetchFrom(cfg, respond, draw, now, attempt, lastStatus);
      r.outcome == Success(respond(k).body) && r.requests == k + 1 - attempt
    decreases k - attempt
  {
    if attempt < k {
      FetchRetriesThrough(cfg, respond, draw, now, attempt + 1, respond(attempt).status, k);
      FetchRetryStep(cfg, respond, draw, now, attempt, lastStatus);
    } else {
      FetchOkStep(cfg, respond, draw, now, attempt, lastStatus);
    }
  }

  /** A retriable status before the last attempt hands over to the next
      attempt, which sends one more request. */
  lemma FetchRetryStep(cfg: RetryConfig, respond: nat -> Response, draw: nat -> real,
                       now: nat -> int, attempt: nat, lastStatus: nat)
    requires attempt as real < cfg.retryCount && RetriedOn(respond(attempt))
    ensures var r := FetchFrom(cfg, respond, draw, now, attempt, lastStatus);
      var rest := FetchFrom(cfg, respond, draw, now, attempt + 1, respond(attempt).status);
      r.outcome == rest.outcome && r.requests == rest.requests + 1
  {
  }

  lemma FetchOkStep(cfg: RetryConfig, respond: nat -> Response, draw: nat -> real,
                    now: nat -> int, attempt: nat, lastStatus: nat)
    requires attempt as real <= cfg.retryCount && respond(attempt).Http? && Ok(respond(attempt).status)
    ensures var r := FetchFrom(cfg, respond, draw, now, attempt, lastStatus);
      r.outcome == Success(respond(attempt).body) && r.requests == 1
  {
  }

  /** The `Retry-After` wait a header asks for before the next attempt, if
      it reads as one. */
  function RetryAfterWait(h: Option<Header>, now: int): (w: seq<Pause>)
    ensures |w| <= 1
    ensures forall p :: p in w ==> p.RetryAfterPause? && Some(p.ms) == ParseRetryAfterMs(h, now)
  {
    match ParseRetryAfterMs(h, now)
    case Some(ms) => [RetryAfterPause(ms)]
    case None => []
  }

  /** The sleeps of requests `from`, ..., `from + n - 1`, attempt by
      attempt: the back-off before each attempt but the very first, and
      after a retriable reply the `Retry-After` wait it asks for, unless the
      attempt number is the retry count itself (the loop then throws at
      once). */
  function Schedule(cfg: RetryConfig, respond: nat -> Response, draw: nat -> real, now: nat -> int,
                    from: nat, n: nat): (ps: seq<Pause>)
    decreases n
  {
    if n == 0 then []
    else
      BackoffBefore(from, draw)
      + (if RetriedOn(respond(from)) && from as real != cfg.retryCount
         then RetryAfterWait(respond(from).retryAfter, now(from)) else [])
      + Schedule(cfg, respond, draw, now, from + 1, n - 1)
  }

  /** A request that ends the run: one request, and only the back-off
      before it. */
  lemma FetchStopStep(cfg: RetryConfig, respond: nat -> Response, draw: nat -> real,
                      now: nat -> int, attempt: nat, lastStatus: nat)
    requires attempt as real <= cfg.retryCount
    requires !(RetriedOn(respond(attempt)) && attempt as real != cfg.retryCount)
    ensures var r := FetchFrom(cfg, respond, draw, now, attempt, lastStatus);
      r.requests == 1 && r.pauses == BackoffBefore(attempt, draw)
  {
  }

  /** A request answered with a retry: the back-off before it, its
      `Retry-After` wait, then the rest of the run. */
  lemma FetchRetryPauses(cfg: RetryConfig, respond: nat -> Response, draw: nat -> real,
                         now: nat -> int, attempt: nat, lastStatus: nat)
    requires attempt as real <= cfg.retryCount
    requires RetriedOn(respond(attempt)) && attempt as real != cfg.retryCount
    ensures var r := FetchFrom(cfg, respond, draw, now, attempt, lastStatus);
      var rest := FetchFrom(cfg, respond, draw, now, attempt + 1, respond(attempt).status);
      && r.requests == rest.requests + 1
      && r.pauses == BackoffBefore(attempt, draw) + RetryAfterWait(respond(attempt).retryAfter, now(attempt)) + rest.pauses
  {
  }

  /** The sleeps of a run are exactly the schedule of the requests it
      sent, in order. */
  lemma {:induction false} FetchPauses(cfg: RetryConfig, respond: nat -> Response, draw: nat -> real,
                                       now: nat -> int, attempt: nat, lastStatus: nat)
    ensures var r := FetchFrom(cfg, respond, draw, now, attempt, lastStatus);
      r.pauses == Schedule(cfg, respond, draw, now, attempt, r.requests)
    decreases AttemptsLeft(cfg, attempt)
  {
    if attempt as real <= cfg.retryCount {
      if RetriedOn(respond(attempt)) && attempt as real != cfg.retryCount {
        FetchRetryPauses(cfg, respond, draw, now, attempt, lastStatus);
        FetchPauses(cfg, respond, draw, now, attempt + 1, respond(attempt).status);
      } else {
        FetchStopStep(cfg, respond, draw, now, attempt, lastStatus);
        assert Schedule(cfg, respond, draw, now, attempt + 1, 0) == [];
      }
    }
  }

  /** Three retriable replies and then an ok one, with at least three
      retries allowed: the body after four requests, and exactly three
      back-offs, before attempts 1, 2 and 3, each after the `Retry-After`
      wait (if any) of the reply before it. With non-negative settings the
      back-offs never shrink and stay within `maxDelayMs` before jitter. */
  lemma ThreeRetriesThenOk(cfg: RetryConfig, respond: nat -> Response, draw: nat -> real, now: nat -> int)
    requires cfg.retryCount >= 3.0
    requires RetriedOn(respond(0)) && RetriedOn(respond(1)) && RetriedOn(respond(2))
    requires respond(3).Http? && Ok(respond(3).status)
    ensures var r := Fetch(cfg, respond, draw, now);
      && r.outcome == Success(respond(3).body) && r.requests == 4
      && r.pauses == RetryAfterWait(respond(0).retryAfter, now(0)) + [BackoffPause(1, draw(1))]
                   + RetryAfterWait(respond(1).retryAfter, now(1)) + [BackoffPause(2, draw(2))]
                   + RetryAfterWait(respond(2).retryAfter, now(2)) + [BackoffPause(3, draw(3))]
    ensures cfg.minDelay >= 0.0 && cfg.maxDelay >= 0.0 ==>
              0.0 <= Backoff(cfg, 1) <= Backoff(cfg, 2) <= Backoff(cfg, 3) <= cfg.maxDelay
  {
    FetchRetriesThrough(cfg, respond, draw, now, 0, 0, 3);
    FetchPauses(cfg, respond, draw, now, 0, 0);
    ThreeRetriesSchedule(cfg, respond, draw, now);
    if cfg.minDelay >= 0.0 && cfg.maxDelay >= 0.0 {
      BackoffMonotone(cfg, 1, 2);
      BackoffMonotone(cfg, 2, 3);
    }
  }

  /** The schedule of four requests whose first three replies ask for a
      retry and whose fourth is ok. */
  lemma ThreeRetriesSchedule(cfg: RetryConfig, respond: nat -> Response, draw: nat -> real, now: nat -> int)
    requires cfg.retryCount >= 3.0
    requires RetriedOn(respond(0)) && RetriedOn(respond(1)) && RetriedOn(respond(2))
    requires respond(3).Http? && Ok(respond(3).status)
    ensures Schedule(cfg, respond, draw, now, 0, 4)
         == RetryAfterWait(respond(0).retryAfter, now(0)) + [BackoffPause(1, draw(1))]
          + RetryAfterWait(respond(1).retryAfter, now(1)) + [BackoffPause(2, draw(2))]
          + RetryAfterWait(respond(2).retryAfter, now(2)) + [BackoffPause(3, draw(3))]
  {
    var w0 := RetryAfterWait(respond(0).retryAfter, now(0));
    var w1 := RetryAfterWait(respond(1).retryAfter, now(1));
    var w2 := RetryAfterWait(respond(2).retryAfter, now(2));
    var s3 := Schedule(cfg, respond, draw, now, 3, 1);
    assert s3 == [BackoffPause(3, draw(3))] + [] + [];
    var s2 := Schedule(cfg, respond, draw, now, 2, 2);
    assert s2 == [BackoffPause(2, draw(2))] + w2 + s3;
    var s1 := Schedule(cfg, respond, draw, now, 1, 3);
    assert s1 == [BackoffPause(1, draw(1))] + w1 + s2;
    assert Schedule(cfg, respond, draw, now, 0, 4) == [] + w0 + s1;
  }

  /** Every sleep lies in `[0, 4 * maxDelayMs]`: a back-off is at most
      `1.2 * maxDelayMs` after jitter, and a `Retry-After` wait is capped at
      four times the maximum delay. */
  lemma {:induction false} FetchDelaysBounded(cfg: RetryConfig, respond: nat -> Response, draw: nat -> real,
                                              now: nat -> int, attempt: nat, lastStatus: nat)
    requires cfg.minDelay >= 0.0 && cfg.maxDelay >= 0.0
    requires forall a :: 0.0 <= draw(a) < 1.0
    ensures forall p :: p in FetchFrom(cfg, respond, draw, now, attempt, lastStatus).pauses ==>
              0.0 <= PauseMs(cfg, p) <= 4.0 * cfg.maxDelay
    decreases AttemptsLeft(cfg, attempt)
  {
    var r := FetchFrom(cfg, respond, draw, now, attempt, lastStatus);
    if attempt as real <= cfg.retryCount {
      var before := if attempt > 0 then [BackoffPause(attempt, draw(attempt))] else [];
      if attempt > 0 {
        PauseBounded(cfg, BackoffPause(attempt, draw(attempt)));
      }
      match respond(attempt)
      case Transport(_) =>
        assert r.pauses == before;
      case Http(status, _, retryAfter) =>
        if !Ok(status) && Retriable(status) && attempt as real != cfg.retryCount {
          var rest := FetchFrom(cfg, respond, draw, now, attempt + 1, status);
          FetchDelaysBounded(cfg, respond, draw, now, attempt + 1, status);
          var parsed := ParseRetryAfterMs(retryAfter, now(attempt));
          var wait := if parsed.Some? then [RetryAfterPause(parsed.value)] else [];
          if parsed.Some? {
            PauseBounded(cfg, RetryAfterPause(parsed.value));
          }
          assert r.pauses == before + wait + rest.pauses;
        } else {
          assert r.pauses == before;
        }
    }
  }

  /** One pause with a draw in `[0, 1)` or a non-negative wait sleeps
      between 0 and four times `maxDelayMs`. */
  lemma PauseBounded(cfg: RetryConfig, p: Pause)
    requires cfg.minDelay >= 0.0 && cfg.maxDelay >= 0.0
    requires p.BackoffPause? ==> 0.0 <= p.draw < 1.0
    requires p.RetryAfterPause? ==> p.ms >= 0
    ensures 0.0 <= PauseMs(cfg, p) <= 4.0 * cfg.maxDelay
  {
    if p.BackoffPause? && p.attempt > 0 {
      BackoffMonotone(cfg, p.attempt, p.attempt);
    }
  }

  // -------------------------------------------------------- normalizeUrl

  const ArticlePath := "/support/solutions/articles/"

  /** One query parameter, decoded. */
  datatype Param = Param(name: string, value: string)

  /** The parts of a WHATWG URL that normalisation reads or writes. */
  datatype Url = Url(origin: string, pathname: string, query: seq<Param>, hash: string)

  /** `searchParams.get(name)`: the value of the first parameter so named. */
  function FirstParam(query: seq<Param>, name: string): (r: Option<string>)
    ensures r.None? <==> forall i :: 0 <= i < |query| ==> query[i].name != name
    ensures r.Some? ==> Param(name, r.value) in query
  {
    if |query| == 0 then None
    else if query[0].name == name then Some(query[0].value)
    else FirstParam(query[1..], name)
  }

  /** `normalizeUrl` on a parsed URL: drop the fragment; a `page`
      parameter reduces the query to `?page=<value>` (to nothing when that
      value is empty); otherwise an article path loses its query. */
  function Normalize(u: Url): (r: Url)
    ensures r.hash == "" && r.origin == u.origin && r.pathname == u.pathname
    ensures |r.query| <= 1 || r.query == u.query
    ensures forall p :: p in r.query ==> p in u.query
    ensures FirstParam(u.query, "page").None? && !Contains(u.pathname, ArticlePath) ==> r.query == u.query
    ensures FirstParam(u.query, "page").None? && Contains(u.pathname, ArticlePath) ==> r.query == []
    ensures FirstParam(u.query, "page").Some? ==>
              r.query == (if FirstParam(u.query, "page").value == "" then [] else [Param("page", FirstParam(u.query, "page").value)])
  {
    var cleared := u.(hash := "");
    match FirstParam(u.query, "page")
    case Some(page) => cleared.(query := if page == "" then [] else [Param("page", page)])
    case None => if Contains(u.pathname, ArticlePath) then cleared.(query := []) else cleared
  }

  /** `normalizeUrl(u)`: a string the URL parser rejects comes back
      unchanged; otherwise the normalised URL is serialised again. */
  function NormalizeUrl(u: string, parse: string -> Option<Url>, show: Url -> string): (r: string)
    ensures parse(u).None? ==> r == u
    ensures parse(u).Some? ==> r == show(Normalize(parse(u).value))
  {
    match parse(u)
    case None => u
    case Some(url) => show(Normalize(url))
  }

  /** Normalising twice changes nothing more. */
  lemma NormalizeIdempotent(u: Url)
    ensures Normalize(Normalize(u)) == Normalize(u)
  {
    var r := Normalize(u);
    var page := FirstParam(u.query, "page");
    if page.Some? && page.value != "" {
      assert r.query == [Param("page", page.value)];
      assert FirstParam(r.query, "page") == page;
    }
  }

  /** With a parser that reads back what the serialiser writes, the string
      normalisation is idempotent as well. */
  lemma NormalizeUrlIdempotent(u: string, parse: string -> Option<Url>, show: Url -> string)
    requires forall x :: parse(show(x)) == Some(x)
    ensures NormalizeUrl(NormalizeUrl(u, parse, show), parse, show) == NormalizeUrl(u, parse, show)
  {
    if parse(u).Some? {
      var n := Normalize(parse(u).value);
      assert parse(show(n)) == Some(n);
      NormalizeIdempotent(parse(u).value);
    }
  }
}

=== FILE: dedup.dfy ===
/** First-seen de-duplication by key, the `seen`-set filter that both the
    retriever (sources by URL) and the model-list parser (model names) use. */
module Dedup {

  /** The keys of the elements of `xs`. */
  ghost function KeysOf<T, K>(xs: seq<T>, key: T -> K): set<K> {
    set i | 0 <= i < |xs| :: key(xs[i])
  }

  /** The reference definition: the elements of `xs` whose key does not occur
      earlier in `xs`, in their order in `xs`. */
  ghost function FirstOccurrences<T, K>(xs: seq<T>, key: T -> K): seq<T>
    decreases |xs|
  {
    if |xs| == 0 then []
    else
      var init := xs[..|xs| - 1];
      FirstOccurrences(init, key) + (if key(xs[|xs| - 1]) in KeysOf(init, key) then [] else [xs[|xs| - 1]])
  }

  /** The source's filter: walk `xs`, keep an element when its key has not
      been seen, and record the key. */
  function DedupBy<T, K(==)>(xs: seq<T>, key: T -> K): (r: seq<T>)
    ensures r == FirstOccurrences(xs, key)
  {
    DedupResumes(xs, key, 0);
    assert xs[..0] == [];
    assert KeysOf(xs[..0], key) == {};
    DedupFrom(xs, key, {}, 0)
  }

  /** The filter resumed at position `i` with the keys `seen` so far. */
  function DedupFrom<T, K(==)>(xs: seq<T>, key: T -> K, seen: set<K>, i: nat): seq<T>
    requires i <= |xs|
    decreases |xs| - i
  {
    if i == |xs| then []
    else if key(xs[i]) in seen then DedupFrom(xs, key, seen, i + 1)
    else [xs[i]] + DedupFrom(xs, key, seen + {key(xs[i])}, i + 1)
  }

  lemma KeysOfSnoc<T, K>(xs: seq<T>, key: T -> K, i: nat)
    requires i < |xs|
    ensures KeysOf(xs[..i + 1], key) == KeysOf(xs[..i], key) + {key(xs[i])}
  {
    var a, b := xs[..i + 1], xs[..i];
    assert a == b + [xs[i]];
    forall k | k in KeysOf(a, key) ensures k in KeysOf(b, key) + {key(xs[i])} {
      var j :| 0 <= j < |a| && key(a[j]) == k;
      if j < i {
        assert a[j] == b[j];
      }
    }
    forall k | k in KeysOf(b, key) ensures k in KeysOf(a, key) {
      var j :| 0 <= j < |b| && key(b[j]) == k;
      assert a[j] == b[j];
    }
    assert key(a[i]) == key(xs[i]);
  }

  /** The filter resumed at position `i`, with the keys of the first `i`
      elements as seen, completes the first occurrences of the prefix to the
      first occurrences of the whole sequence. */
  lemma {:induction false} DedupResumes<T, K>(xs: seq<T>, key: T -> K, i: nat)
    requires i <= |xs|
    ensures FirstOccurrences(xs[..i], key) + DedupFrom(xs, key, KeysOf(xs[..i], key), i) == FirstOccurrences(xs, key)
    decreases |xs| - i
  {
    if i == |xs| {
      assert xs[..i] == xs;
    } else {
      var seen := KeysOf(xs[..i], key);
      DedupResumes(xs, key, i + 1);
      KeysOfSnoc(xs, key, i);
      assert xs[..i + 1][..i] == xs[..i];
      assert xs[..i + 1][i] == xs[i];
      var head: seq<T> := if key(xs[i]) in seen then [] else [xs[i]];
      assert FirstOccurrences(xs[..i + 1], key) == FirstOccurrences(xs[..i], key) + head;
      if key(xs[i]) in seen {
        assert seen + {key(xs[i])} == seen;
      } else {
        assert DedupFrom(xs, key, seen, i) == [xs[i]] + DedupFrom(xs, key, seen + {key(xs[i])}, i + 1);
      }
    }
  }

  // ------------------------------------------------------------ properties

  /** The first occurrences have pairwise distinct keys, are drawn from `xs`,
      cover every key of `xs`, and each is the earliest element of `xs` with
      its key. */
  lemma {:induction false} FirstOccurrencesSpec<T, K>(xs: seq<T>, key: T -> K)
    ensures var r := FirstOccurrences(xs, key);
      && (forall i, j :: 0 <= i < j < |r| ==> key(r[i]) != key(r[j]))
      && (forall x :: x in r ==> x in xs)
      && KeysOf(r, key) == KeysOf(xs, key)
      && (forall i :: 0 <= i < |r| ==> exists j :: 0 <= j < |xs| && xs[j] == r[i] && key(r[i]) !in KeysOf(xs[..j], key))
    decreases |xs|
  {
    var r := FirstOccurrences(xs, key);
    if |xs| > 0 {
      var n := |xs| - 1;
      var init := xs[..n];
      var prev := FirstOccurrences(init, key);
      FirstOccurrencesSpec(init, key);
      KeysOfSnoc(xs, key, n);
      assert xs[..n + 1] == xs;
      var head: seq<T> := if key(xs[n]) in KeysOf(init, key) then [] else [xs[n]];
      assert r == prev + head;
      forall i, j | 0 <= i < j < |r| ensures key(r[i]) != key(r[j]) {
        if j >= |prev| {
          assert r[j] == xs[n] && r[i] == prev[i];
          assert key(prev[i]) in KeysOf(prev, key);
        }
      }
      forall x | x in r ensures x in xs {
        if x in prev {
          assert x in init;
        }
      }
      KeysOfAppend(prev, head, key);
      if |head| == 1 {
        assert head[0] == xs[n];
        assert KeysOf(head, key) == {key(xs[n])};
      } else {
        assert KeysOf(head, key) == {};
      }
      forall i | 0 <= i < |r|
        ensures exists j :: 0 <= j < |xs| && xs[j] == r[i] && key(r[i]) !in KeysOf(xs[..j], key)
      {
        if i < |prev| {
          var j :| 0 <= j < |init| && init[j] == prev[i] && key(prev[i]) !in KeysOf(init[..j], key);
          assert init[..j] == xs[..j];
          assert xs[j] == r[i];
        } else {
          assert xs[n] == r[i];
        }
      }
    }
  }

  lemma KeysOfAppend<T, K>(a: seq<T>, b: seq<T>, key: T -> K)
    ensures KeysOf(a + b, key) == KeysOf(a, key) + KeysOf(b, key)
  {
    var ab := a + b;
    forall k | k in KeysOf(ab, key) ensures k in KeysOf(a, key) + KeysOf(b, key) {
      var j :| 0 <= j < |ab| && key(ab[j]) == k;
      if j < |a| {
        assert ab[j] == a[j];
      } else {
        assert ab[j] == b[j - |a|];
      }
    }
    forall k | k in KeysOf(a, key) + KeysOf(b, key) ensures k in KeysOf(ab, key) {
      if k in KeysOf(a, key) {
        var j :| 0 <= j < |a| && key(a[j]) == k;
        assert ab[j] == a[j];
      } else {
        var j :| 0 <= j < |b| && key(b[j]) == k;
        assert ab[j + |a|] == b[j];
      }
    }
  }
}

=== FILE: discover.dfy ===
/** `discoverArticleUrls`: a breadth-first walk of the knowledge base from
    its root, bounded by `KB_MAX_PAGES` visited pages, that collects every
    article link it sees and follows every other in-scope link once. The
    page fetch (with its retries), the HTML link extraction and the URL
    parser are oracles. */
module Discover {
  import opened Wrappers
  import opened Text
  import opened Crawl
  import opened Order

  const AllowedPrefix := "/support/solutions"
  const DefaultKbRoot := "https://boxful.freshdesk.com/support/solutions/"

  /** The outside world of the crawler: the `href` attribute of every `a`
      element of a page (`""` where absent), or `None` when fetching the
      page failed; `new URL(href, base).toString()` (`None` when it
      throws); and the URL parser and serialiser. */
  datatype Web = Web(links: string -> Option<seq<string>>, resolve: (string, string) -> Option<string>,
                     parse: string -> Option<Url>, show: Url -> string)

  /** What the walk does with one link. */
  datatype Link = Skip | Article(url: string) | Follow(url: string)

  /** Links that are never resolved: empty, `mailto:`, `javascript:` and
      in-page anchors. */
  predicate Ignored(href: string) {
    href == "" || StartsWith(href, "mailto:") || StartsWith(href, "javascript:") || StartsWith(href, "#")
  }

  /** The body of the link loop: trim the attribute, drop ignored links,
      resolve against the page and normalise, and keep only links of the
      root's origin under `/support/solutions`; an article path makes it a
      result, anything else a page to visit. */
  function Classify(web: Web, origin: string, page: string, raw: string): (l: Link)
    ensures Ignored(Trim(raw)) ==> l.Skip?
    ensures !l.Skip? ==>
              && !Ignored(Trim(raw))
              && web.resolve(Trim(raw), page).Some?
              && l.url == NormalizeUrl(web.resolve(Trim(raw), page).value, web.parse, web.show)
    ensures !l.Skip? ==>
              && web.parse(l.url).Some?
              && web.parse(l.url).value.origin == origin
              && StartsWith(web.parse(l.url).value.pathname, AllowedPrefix)
              && (l.Article? <==> Contains(web.parse(l.url).value.pathname, ArticlePath))
  {
    var href := Trim(raw);
    if Ignored(href) then Skip
    else match web.resolve(href, page)
      case None => Skip
      case Some(resolved) =>
        var absolute := NormalizeUrl(resolved, web.parse, web.show);
        match web.parse(absolute)
        case None => Skip
        case Some(candidate) =>
          if candidate.origin != origin then Skip
          else if !StartsWith(candidate.pathname, AllowedPrefix) then Skip
          else if Contains(candidate.pathname, ArticlePath) then Article(absolute)
          else Follow(absolute)
  }

  /** The classified links of a page; a page whose fetch failed has none. */
  function PageLinks(web: Web, origin: string, page: string): (ls: seq<Link>)
    ensures web.links(page).None? ==> ls == []
    ensures web.links(page).Some? ==> |ls| == |web.links(page).value|
    ensures web.links(page).Some? ==>
              forall i :: 0 <= i < |ls| ==> ls[i] == Classify(web, origin, page, web.links(page).value[i])
  {
    match web.links(page)
    case None => []
    case Some(hrefs) => seq(|hrefs|, i requires 0 <= i < |hrefs| => Classify(web, origin, page, hrefs[i]))
  }

  ghost function Follows(ls: seq<Link>): set<string> {
    set l | l in ls && l.Follow? :: l.url
  }

  ghost function Articles(ls: seq<Link>): set<string> {
    set l | l in ls && l.Article? :: l.url
  }

  /** The article URLs linked from the given pages. */
  ghost function ArticlesOf(web: Web, origin: string, pages: seq<string>): set<string>
    decreases |pages|
  {
    if |pages| == 0 then {}
    else ArticlesOf(web, origin, pages[..|pages| - 1]) + Articles(PageLinks(web, origin, pages[|pages| - 1]))
  }

  lemma LinksSnoc(ls: seq<Link>, i: nat)
    requires i < |ls|
    ensures Follows(ls[..i + 1]) == Follows(ls[..i]) + (if ls[i].Follow? then {ls[i].url} else {})
    ensures Articles(ls[..i + 1]) == Articles(ls[..i]) + (if ls[i].Article? then {ls[i].url} else {})
  {
    assert ls[..i + 1] == ls[..i] + [ls[i]];
  }

  /** What the link loop over one page does to the queue, the `queued`
      set and the results: new pages join the back of the queue once, only
      pages neither visited nor queued join, every page the links point to
      ends up visited or queued, and articles join the results once. */
  ghost predicate Expanded(queue: seq<string>, queued: set<string>, found: seq<string>, visited: set<string>,
                           links: seq<Link>, queue': seq<string>, queued': set<string>, found': seq<string>)
  {
    && |queue'| >= |queue| && queue'[..|queue|] == queue
    && (forall x :: x in queued' <==> x in queued || x in queue'[|queue|..])
    && (forall i :: |queue| <= i < |queue'| ==>
          queue'[i] !in queued && queue'[i] !in visited && queue'[i] in Follows(links))
    && (forall i, j :: |queue| <= i < j < |queue'| ==> queue'[i] != queue'[j])
    && (forall x :: x in Follows(links) ==> x in visited || x in queued')
    && Distinct(found')
    && (forall x :: x in found' <==> x in found || x in Articles(links))
  }

  /** The link loop over one page. */
  method ExpandPage(queue: seq<string>, queued: set<string>, found: seq<string>, visited: set<string>, links: seq<Link>)
      returns (queue': seq<string>, queued': set<string>, found': seq<string>)
    requires Distinct(found)
    ensures Expanded(queue, queued, found, visited, links, queue', queued', found')
  {
    queue', queued', found' := queue, queued, found;
    var i := 0;
    while i < |links|
      invariant 0 <= i <= |links|
      invariant Expanded(queue, queued, found, visited, links[..i], queue', queued', found')
    {
      LinksSnoc(links, i);
      match links[i] {
        case Skip =>
        case Article(u) =>
          if u !in found' {
            found' := found' + [u];
          }
        case Follow(u) =>
          if u !in visited && u !in queued' {
            assert (queue' + [u])[|queue|..] == queue'[|queue|..] + [u];
            queue' := queue' + [u];
            queued' := queued' + {u};
          }
      }
      i := i + 1;
    }
    assert links[..i] == links;
  }

  // ------------------------------------------------------------ the walk

  /** `page` links to `target`, a page the walk should visit. */
  ghost predicate LinksTo(web: Web, origin: string, page: string, target: string) {
    target in Follows(PageLinks(web, origin, page))
  }

  /** The queue bookkeeping: `order` lists every page ever queued, once,
      starting with the root; the visited pages are its first entries and
      the queue holds the rest; the two sets mirror the two lists. */
  ghost predicate Frontier(start: string, order: seq<string>, visited: seq<string>, queue: seq<string>,
                           queued: set<string>, visitedSet: set<string>)
  {
    && Distinct(order) && |order| > 0 && order[0] == start
    && |visited| <= |order| && visited == order[..|visited|] && queue == order[|visited|..]
    && (forall x :: x in queued <==> x in order)
    && (forall x :: x in visitedSet <==> x in visited)
  }

  /** Every page linked from a visited page has been queued. */
  ghost predicate Closed(web: Web, origin: string, visited: seq<string>, queued: set<string>) {
    forall j, x :: 0 <= j < |visited| && LinksTo(web, origin, visited[j], x) ==> x in queued
  }

  /** Every queued page but the root is linked from a page visited before
      it was queued: the one at position `parent[i]` of `order`. */
  ghost predicate Traced(web: Web, origin: string, order: seq<string>, parent: seq<nat>, v: nat) {
    && |parent| == |order|
    && forall i :: 1 <= i < |order| ==> parent[i] < v && parent[i] < i && LinksTo(web, origin, order[parent[i]], order[i])
  }

  /** The results so far are the articles linked from the visited pages. */
  ghost predicate Collected(web: Web, origin: string, visited: seq<string>, found: seq<string>) {
    Distinct(found) && forall x :: x in found <==> x in ArticlesOf(web, origin, visited)
  }

  lemma FrontierStep(start: string, order: seq<string>, visited: seq<string>, queue: seq<string>,
                     queued: set<string>, visitedSet: set<string>, links: seq<Link>, found: seq<string>,
                     queue2: seq<string>, queued2: set<string>, found2: seq<string>)
    requires Frontier(start, order, visited, queue, queued, visitedSet) && |queue| > 0
    requires Expanded(queue[1..], queued, found, visitedSet + {queue[0]}, links, queue2, queued2, found2)
    ensures Frontier(start, order + queue2[|queue| - 1..], visited + [queue[0]], queue2, queued2, visitedSet + {queue[0]})
  {
    var v := |visited|;
    var added := queue2[|queue| - 1..];
    var order2 := order + added;
    assert queue2 == queue[1..] + added;
    assert order2[..v + 1] == visited + [queue[0]];
    assert order2[v + 1..] == queue2;
    forall i, j | 0 <= i < j < |order2| ensures order2[i] != order2[j] {
      if j >= |order| && i < |order| {
        assert order2[i] == order[i] && order[i] in queued;
      }
    }
  }

  lemma ClosedStep(web: Web, origin: string, start: string, order: seq<string>, visited: seq<string>, queue: seq<string>,
                   queued: set<string>, visitedSet: set<string>, found: seq<string>,
                   queue2: seq<string>, queued2: set<string>, found2: seq<string>)
    requires Frontier(start, order, visited, queue, queued, visitedSet) && |queue| > 0
    requires Closed(web, origin, visited, queued)
    requires Expanded(queue[1..], queued, found, visitedSet + {queue[0]}, PageLinks(web, origin, queue[0]), queue2, queued2, found2)
    ensures Closed(web, origin, visited + [queue[0]], queued2)
  {
    assert order[|visited|] == queue[0];
    forall x | LinksTo(web, origin, queue[0], x) ensures x in queued2 {
      if x in visitedSet {
        var k :| 0 <= k < |visited| && visited[k] == x;
        assert order[k] == x;
      }
    }
    ClosedExtend(web, origin, visited, queue[0], queued, queued2);
  }

  /** Visiting a page whose links are all queued keeps `Closed`. */
  lemma ClosedExtend(web: Web, origin: string, visited: seq<string>, page: string, queued: set<string>, queued2: set<string>)
    requires Closed(web, origin, visited, queued) && queued <= queued2
    requires forall x :: LinksTo(web, origin, page, x) ==> x in queued2
    ensures Closed(web, origin, visited + [page], queued2)
  {
    var visited2 := visited + [page];
    forall j, x | 0 <= j < |visited2| && LinksTo(web, origin, visited2[j], x) ensures x in queued2 {
      if j < |visited| {
        assert visited2[j] == visited[j];
      }
    }
  }

  lemma TracedStep(web: Web, origin: string, start: string, order: seq<string>, parent: seq<nat>, visited: seq<string>,
                   queue: seq<string>, queued: set<string>, visitedSet: set<string>, found: seq<string>,
                   queue2: seq<string>, queued2: set<string>, found2: seq<string>)
    requires Frontier(start, order, visited, queue, queued, visitedSet) && |queue| > 0
    requires Traced(web, origin, order, parent, |visited|)
    requires Expanded(queue[1..], queued, found, visitedSet + {queue[0]}, PageLinks(web, origin, queue[0]), queue2, queued2, found2)
    ensures Traced(web, origin, order + queue2[|queue| - 1..], parent + seq(|queue2| - |queue| + 1, _ => |visited|), |visited| + 1)
  {
    var added := queue2[|queue| - 1..];
    assert order[|visited|] == queue[0];
    forall k | 0 <= k < |added| ensures LinksTo(web, origin, order[|visited|], added[k]) {
      assert added[k] == queue2[k + |queue| - 1];
    }
    TracedExtend(web, origin, order, parent, |visited|, added);
  }

  /** Appending pages linked from the next page to visit keeps `Traced`. */
  lemma TracedExtend(web: Web, origin: string, order: seq<string>, parent: seq<nat>, v: nat, added: seq<string>)
    requires Traced(web, origin, order, parent, v) && v < |order|
    requires forall k :: 0 <= k < |added| ==> LinksTo(web, origin, order[v], added[k])
    ensures Traced(web, origin, order + added, parent + seq(|added|, _ => v), v + 1)
  {
    var order2 := order + added;
    var parent2 := parent + seq(|added|, _ => v);
    forall i | 1 <= i < |order2|
      ensures parent2[i] < v + 1 && parent2[i] < i && LinksTo(web, origin, order2[parent2[i]], order2[i])
    {
      if i < |order| {
        assert order2[i] == order[i] && parent2[i] == parent[i];
        assert order2[parent[i]] == order[parent[i]];
      } else {
        assert order2[i] == added[i - |order|];
        assert parent2[i] == v && order2[v] == order[v];
      }
    }
  }

  lemma CollectedStep(web: Web, origin: string, visited: seq<string>, page: string, found: seq<string>,
                      queue: seq<string>, queued: set<string>, visitedSet: set<string>,
                      queue2: seq<string>, queued2: set<string>, found2: seq<string>)
    requires Collected(web, origin, visited, found)
    requires Expanded(queue, queued, found, visitedSet, PageLinks(web, origin, page), queue2, queued2, found2)
    ensures Collected(web, origin, visited + [page], found2)
  {
    assert (visited + [page])[..|visited|] == visited;
  }

  /** The walk: start from the normalised root, visit queued pages in order
      while fewer than `maxPages` have been visited (the size of the
      `visited` set, which equals the length of the list of visited pages),
      and return the article URLs found, sorted. */
  method DiscoverArticleUrls(web: Web, root: Url, maxPages: real) returns (urls: seq<string>, visited: seq<string>)
    ensures Ascending(urls)
    ensures forall x :: x in urls <==> x in ArticlesOf(web, root.origin, visited)
    ensures Distinct(visited)
    ensures |visited| == 0 || (|visited| - 1) as real < maxPages
    ensures maxPages > 0.0 ==> |visited| > 0 && visited[0] == NormalizeUrl(web.show(root), web.parse, web.show)
    ensures (|visited| as real) < maxPages ==>
              forall j, x :: 0 <= j < |visited| && LinksTo(web, root.origin, visited[j], x) ==> x in visited
    ensures forall i :: 1 <= i < |visited| ==>
              exists j :: 0 <= j < i && LinksTo(web, root.origin, visited[j], visited[i])
  {
    var origin := root.origin;
    var start := NormalizeUrl(web.show(root), web.parse, web.show);
    var queue := [start];
    var queued := {start};
    var visitedSet: set<string> := {};
    var found: seq<string> := [];
    visited := [];
    ghost var order := [start];
    ghost var parent: seq<nat> := [0];
    while |queue| > 0 && (|visited| as real) < maxPages
      invariant Frontier(start, order, visited, queue, queued, visitedSet)
      invariant Closed(web, origin, visited, queued)
      invariant Traced(web, origin, order, parent, |visited|)
      invariant Collected(web, origin, visited, found)
      invariant |visited| == 0 || (|visited| - 1) as real < maxPages
      decreases maxPages.Floor - |visited|
    {
      var page := queue[0];
      var links := PageLinks(web, origin, page);
      var queue2, queued2, found2 := ExpandPage(queue[1..], queued, found, visitedSet + {page}, links);
      FrontierStep(start, order, visited, queue, queued, visitedSet, links, found, queue2, queued2, found2);
      ClosedStep(web, origin, start, order, visited, queue, queued, visitedSet, found, queue2, queued2, found2);
      TracedStep(web, origin, start, order, parent, visited, queue, queued, visitedSet, found, queue2, queued2, found2);
      CollectedStep(web, origin, visited, page, found, queue[1..], queued, visitedSet + {page}, queue2, queued2, found2);
      order := order + queue2[|queue| - 1..];
      parent := parent + seq(|queue2| - |queue| + 1, _ => |visited|);
      visited := visited + [page];
      visitedSet := visitedSet + {page};
      queue, queued, found := queue2, queued2, found2;
    }
    WalkEnds(web, origin, start, order, parent, visited, queue, queued, visitedSet);
    urls := Sort(found);
    SortedResults(web, origin, visited, found);
  }

  /** Sorting the results keeps exactly the articles found. */
  lemma SortedResults(web: Web, origin: string, visited: seq<string>, found: seq<string>)
    requires Collected(web, origin, visited, found)
    ensures Ascending(Sort(found))
    ensures forall x :: x in Sort(found) <==> x in ArticlesOf(web, origin, visited)
  {
    SortAscending(found);
    SortKeepsElements(found);
  }

  /** What the invariants give once the loop stops. */
  lemma WalkEnds(web: Web, origin: string, start: string, order: seq<string>, parent: seq<nat>, visited: seq<string>,
                 queue: seq<string>, queued: set<string>, visitedSet: set<string>)
    requires Frontier(start, order, visited, queue, queued, visitedSet)
    requires Closed(web, origin, visited, queued)
    requires Traced(web, origin, order, parent, |visited|)
    ensures Distinct(visited)
    ensures |visited| > 0 ==> visited[0] == start
    ensures |queue| == 0 ==>
              forall j, x :: 0 <= j < |visited| && LinksTo(web, origin, visited[j], x) ==> x in visited
    ensures forall i :: 1 <= i < |visited| ==>
              exists j :: 0 <= j < i && LinksTo(web, origin, visited[j], visited[i])
  {
    forall i | 1 <= i < |visited|
      ensures exists j :: 0 <= j < i && LinksTo(web, origin, visited[j], visited[i])
    {
      var j := parent[i];
      assert visited[j] == order[j] && visited[i] == order[i];
    }
    if |queue| == 0 {
      assert visited == order;
    }
  }
}

=== FILE: embed.dfy ===
/** The embedding client (`embed.ts`): the configuration readers, the local
    hashing-trick embedder, the Ollama client that halves its prompt while
    the server reports a context-length overflow, the Gemini client, and the
    dispatch on `EMBED_PROVIDER`. Every HTTP exchange is an oracle that
    answers a request; the tokeniser (lower-casing, NFKD and the Unicode
    letter class) is an oracle that yields the pieces of the whitespace
    split, as UTF-16 code units. */
module Embed {
  import opened Wrappers
  import opened Env
  import opened Text
  import opened Score
  import opened Arith
  import Crawl

  const DefaultEmbedTimeoutMs: nat := 15000
  const DefaultLocalDim: nat := 512
  const DefaultOllamaMaxChars: nat := 1200
  const DefaultGeminiMaxChars: nat := 8000
  /** Below this many characters the Ollama client stops truncating. */
  const MinOllamaChars: nat := 120
  const DefaultProvider := "ollama"
  const DefaultOllamaModel := "nomic-embed-text:latest"
  const DefaultGeminiModel := "gemini-embedding-001"
  /** The Ollama error text that triggers a shorter retry, lower case. */
  const ContextLengthPhrase := "input length exceeds the context length"

  // ------------------------------------------------------- configuration

  /** `getEmbedTimeoutMs`. */
  function EmbedTimeoutMs(v: EnvNum): (ms: int)
    ensures ms >= 1000
    ensures v.Unset? || NumberOr(v, DefaultEmbedTimeoutMs as real).NonFinite? ==> ms == DefaultEmbedTimeoutMs
    ensures NumberOr(v, DefaultEmbedTimeoutMs as real).Finite? && NumberOr(v, DefaultEmbedTimeoutMs as real).value >= 1000.0 ==>
              ms as real <= NumberOr(v, DefaultEmbedTimeoutMs as real).value < ms as real + 1.0
  {
    TimeoutMs(v, DefaultEmbedTimeoutMs)
  }

  /** The `Number(env ?? default)`, floored when finite and positive,
      reading shared by the local dimension and both character budgets. */
  function PositiveFloorOr(v: EnvNum, default: nat): (n: int)
    ensures n >= 0
    ensures v.Unset? ==> n == default
    ensures NumberOr(v, default as real).Finite? && NumberOr(v, default as real).value > 0.0 ==>
              n as real <= NumberOr(v, default as real).value < n as real + 1.0
    ensures !(NumberOr(v, default as real).Finite? && NumberOr(v, default as real).value > 0.0) ==> n == default
  {
    match NumberOr(v, default as real)
    case Finite(x) => if x > 0.0 then x.Floor else default
    case NonFinite => default
  }

  /** `getLocalDim` as written: a value in (0, 1) passes the positivity
      test and floors to 0. */
  function LocalDimAsWritten(v: EnvNum): (d: int)
    ensures d >= 0
    ensures v.Unset? ==> d == DefaultLocalDim
  {
    PositiveFloorOr(v, DefaultLocalDim)
  }

  lemma LocalDimAsWrittenCanBeZero()
    ensures LocalDimAsWritten(Parsed(Finite(0.5))) == 0
  {
    assert (0.5).Floor == 0;
  }

  /** `getLocalDim` as intended: a configured value that does not floor to a
      positive dimension falls back to the default, like one that is not
      positive at all. */
  function LocalDim(v: EnvNum): (d: nat)
    ensures d >= 1
    ensures LocalDimAsWritten(v) >= 1 ==> d == LocalDimAsWritten(v)
    ensures LocalDimAsWritten(v) == 0 ==> d == DefaultLocalDim
  {
    var d := PositiveFloorOr(v, DefaultLocalDim);
    if d >= 1 then d else DefaultLocalDim
  }

  // ----------------------------------------------------------- normalize

  /** `normalize`: divide by the Euclidean norm, or by 1 when the norm is 0. */
  function Normalize(vec: seq<real>, sqrt: real -> real): (r: seq<real>)
    ensures |r| == |vec|
  {
    var norm := sqrt(SumSq(vec, |vec|));
    var denom := if norm == 0.0 then 1.0 else norm;
    seq(|vec|, i requires 0 <= i < |vec| => vec[i] / denom)
  }

  predicate AllZero(vec: seq<real>) {
    forall i :: 0 <= i < |vec| ==> vec[i] == 0.0
  }

  lemma {:induction false} SumSqAllZero(vec: seq<real>, n: nat)
    requires n <= |vec|
    ensures SumSq(vec, n) == 0.0 <==> forall i :: 0 <= i < n ==> vec[i] == 0.0
  {
    if n > 0 {
      SumSqAllZero(vec, n - 1);
      if vec[n - 1] != 0.0 {
        SquarePos(vec[n - 1], vec[n - 1] * vec[n - 1]);
      }
    }
  }

  /** The zero vector is its own normalisation. */
  lemma NormalizeZero(vec: seq<real>, sqrt: real -> real)
    requires IsSqrt(sqrt)
    requires AllZero(vec)
    ensures Normalize(vec, sqrt) == vec
  {
    SumSqAllZero(vec, |vec|);
    assert sqrt(0.0) * sqrt(0.0) == 0.0;
  }

  /** Squaring commutes with scaling: if every square of `r` is the
      matching square of `vec` over `dd`, so is their sum. */
  lemma {:induction false} SumSqScaled(vec: seq<real>, r: seq<real>, dd: real, n: nat)
    requires dd > 0.0 && n <= |vec| == |r|
    requires forall i :: 0 <= i < |vec| ==> r[i] * r[i] == vec[i] * vec[i] / dd
    ensures SumSq(r, n) == SumSq(vec, n) / dd
  {
    if n > 0 {
      SumSqScaled(vec, r, dd, n - 1);
      DivAdd(SumSq(vec, n - 1), vec[n - 1] * vec[n - 1], dd);
    }
  }

  /** A non-zero vector normalises to a unit vector. */
  lemma NormalizeUnit(vec: seq<real>, sqrt: real -> real)
    requires IsSqrt(sqrt)
    requires !AllZero(vec)
    ensures SumSq(Normalize(vec, sqrt), |vec|) == 1.0
  {
    SumSqAllZero(vec, |vec|);
    var d := sqrt(SumSq(vec, |vec|));
    var r := Normalize(vec, sqrt);
    assert d * d == SumSq(vec, |vec|);
    SquarePos(d, d * d);
    forall i | 0 <= i < |vec| ensures r[i] * r[i] == vec[i] * vec[i] / (d * d) {
      DivSquare(vec[i], d, r[i], r[i] * r[i], vec[i] * vec[i], d * d, vec[i] * vec[i] / (d * d));
    }
    SumSqScaled(vec, r, d * d, |vec|);
    DivSelf(d * d);
  }

  // ------------------------------------------------- the local embedder

  /** A UTF-16 code unit, widened to the 32 bits the hash works in. */
  type CodeUnit = c: bv32 | c <= 0xFFFF

  const FnvOffsetBasis: bv32 := 2166136261
  const FnvPrime: bv32 := 16777619

  /** One round of the hash: `h ^= c; h = Math.imul(h, 16777619)`. */
  function Mix(h: bv32, c: bv32): bv32 {
    (h ^ c) * FnvPrime
  }

  /** The 32-bit FNV-1a hash, continued from the state `h` over the code
      units of `t`, each offset by `salt` before it is mixed in. `Math.imul`
      keeps the low 32 bits of the product, which is multiplication in
      `bv32`, and `^` works on the same 32 bits. */
  function FnvFrom(h: bv32, t: seq<CodeUnit>, salt: bv32): bv32
    decreases |t|
  {
    if |t| == 0 then h else FnvFrom(Mix(h, t[0] + salt), t[1..], salt)
  }

  /** The hash of a whole token: `h1` uses salt 0 and `h2` salt 13. */
  function Fnv(t: seq<CodeUnit>, salt: bv32): bv32 {
    FnvFrom(FnvOffsetBasis, t, salt)
  }

  /** The standard FNV-1a check value for the one-byte input "a". */
  lemma FnvCheckValue()
    ensures Fnv([0x61], 0) == 0xE40C292C
  {
  }

  /** The per-token loop of `embedTextLocal`, hashing both ways at once. */
  method HashToken(t: seq<CodeUnit>) returns (h1: bv32, h2: bv32)
    ensures h1 == Fnv(t, 0) && h2 == Fnv(t, 13)
  {
    h1, h2 := FnvOffsetBasis, FnvOffsetBasis;
    var i := 0;
    while i < |t|
      invariant 0 <= i <= |t|
      invariant FnvFrom(h1, t[i..], 0) == Fnv(t, 0)
      invariant FnvFrom(h2, t[i..], 13) == Fnv(t, 13)
    {
      assert t[i..][1..] == t[i + 1..];
      var c: bv32 := t[i];
      h1 := Mix(h1, c + 0);
      h2 := Mix(h2, c + 13);
      i := i + 1;
    }
  }

  /** The 32 bits read as a two's-complement integer, as the results of `^`
      and `Math.imul` are. */
  function Signed(h: bv32): (r: int)
    ensures -0x8000_0000 <= r < 0x8000_0000
    ensures r == h as int || r == h as int - 0x1_0000_0000
  {
    if h as int < 0x8000_0000 then h as int else h as int - 0x1_0000_0000
  }

  /** `Math.abs(h1) % dim`. */
  function Bucket(h1: bv32, dim: nat): (k: nat)
    requires dim > 0
    ensures k < dim
  {
    Abs(Signed(h1)) % dim
  }

  /** `(h2 & 1) === 0 ? 1 : -1`. */
  function TokenSign(h2: bv32): (s: int)
    ensures s == 1 || s == -1
  {
    if h2 & 1 == 0 then 1 else -1
  }

  /** Only pieces of more than one code unit are tokens. */
  predicate Counted(t: seq<CodeUnit>) {
    |t| > 1
  }

  /** `vec[idx] += sign` for one token. */
  function AddToken(vec: seq<int>, t: seq<CodeUnit>): (r: seq<int>)
    requires |vec| > 0
    ensures |r| == |vec|
    ensures forall k :: 0 <= k < |vec| ==>
              r[k] == vec[k] + (if k == Bucket(Fnv(t, 0), |vec|) then TokenSign(Fnv(t, 13)) else 0)
  {
    var k := Bucket(Fnv(t, 0), |vec|);
    vec[k := vec[k] + TokenSign(Fnv(t, 13))]
  }

  function Zeros(dim: nat): (z: seq<int>)
    ensures |z| == dim && forall k :: 0 <= k < dim ==> z[k] == 0
  {
    seq(dim, _ => 0)
  }

  /** The bucket counts after the token loop over `pieces`. */
  function Tally(pieces: seq<seq<CodeUnit>>, dim: nat): (vec: seq<int>)
    requires dim > 0
    ensures |vec| == dim
    decreases |pieces|
  {
    if |pieces| == 0 then Zeros(dim)
    else
      var prev := Tally(pieces[..|pieces| - 1], dim);
      var t := pieces[|pieces| - 1];
      if Counted(t) then AddToken(prev, t) else prev
  }

  /** The counts are a sum over the pieces: tallying `a + b` adds the
      tallies of `a` and of `b` bucket by bucket. */
  lemma {:induction false} TallyAppend(a: seq<seq<CodeUnit>>, b: seq<seq<CodeUnit>>, dim: nat)
    requires dim > 0
    ensures forall k :: 0 <= k < dim ==> Tally(a + b, dim)[k] == Tally(a, dim)[k] + Tally(b, dim)[k]
    decreases |b|
  {
    if |b| == 0 {
      assert a + b == a;
    } else {
      var n := |b| - 1;
      assert (a + b)[..|a + b| - 1] == a + b[..n];
      assert (a + b)[|a + b| - 1] == b[n];
      TallyAppend(a, b[..n], dim);
    }
  }

  /** The order of the pieces does not matter. */
  lemma TallyOrderFree(a: seq<seq<CodeUnit>>, b: seq<seq<CodeUnit>>, dim: nat)
    requires dim > 0
    ensures Tally(a + b, dim) == Tally(b + a, dim)
  {
    TallyAppend(a, b, dim);
    TallyAppend(b, a, dim);
  }

  /** A piece of at most one code unit changes nothing, wherever it is. */
  lemma TallySkipsShort(a: seq<seq<CodeUnit>>, t: seq<CodeUnit>, b: seq<seq<CodeUnit>>, dim: nat)
    requires dim > 0 && !Counted(t)
    ensures Tally(a + [t] + b, dim) == Tally(a + b, dim)
  {
    TallyAppend(a + [t], b, dim);
    TallyAppend(a, [t], dim);
    TallyAppend(a, b, dim);
    assert [t][..0] == [];
  }

  /** One token adds exactly its sign to exactly its bucket. */
  lemma TallyOneToken(t: seq<CodeUnit>, dim: nat)
    requires dim > 0 && Counted(t)
    ensures forall k :: 0 <= k < dim ==>
              Tally([t], dim)[k] == (if k == Bucket(Fnv(t, 0), dim) then TokenSign(Fnv(t, 13)) else 0)
  {
    assert [t][..0] == [];
  }

  function ToReals(xs: seq<int>): (r: seq<real>)
    ensures |r| == |xs| && forall i :: 0 <= i < |xs| ==> r[i] == xs[i] as real
  {
    seq(|xs|, i requires 0 <= i < |xs| => xs[i] as real)
  }

  /** `new Array(n)` throws a `RangeError` for lengths of 2^32 and more. */
  const MaxArrayLength: nat := 0x1_0000_0000

  /** `embedTextLocal` at the corrected dimension, on the pieces of the
      tokeniser's whitespace split. A dimension too large for an array
      throws before any token is read. */
  function EmbedLocal(dimVar: EnvNum, pieces: seq<seq<CodeUnit>>, sqrt: real -> real): (r: Result<seq<real>, EmbedError>)
    ensures r.Failure? <==> LocalDim(dimVar) >= MaxArrayLength
    ensures r.Failure? ==> r.error == ArrayLength
    ensures r.Success? ==> |r.value| == LocalDim(dimVar)
  {
    var dim := LocalDim(dimVar);
    if dim >= MaxArrayLength then Failure(ArrayLength)
    else Success(Normalize(ToReals(Tally(pieces, dim)), sqrt))
  }

  /** `embedTextLocal` at the dimension `getLocalDim` computes. At dimension
      0 the array is empty, `Math.abs(h1) % 0` is `NaN` so every increment
      lands on a property that is not an index, and `normalize` maps the
      empty array: the embedding is empty whatever the text. */
  function EmbedLocalAsWritten(dimVar: EnvNum, pieces: seq<seq<CodeUnit>>, sqrt: real -> real): (r: Result<seq<real>, EmbedError>)
    ensures r.Failure? <==> LocalDimAsWritten(dimVar) >= MaxArrayLength
    ensures r.Success? ==> |r.value| == LocalDimAsWritten(dimVar)
  {
    if LocalDimAsWritten(dimVar) == 0 then Success([]) else EmbedLocal(dimVar, pieces, sqrt)
  }

  /** The code's embedder and the corrected one agree wherever the code's
      dimension is positive; where it is 0 the code embeds every text as the
      empty vector and the corrected one at the default dimension. */
  lemma EmbedLocalAsWrittenAgrees(dimVar: EnvNum, pieces: seq<seq<CodeUnit>>, sqrt: real -> real)
    ensures LocalDimAsWritten(dimVar) >= 1 ==> EmbedLocalAsWritten(dimVar, pieces, sqrt) == EmbedLocal(dimVar, pieces, sqrt)
    ensures LocalDimAsWritten(dimVar) == 0 ==>
              && EmbedLocalAsWritten(dimVar, pieces, sqrt) == Success([])
              && EmbedLocal(dimVar, pieces, sqrt).Success?
              && |EmbedLocal(dimVar, pieces, sqrt).value| == DefaultLocalDim
  {
  }

  /** With `EMBED_LOCAL_DIM=0.5` the code embeds any text as `[]`. */
  lemma EmbedLocalAsWrittenEmptyAtHalf(pieces: seq<seq<CodeUnit>>, sqrt: real -> real)
    ensures EmbedLocalAsWritten(Parsed(Finite(0.5)), pieces, sqrt) == Success([])
  {
    LocalDimAsWrittenCanBeZero();
  }

  /** A local embedding, at either dimension, is a unit vector, or the zero
      vector when the tokens cancel out, there are none, or the dimension is
      0. */
  lemma EmbedLocalUnitOrZero(dimVar: EnvNum, pieces: seq<seq<CodeUnit>>, sqrt: real -> real)
    requires IsSqrt(sqrt)
    ensures var r := EmbedLocal(dimVar, pieces, sqrt);
      r.Success? ==> AllZero(r.value) || SumSq(r.value, |r.value|) == 1.0
    ensures var r := EmbedLocalAsWritten(dimVar, pieces, sqrt);
      r.Success? ==> AllZero(r.value) || SumSq(r.value, |r.value|) == 1.0
  {
    var dim := LocalDim(dimVar);
    if dim < MaxArrayLength {
      var raw := ToReals(Tally(pieces, dim));
      if AllZero(raw) {
        NormalizeZero(raw, sqrt);
      } else {
        NormalizeUnit(raw, sqrt);
      }
    }
  }

  // ------------------------------------------------------ remote replies

  /** The JSON body of a successful reply: not JSON (`JSON.parse` throws
      with the given message), without an all-number vector where one is
      expected, or with one. */
  datatype Payload = NotJson(message: string) | NoVector | Vector(values: seq<real>)

  /** What one HTTP exchange gave: the request timer fired, `fetch` threw
      (refused connection, DNS failure, ...), or a response arrived. */
  datatype Reply = TimedOut | Unreachable(message: string)
                 | Answered(status: nat, statusText: string, body: string, payload: Payload)

  /** Every error the embedding client throws. */
  datatype EmbedError =
    | Timeout(ms: int)
    | Transport(message: string)
    | BadJson(message: string)
    | OllamaStatus(model: string, status: nat, statusText: string, body: string)
    | OllamaNoVector(model: string)
    | OllamaTooLong(model: string)
    | GeminiNoKey
    | GeminiStatus(model: string, status: nat, statusText: string, body: string)
    | GeminiNoVector(model: string)
    | Unsupported(provider: string)
    | ArrayLength

  /** The message each error carries; the leading service name is kept
      apart because callers recognise errors by it. */
  function EmbedErrorMessage(e: EmbedError): string {
    match e
    case Timeout(ms) => "Embedding request timeout" + (" after " + Decimal(if ms < 0 then 0 else ms) + "ms")
    case Transport(m) => m
    case BadJson(m) => m
    case OllamaStatus(model, status, text, body) =>
      "Ollama embeddings error" + (" (" + model + "): " + Decimal(status) + " " + text + ". " + body)
    case OllamaNoVector(model) => "Ollama embedding response missing vector (" + model + ")"
    case OllamaTooLong(model) => "Ollama embeddings error" + (" (" + model + "): input too long even after truncation")
    case GeminiNoKey => "Gemini embeddings error" + ": missing GEMINI_API_KEY"
    case GeminiStatus(model, status, text, body) =>
      "Gemini embeddings error" + (" (" + model + "): " + Decimal(status) + " " + text + ". " + body)
    case GeminiNoVector(model) => "Gemini embedding response missing vector (" + model + ")"
    case Unsupported(p) => "Unsupported EMBED_PROVIDER='" + p + "'. Use 'ollama', 'gemini' or 'local'."
    case ArrayLength => "Invalid array length"
  }

  /** `text.slice(0, n)` when the text is longer than `n`, else the text. */
  function Prefix(text: string, n: nat): (p: string)
    ensures StartsWith(text, p) && |p| <= n
    ensures |text| <= n ==> p == text
    ensures |text| > n ==> |p| == n
  {
    if |text| > n then text[..n] else text
  }

  // ------------------------------------------------------------- Ollama

  datatype OllamaRequest = OllamaRequest(model: string, prompt: string)

  /** The overflow reply: status 500 whose body, lower-cased, mentions the
      context length. Only ASCII letters are lower-cased here; no other
      character lower-cases onto the ASCII letters of the phrase in a way
      that could complete it. */
  predicate TooLong(reply: Reply) {
    reply.Answered? && reply.status == 500 && Contains(AsciiLower(reply.body), ContextLengthPhrase)
  }

  /** A reply that ends the loop. */
  function OllamaAnswer(model: string, timeoutMs: int, reply: Reply): Result<seq<real>, EmbedError>
  {
    match reply
    case TimedOut => Failure(Timeout(timeoutMs))
    case Unreachable(m) => Failure(Transport(m))
    case Answered(status, text, body, payload) =>
      if !Crawl.Ok(status) then Failure(OllamaStatus(model, status, text, body))
      else match payload
        case NotJson(m) => Failure(BadJson(m))
        case NoVector => Failure(OllamaNoVector(model))
        case Vector(v) => Success(v)
  }

  function Pow2Nat(n: nat): (r: nat)
    ensures r >= 1
  {
    if n == 0 then 1 else 2 * Pow2Nat(n - 1)
  }

  /** One request of the loop: the character budget it was made with, the
      prompt sent and the reply. */
  datatype OllamaStep = OllamaStep(budget: nat, prompt: string, reply: Reply)

  /** The outcome and the requests made, in order. */
  datatype OllamaRun = OllamaRun(outcome: Result<seq<real>, EmbedError>, steps: seq<OllamaStep>)

  /** How the loop ended: on an overflow reply once the halved budget is
      under the minimum, or on the first reply that is not an overflow. */
  predicate OllamaSettles(model: string, timeoutMs: int, last: OllamaStep, outcome: Result<seq<real>, EmbedError>)
  {
    if TooLong(last.reply) then last.budget / 2 < MinOllamaChars && outcome == Failure(OllamaTooLong(model))
    else outcome == OllamaAnswer(model, timeoutMs, last.reply)
  }

  /** The loop of `embedTextOllama` from a budget of `budget` characters,
      the `attempt`-th request being next. Each request sends the text cut
      to the current budget; only an overflow reply halves the budget and
      goes round again, and the loop gives up once the budget is under 120
      characters. */
  function OllamaFrom(text: string, model: string, timeoutMs: int, budget: nat,
                      respond: (nat, OllamaRequest) -> Reply, attempt: nat): (run: OllamaRun)
    ensures |run.steps| == 0 <==> budget < MinOllamaChars
    ensures |run.steps| == 0 ==> run.outcome == Failure(OllamaTooLong(model))
    ensures |run.steps| > 0 ==> run.steps[0].budget == budget
    ensures forall i :: 0 <= i < |run.steps| ==>
              run.steps[i].budget >= MinOllamaChars && run.steps[i].prompt == Prefix(text, run.steps[i].budget)
    ensures forall i :: 0 <= i < |run.steps| - 1 ==> run.steps[i + 1].budget == run.steps[i].budget / 2
    decreases budget
  {
    if budget < MinOllamaChars then OllamaRun(Failure(OllamaTooLong(model)), [])
    else
      var prompt := Prefix(text, budget);
      var reply := respond(attempt, OllamaRequest(model, prompt));
      if TooLong(reply) then
        var rest := OllamaFrom(text, model, timeoutMs, budget / 2, respond, attempt + 1);
        OllamaRun(rest.outcome, [OllamaStep(budget, prompt, reply)] + rest.steps)
      else OllamaRun(OllamaAnswer(model, timeoutMs, reply), [OllamaStep(budget, prompt, reply)])
  }

  /** Request `i` is the `attempt + i`-th exchange and carries the prompt
      recorded for it. */
  predicate RepliesInOrder(steps: seq<OllamaStep>, model: string, respond: (nat, OllamaRequest) -> Reply, attempt: nat) {
    forall i :: 0 <= i < |steps| ==> steps[i].reply == respond(attempt + i, OllamaRequest(model, steps[i].prompt))
  }

  /** Every request but the last got an overflow reply. */
  predicate OverflowsBeforeLast(steps: seq<OllamaStep>) {
    forall i :: 0 <= i < |steps| - 1 ==> TooLong(steps[i].reply)
  }

  lemma {:induction false} OllamaRepliesInOrder(text: string, model: string, timeoutMs: int, budget: nat,
                                                respond: (nat, OllamaRequest) -> Reply, attempt: nat)
    ensures RepliesInOrder(OllamaFrom(text, model, timeoutMs, budget, respond, attempt).steps, model, respond, attempt)
    decreases budget
  {
    if budget >= MinOllamaChars && TooLong(respond(attempt, OllamaRequest(model, Prefix(text, budget)))) {
      OllamaRepliesInOrder(text, model, timeoutMs, budget / 2, respond, attempt + 1);
      var rest := OllamaFrom(text, model, timeoutMs, budget / 2, respond, attempt + 1);
      var prompt := Prefix(text, budget);
      RepliesInOrderCons(OllamaStep(budget, prompt, respond(attempt, OllamaRequest(model, prompt))),
                         rest.steps, model, respond, attempt);
    }
  }

  lemma RepliesInOrderCons(step: OllamaStep, rest: seq<OllamaStep>, model: string,
                           respond: (nat, OllamaRequest) -> Reply, attempt: nat)
    requires step.reply == respond(attempt, OllamaRequest(model, step.prompt))
    requires RepliesInOrder(rest, model, respond, attempt + 1)
    ensures RepliesInOrder([step] + rest, model, respond, attempt)
  {
    var steps := [step] + rest;
    forall i | 1 <= i < |steps|
      ensures steps[i].reply == respond(attempt + i, OllamaRequest(model, steps[i].prompt))
    {
      assert steps[i] == rest[i - 1];
    }
  }

  lemma {:induction false} OllamaRetriesOnOverflow(text: string, model: string, timeoutMs: int, budget: nat,
                                                   respond: (nat, OllamaRequest) -> Reply, attempt: nat)
    ensures OverflowsBeforeLast(OllamaFrom(text, model, timeoutMs, budget, respond, attempt).steps)
    decreases budget
  {
    if budget >= MinOllamaChars && TooLong(respond(attempt, OllamaRequest(model, Prefix(text, budget)))) {
      OllamaRetriesOnOverflow(text, model, timeoutMs, budget / 2, respond, attempt + 1);
      var rest := OllamaFrom(text, model, timeoutMs, budget / 2, respond, attempt + 1);
      var run := OllamaFrom(text, model, timeoutMs, budget, respond, attempt);
      assert OverflowsBeforeLast(rest.steps);
      assert run.steps[1..] == rest.steps;
      forall i | 1 <= i < |run.steps| - 1 ensures TooLong(run.steps[i].reply) {
        assert run.steps[i] == rest.steps[i - 1];
      }
    }
  }

  /** The last reply settles the outcome. */
  lemma {:induction false} OllamaLastSettles(text: string, model: string, timeoutMs: int, budget: nat,
                                             respond: (nat, OllamaRequest) -> Reply, attempt: nat)
    ensures var run := OllamaFrom(text, model, timeoutMs, budget, respond, attempt);
      |run.steps| > 0 ==> OllamaSettles(model, timeoutMs, run.steps[|run.steps| - 1], run.outcome)
    decreases budget
  {
    if budget >= MinOllamaChars && TooLong(respond(attempt, OllamaRequest(model, Prefix(text, budget)))) {
      OllamaLastSettles(text, model, timeoutMs, budget / 2, respond, attempt + 1);
      var rest := OllamaFrom(text, model, timeoutMs, budget / 2, respond, attempt + 1);
      var run := OllamaFrom(text, model, timeoutMs, budget, respond, attempt);
      if |rest.steps| > 0 {
        assert run.steps[|run.steps| - 1] == rest.steps[|rest.steps| - 1];
      }
    }
  }

  /** Budgets never grow: every request is within the initial budget. */
  lemma {:induction false} OllamaBudgetsShrink(steps: seq<OllamaStep>, budget: nat, i: nat)
    requires |steps| > 0 && steps[0].budget == budget
    requires forall k :: 0 <= k < |steps| - 1 ==> steps[k + 1].budget == steps[k].budget / 2
    requires i < |steps|
    ensures steps[i].budget <= budget
  {
    if i > 0 {
      OllamaBudgetsShrink(steps, budget, i - 1);
    }
  }

  /** Request `i` of `n` still had `120 · 2^(n-1-i)` characters to spend,
      since every later budget is half of the one before and none is under
      120. */
  lemma {:induction false} OllamaBudgetsDouble(steps: seq<OllamaStep>, i: nat)
    requires forall k :: 0 <= k < |steps| ==> steps[k].budget >= MinOllamaChars
    requires forall k :: 0 <= k < |steps| - 1 ==> steps[k + 1].budget == steps[k].budget / 2
    requires i < |steps|
    ensures MinOllamaChars * Pow2Nat(|steps| - 1 - i) <= steps[i].budget
    decreases |steps| - i
  {
    if i < |steps| - 1 {
      OllamaBudgetsDouble(steps, i + 1);
      assert Pow2Nat(|steps| - 1 - i) == 2 * Pow2Nat(|steps| - 1 - (i + 1));
    }
  }

  /** The loop makes at most one request more than the number of times 120
      doubles within the budget: `n` requests need `120 · 2^(n-1) ≤ budget`. */
  lemma OllamaRequestCount(text: string, model: string, timeoutMs: int, budget: nat,
                           respond: (nat, OllamaRequest) -> Reply, attempt: nat)
    ensures var n := |OllamaFrom(text, model, timeoutMs, budget, respond, attempt).steps|;
      n == 0 || MinOllamaChars * Pow2Nat(n - 1) <= budget
  {
    var steps := OllamaFrom(text, model, timeoutMs, budget, respond, attempt).steps;
    if |steps| > 0 {
      OllamaBudgetsDouble(steps, 0);
    }
  }

  /** `embedTextOllama`: the model from `OLLAMA_EMBED_MODEL`, the initial
      budget from `OLLAMA_EMBED_MAX_CHARS`, and the loop from request 0.
      Every prompt is a prefix of the text within the configured budget. */
  function Ollama(modelVar: Option<string>, maxCharsVar: EnvNum, timeoutMs: int, text: string,
                  respond: (nat, OllamaRequest) -> Reply): (run: OllamaRun)
    ensures forall i :: 0 <= i < |run.steps| ==>
              StartsWith(text, run.steps[i].prompt) && |run.steps[i].prompt| <= PositiveFloorOr(maxCharsVar, DefaultOllamaMaxChars)
  {
    var budget := PositiveFloorOr(maxCharsVar, DefaultOllamaMaxChars);
    var run := OllamaFrom(text, modelVar.GetOr(DefaultOllamaModel), timeoutMs, budget, respond, 0);
    forall i | 0 <= i < |run.steps|
      ensures |run.steps[i].prompt| <= budget
    {
      OllamaBudgetsShrink(run.steps, budget, i);
    }
    run
  }

  // ------------------------------------------------------------- Gemini

  datatype TaskType = RetrievalDocument | RetrievalQuery

  datatype GeminiRequest = GeminiRequest(model: string, text: string, taskType: TaskType)

  /** The outcome and the request sent, if any. */
  datatype GeminiRun = GeminiRun(outcome: Result<seq<real>, EmbedError>, request: Option<GeminiRequest>)

  function GeminiAnswer(model: string, timeoutMs: int, reply: Reply): Result<seq<real>, EmbedError>
  {
    match reply
    case TimedOut => Failure(Timeout(timeoutMs))
    case Unreachable(m) => Failure(Transport(m))
    case Answered(status, text, body, payload) =>
      if !Crawl.Ok(status) then Failure(GeminiStatus(model, status, text, body))
      else match payload
        case NotJson(m) => Failure(BadJson(m))
        case NoVector => Failure(GeminiNoVector(model))
        case Vector(v) => Success(v)
  }

  /** `embedTextGemini`: no request without a key; otherwise one request
      with the trimmed model name and the text cut to `GEMINI_EMBED_MAX_CHARS`. */
  function Gemini(keyVar: Option<string>, modelVar: Option<string>, maxCharsVar: EnvNum, timeoutMs: int,
                  text: string, taskType: TaskType, respond: GeminiRequest -> Reply): (run: GeminiRun)
    ensures run.request.None? <==> Trim(keyVar.GetOr("")) == ""
    ensures run.request.None? ==> run.outcome == Failure(GeminiNoKey)
    ensures run.request.Some? ==>
              && run.request.value.model == Trim(modelVar.GetOr(DefaultGeminiModel))
              && run.request.value.taskType == taskType
              && StartsWith(text, run.request.value.text)
              && |run.request.value.text| <= PositiveFloorOr(maxCharsVar, DefaultGeminiMaxChars)
              && (|text| <= PositiveFloorOr(maxCharsVar, DefaultGeminiMaxChars) ==> run.request.value.text == text)
              && run.outcome == GeminiAnswer(run.request.value.model, timeoutMs, respond(run.request.value))
  {
    var key := Trim(keyVar.GetOr(""));
    if key == "" then GeminiRun(Failure(GeminiNoKey), None)
    else
      var model := Trim(modelVar.GetOr(DefaultGeminiModel));
      var request := GeminiRequest(model, Prefix(text, PositiveFloorOr(maxCharsVar, DefaultGeminiMaxChars)), taskType);
      GeminiRun(GeminiAnswer(model, timeoutMs, respond(request)), Some(request))
  }

  // ----------------------------------------------------------- dispatch

  /** The environment variables the embedding client reads. */
  datatype EmbedEnv = EmbedEnv(provider: Option<string>, timeout: EnvNum, localDim: EnvNum,
                               ollamaModel: Option<string>, ollamaMaxChars: EnvNum,
                               geminiKey: Option<string>, geminiModel: Option<string>, geminiMaxChars: EnvNum)

  /** The outside world: the tokeniser, `Math.sqrt`, and the two servers. */
  datatype Services = Services(tokenize: string -> seq<seq<CodeUnit>>, sqrt: real -> real,
                               ollama: (nat, OllamaRequest) -> Reply, gemini: GeminiRequest -> Reply)

  /** `EMBED_PROVIDER`, default `ollama`, lower-cased. */
  function ProviderName(env: EmbedEnv): string {
    AsciiLower(env.provider.GetOr(DefaultProvider))
  }

  /** `embedText`. */
  function EmbedText(env: EmbedEnv, svc: Services, text: string, taskType: TaskType): (r: Result<seq<real>, EmbedError>)
    ensures ProviderName(env) == "local" ==> r == EmbedLocal(env.localDim, svc.tokenize(text), svc.sqrt)
    ensures ProviderName(env) == "ollama" ==>
              r == Ollama(env.ollamaModel, env.ollamaMaxChars, EmbedTimeoutMs(env.timeout), text, svc.ollama).outcome
    ensures ProviderName(env) == "gemini" ==>
              r == Gemini(env.geminiKey, env.geminiModel, env.geminiMaxChars, EmbedTimeoutMs(env.timeout),
                          text, taskType, svc.gemini).outcome
    ensures ProviderName(env) !in {"local", "ollama", "gemini"} ==> r == Failure(Unsupported(ProviderName(env)))
  {
    var provider := ProviderName(env);
    var timeoutMs := EmbedTimeoutMs(env.timeout);
    if provider == "local" then EmbedLocal(env.localDim, svc.tokenize(text), svc.sqrt)
    else if provider == "ollama" then Ollama(env.ollamaModel, env.ollamaMaxChars, timeoutMs, text, svc.ollama).outcome
    else if provider == "gemini" then
      Gemini(env.geminiKey, env.geminiModel, env.geminiMaxChars, timeoutMs, text, taskType, svc.gemini).outcome
    else Failure(Unsupported(provider))
  }

  lemma AsciiLowerIdempotent(s: string)
    ensures AsciiLower(AsciiLower(s)) == AsciiLower(s)
  {
  }

  /** The provider name is case-insensitive: naming it in capitals changes
      nothing. */
  lemma EmbedTextCaseInsensitive(env: EmbedEnv, svc: Services, text: string, taskType: TaskType)
    requires env.provider.Some?
    ensures EmbedText(env.(provider := Some(AsciiLower(env.provider.value))), svc, text, taskType)
         == EmbedText(env, svc, text, taskType)
  {
    AsciiLowerIdempotent(env.provider.value);
  }

  /** Unset, the provider is Ollama. */
  lemma EmbedTextDefaultsToOllama(env: EmbedEnv, svc: Services, text: string, taskType: TaskType)
    requires env.provider.None?
    ensures EmbedText(env, svc, text, taskType)
         == Ollama(env.ollamaModel, env.ollamaMaxChars, EmbedTimeoutMs(env.timeout), text, svc.ollama).outcome
  {
    AsciiLowerNoCapitals(DefaultProvider);
    assert ProviderName(env) == "ollama";
  }
}

=== FILE: encoding.dfy ===
/** The byte encodings behind `safeId`: UTF-8, as `Buffer.from(s)` produces
    it, and the unpadded URL-safe base64 of section 5 of RFC 4648, as
    `toString("base64url")` produces it. */
module Encoding {

  type Byte = b: int | 0 <= b < 256

  // ---------------------------------------------------------------- UTF-8

  /** How many bytes UTF-8 spends on `c` (section 3 of RFC 3629). */
  function Width(c: char): (w: nat)
    ensures 1 <= w <= 4
  {
    var v := c as int;
    if v < 0x80 then 1 else if v < 0x800 then 2 else if v < 0x10000 then 3 else 4
  }

  /** The UTF-8 bytes of one character: a lead byte, then continuation
      bytes `10xxxxxx`. */
  function EncodeChar(c: char): (r: seq<Byte>)
    ensures |r| == Width(c)
    ensures forall i :: 1 <= i < |r| ==> 0x80 <= r[i] < 0xC0
  {
    var v := c as int;
    if v < 0x80 then [v]
    else if v < 0x800 then [0xC0 + v / 64, 0x80 + v % 64]
    else if v < 0x10000 then [0xE0 + v / 64 / 64, 0x80 + v / 64 % 64, 0x80 + v % 64]
    else [0xF0 + v / 64 / 64 / 64, 0x80 + v / 64 / 64 % 64, 0x80 + v / 64 % 64, 0x80 + v % 64]
  }

  /** The width a lead byte announces. */
  function LeadWidth(b: Byte): nat {
    if b < 0x80 then 1 else if b < 0xE0 then 2 else if b < 0xF0 then 3 else 4
  }

  /** The six payload bits of a continuation byte. */
  function Tail(b: Byte): int { b as int - 0x80 }

  /** The character value carried by `w` bytes, lead byte first. */
  function DecodeValue(bs: seq<Byte>, w: nat): int
    requires 1 <= w <= 4 && w <= |bs|
  {
    if w == 1 then bs[0]
    else if w == 2 then (bs[0] as int - 0xC0) * 64 + Tail(bs[1])
    else if w == 3 then ((bs[0] as int - 0xE0) * 64 + Tail(bs[1])) * 64 + Tail(bs[2])
    else (((bs[0] as int - 0xF0) * 64 + Tail(bs[1])) * 64 + Tail(bs[2])) * 64 + Tail(bs[3])
  }

  /** The lead byte announces the width, and the bytes give the value
      back. */
  lemma EncodeCharDecodes(c: char)
    ensures LeadWidth(EncodeChar(c)[0]) == Width(c)
    ensures DecodeValue(EncodeChar(c), Width(c)) == c as int
  {
    var v := c as int;
    if v >= 0x800 {
      DivMod64(v);
      DivMod64(v / 64);
      DivMod64(v / 64 / 64);
    } else if v >= 0x80 {
      DivMod64(v);
    }
  }

  /** Peeling off six bits. */
  lemma DivMod64(v: int)
    requires v >= 0
    ensures v / 64 * 64 + v % 64 == v && 0 <= v % 64 < 64
  {
  }

  /** `Buffer.from(s)`: the UTF-8 bytes of `s`, character by character. */
  function Utf8(s: string): (r: seq<Byte>)
    ensures |s| <= |r| <= 4 * |s|
  {
    if |s| == 0 then [] else EncodeChar(s[0]) + Utf8(s[1..])
  }

  /** Different strings have different UTF-8 bytes. */
  lemma {:induction false} Utf8Injective(s: string, t: string)
    requires Utf8(s) == Utf8(t)
    ensures s == t
    decreases |s|
  {
    if |s| > 0 && |t| > 0 {
      var u := Utf8(s);
      EncodeCharDecodes(s[0]);
      EncodeCharDecodes(t[0]);
      var a, b := EncodeChar(s[0]), EncodeChar(t[0]);
      assert u == a + Utf8(s[1..]) == b + Utf8(t[1..]);
      assert a[0] == u[0] == b[0];
      var w := |a|;
      assert a == u[..w] == b;
      assert s[0] as int == t[0] as int;
      assert u[w..] == Utf8(s[1..]) && u[w..] == Utf8(t[1..]);
      Utf8Injective(s[1..], t[1..]);
      assert s == [s[0]] + s[1..] && t == [t[0]] + t[1..];
    }
  }

  // ---------------------------------------------------------- base64url

  /** The URL-safe alphabet: letters, digits, `-` and `_`. */
  predicate UrlSafe(c: char) {
    ('A' <= c <= 'Z') || ('a' <= c <= 'z') || ('0' <= c <= '9') || c == '-' || c == '_'
  }

  /** The character for a six-bit value. */
  function Digit64(v: int): (c: char)
    requires 0 <= v < 64
    ensures UrlSafe(c)
  {
    if v < 26 then ('A' as int + v) as char
    else if v < 52 then ('a' as int + v - 26) as char
    else if v < 62 then ('0' as int + v - 52) as char
    else if v == 62 then '-'
    else '_'
  }

  /** The six-bit value of an alphabet character. */
  function Value64(c: char): (v: int)
    requires UrlSafe(c)
    ensures 0 <= v < 64
  {
    if 'A' <= c <= 'Z' then c as int - 'A' as int
    else if 'a' <= c <= 'z' then c as int - 'a' as int + 26
    else if '0' <= c <= '9' then c as int - '0' as int + 52
    else if c == '-' then 62
    else 63
  }

  /** The alphabet read back gives the value. */
  lemma Digit64Value(v: int)
    requires 0 <= v < 64
    ensures Value64(Digit64(v)) == v
  {
  }

  /** Three bytes as four characters (24 bits as four six-bit digits). */
  function Quad(b0: Byte, b1: Byte, b2: Byte): (r: string)
    ensures |r| == 4 && forall i :: 0 <= i < 4 ==> UrlSafe(r[i])
  {
    [Digit64(b0 / 4), Digit64(b0 % 4 * 16 + b1 / 16), Digit64(b1 % 16 * 4 + b2 / 64), Digit64(b2 % 64)]
  }

  /** Four characters back as three bytes. */
  function Unquad(c0: char, c1: char, c2: char, c3: char): seq<Byte>
    requires UrlSafe(c0) && UrlSafe(c1) && UrlSafe(c2) && UrlSafe(c3)
  {
    var v0, v1, v2 := Value64(c0), Value64(c1), Value64(c2);
    [v0 * 4 + v1 / 16, v1 % 16 * 16 + v2 / 4, v2 % 4 * 64 + Value64(c3)]
  }

  /** A group decodes to the bytes it encodes. */
  lemma QuadRoundTrip(b0: Byte, b1: Byte, b2: Byte)
    ensures var q := Quad(b0, b1, b2); Unquad(q[0], q[1], q[2], q[3]) == [b0, b1, b2]
  {
    Digit64Value(b0 / 4);
    Digit64Value(b0 % 4 * 16 + b1 / 16);
    Digit64Value(b1 % 16 * 4 + b2 / 64);
    Digit64Value(b2 % 64);
    Regroup(b0, b1, b2, b0 / 4, b0 % 4 * 16 + b1 / 16, b1 % 16 * 4 + b2 / 64, b2 % 64);
  }

  /** Cutting 24 bits into four six-bit digits and back. */
  lemma Regroup(b0: Byte, b1: Byte, b2: Byte, v0: int, v1: int, v2: int, v3: int)
    requires v0 == b0 / 4 && v1 == b0 % 4 * 16 + b1 / 16 && v2 == b1 % 16 * 4 + b2 / 64 && v3 == b2 % 64
    ensures v0 * 4 + v1 / 16 == b0 && v1 % 16 * 16 + v2 / 4 == b1 && v2 % 4 * 64 + v3 == b2
  {
  }

  /** `toString("base64url")`: every three bytes become four characters,
      a final one or two bytes become two or three, with no padding. */
  function Base64Url(bs: seq<Byte>): (r: string)
    ensures |r| == (4 * |bs| + 2) / 3
    ensures forall i :: 0 <= i < |r| ==> UrlSafe(r[i])
    decreases |bs|
  {
    if |bs| == 0 then ""
    else if |bs| == 1 then Quad(bs[0], 0, 0)[..2]
    else if |bs| == 2 then Quad(bs[0], bs[1], 0)[..3]
    else Quad(bs[0], bs[1], bs[2]) + Base64Url(bs[3..])
  }

  /** Reading base64url text back into bytes; a final group of two or three
      characters carries one or two bytes. */
  function Base64UrlDecode(s: string): (r: seq<Byte>)
    requires forall i :: 0 <= i < |s| ==> UrlSafe(s[i])
    decreases |s|
  {
    if |s| < 2 then []
    else if |s| == 2 then Unquad(s[0], s[1], 'A', 'A')[..1]
    else if |s| == 3 then Unquad(s[0], s[1], s[2], 'A')[..2]
    else Unquad(s[0], s[1], s[2], s[3]) + Base64UrlDecode(s[4..])
  }

  /** Decoding undoes encoding. */
  lemma {:induction false} Base64UrlRoundTrip(bs: seq<Byte>)
    ensures Base64UrlDecode(Base64Url(bs)) == bs
    decreases |bs|
  {
    if |bs| == 1 {
      QuadRoundTrip(bs[0], 0, 0);
    } else if |bs| == 2 {
      QuadRoundTrip(bs[0], bs[1], 0);
    } else if |bs| >= 3 {
      QuadRoundTrip(bs[0], bs[1], bs[2]);
      Base64UrlRoundTrip(bs[3..]);
      var r := Base64Url(bs);
      assert r[4..] == Base64Url(bs[3..]);
      assert bs == bs[..3] + bs[3..];
    }
  }

  /** Different byte strings encode differently. */
  lemma Base64UrlInjective(a: seq<Byte>, b: seq<Byte>)
    requires Base64Url(a) == Base64Url(b)
    ensures a == b
  {
    Base64UrlRoundTrip(a);
    Base64UrlRoundTrip(b);
  }

  /** Test vectors of section 10 of RFC 4648, without padding. */
  lemma Base64UrlShortVectors()
    ensures Base64Url([0x66]) == "Zg"
    ensures Base64Url([0x66, 0x6F]) == "Zm8"
  {
    QuadDigits(0x66, 0, 0, 25, 32, 0, 0);
    QuadDigits(0x66, 0x6F, 0, 25, 38, 60, 0);
  }

  /** `foobar` is `Zm9vYmFy`. */
  lemma Base64UrlFoobar()
    ensures Base64Url([0x66, 0x6F, 0x6F, 0x62, 0x61, 0x72]) == "Zm9vYmFy"
  {
    var bs: seq<Byte> := [0x66, 0x6F, 0x6F, 0x62, 0x61, 0x72];
    QuadFoo();
    QuadBar();
    assert bs[3..] == [0x62, 0x61, 0x72];
  }

  /** The digits of a group, computed once. */
  lemma QuadDigits(b0: Byte, b1: Byte, b2: Byte, v0: int, v1: int, v2: int, v3: int)
    requires v0 == b0 / 4 && v1 == b0 % 4 * 16 + b1 / 16 && v2 == b1 % 16 * 4 + b2 / 64 && v3 == b2 % 64
    ensures 0 <= v0 < 64 && 0 <= v1 < 64 && 0 <= v2 < 64 && 0 <= v3 < 64
    ensures Quad(b0, b1, b2) == [Digit64(v0), Digit64(v1), Digit64(v2), Digit64(v3)]
  {
  }

  /** `foo` is `Zm9v`. */
  lemma QuadFoo()
    ensures Quad(0x66, 0x6F, 0x6F) == "Zm9v"
  {
    QuadDigits(0x66, 0x6F, 0x6F, 25, 38, 61, 47);
  }

  /** `bar` is `YmFy`. */
  lemma QuadBar()
    ensures Quad(0x62, 0x61, 0x72) == "YmFy"
  {
    QuadDigits(0x62, 0x61, 0x72, 24, 38, 5, 50);
  }

  /** Two-byte UTF-8, as in the default article title: `í` is U+00ED. */
  lemma Utf8TwoByteVector()
    ensures EncodeChar('\U{ED}') == [0xC3, 0xAD]
  {
  }

  /** The two digits where the URL-safe alphabet differs from the standard
      one, `-` for 62 and `_` for 63. */
  lemma Base64UrlSafeDigits()
    ensures Base64Url([0xFB, 0xFF]) == "-_8"
  {
    QuadDigits(0xFB, 0xFF, 0, 62, 63, 60, 0);
  }
}

=== FILE: env.dfy ===
/** Numbers as the configuration readers see them. Every tunable of the
    pipeline is an environment variable converted with JavaScript's
    `Number(...)`; the two reading idioms of the source differ on the empty
    string, so both are modelled. */
module Env {

  /** The value `Number(v)` produces: a finite number, or NaN/±Infinity. */
  datatype JsNumber = Finite(value: real) | NonFinite

  /** An environment variable: unset, set to the empty string, or set to a
      non-empty string whose `Number(...)` conversion is given. */
  datatype EnvNum = Unset | Empty | Parsed(number: JsNumber)

  function Min(a: int, b: int): int { if a <= b then a else b }

  function Max(a: int, b: int): int { if a >= b then a else b }

  function Abs(x: int): nat { if x < 0 then -x else x }

  function RealMin(a: real, b: real): real { if a <= b then a else b }

  /** `Math.trunc`: rounds toward zero. */
  function Trunc(x: real): (r: int)
    ensures x >= 0.0 ==> 0 <= r && r as real <= x < r as real + 1.0
    ensures x < 0.0 ==> r <= 0 && r as real - 1.0 < x <= r as real
  {
    if x >= 0.0 then x.Floor else -((-x).Floor)
  }

  /** The `getEnvNum(name, fallback)` idiom: an unset or empty variable, or
      one that does not convert to a finite number, yields the fallback. */
  function GetEnvNum(v: EnvNum, fallback: real): real
  {
    match v
    case Parsed(Finite(x)) => x
    case _ => fallback
  }

  /** The `Number(process.env.X ?? "<default>")` idiom: only an unset
      variable yields the default; the empty string converts to 0. */
  function NumberOr(v: EnvNum, default: real): JsNumber
  {
    match v
    case Unset => Finite(default)
    case Empty => Finite(0.0)
    case Parsed(n) => n
  }

  /** The request-timeout reader shared by the embedding and chat clients:
      `Number(env ?? default)`, the default when that is not finite, and
      otherwise the value truncated toward zero and raised to at least one
      second. */
  function TimeoutMs(v: EnvNum, default: nat): (ms: int)
    requires default >= 1000
    ensures ms >= 1000
    ensures NumberOr(v, default as real).NonFinite? ==> ms == default
    ensures v.Unset? ==> ms == default
    ensures NumberOr(v, default as real).Finite? && NumberOr(v, default as real).value >= 1000.0 ==>
              ms as real <= NumberOr(v, default as real).value < ms as real + 1.0
    ensures NumberOr(v, default as real).Finite? && NumberOr(v, default as real).value < 1000.0 ==> ms == 1000
  {
    match NumberOr(v, default as real)
    case NonFinite => default
    case Finite(x) => Max(1000, Trunc(x))
  }
}

=== FILE: ingest.dfy ===
/** The ingestion bookkeeping of `runIngest` (`src/ingest/run.ts`): the
    stable chunk ids, the retry schedule around the embedder, and the items
    one article contributes to the vectors file. Fetching, embedding and
    sleeping are oracles; articles are processed one after another. */
module Ingest {
  import opened Wrappers
  import opened Env
  import opened Text
  import opened Encoding
  import Chunk
  import Article
  import Retrieve

  /** `EMBED_RETRIES` when unset, empty or not finite. */
  const DefaultEmbedRetries: real := 2.0

  /** Milliseconds slept after failed attempt `a` is `RetryStepMs * (a + 1)`. */
  const RetryStepMs: nat := 250

  // ------------------------------------------------------------------- ids

  /** `safeId(s)`: the base64url text of the UTF-8 bytes of `s`. */
  function SafeId(s: string): (id: string)
    ensures forall i :: 0 <= i < |id| ==> UrlSafe(id[i])
    ensures |id| == (4 * |Utf8(s)| + 2) / 3
  {
    Base64Url(Utf8(s))
  }

  /** Different strings get different ids. */
  lemma SafeIdInjective(s: string, t: string)
    requires SafeId(s) == SafeId(t)
    ensures s == t
  {
    Base64UrlInjective(Utf8(s), Utf8(t));
    Utf8Injective(s, t);
  }

  /** The id of chunk `i` of the article at `url`: `safeId(`${url}#${i}`)`. */
  function ChunkId(url: string, i: nat): (id: string)
    ensures forall k :: 0 <= k < |id| ==> UrlSafe(id[k])
  {
    SafeId(url + "#" + Decimal(i))
  }

  /** Distinct (url, chunk) pairs get distinct ids, even for URLs that
      contain `#`: the number after the last `#` is the chunk index. */
  lemma ChunkIdInjective(url: string, i: nat, url': string, i': nat)
    requires ChunkId(url, i) == ChunkId(url', i')
    ensures url == url' && i == i'
  {
    SafeIdInjective(url + "#" + Decimal(i), url' + "#" + Decimal(i'));
    DigitsHaveNoHash(i);
    DigitsHaveNoHash(i');
    SplitAtLastHash(url, Decimal(i), url', Decimal(i'));
    DecimalInjective(i, i');
  }

  lemma DigitsHaveNoHash(n: nat)
    ensures '#' !in Decimal(n)
  {
  }

  /** `a#d` determines `a` and `d` when `d` has no `#`. */
  lemma SplitAtLastHash(a: string, d: string, a': string, d': string)
    requires '#' !in d && '#' !in d'
    requires a + "#" + d == a' + "#" + d'
    ensures a == a' && d == d'
  {
    var s := a + "#" + d;
    forall k | |a| < k < |s| ensures s[k] != '#' {
      assert s[k] == d[k - |a| - 1];
    }
    forall k | |a'| < k < |s| ensures s[k] != '#' {
      assert s[k] == d'[k - |a'| - 1];
    }
    assert s[|a|] == '#' && s[|a'|] == '#';
    assert |a| == |a'|;
    assert a == s[..|a|] && a' == s[..|a'|];
    assert d == s[|a| + 1..] && d' == s[|a'| + 1..];
  }

  // ------------------------------------------------------------- retries

  /** What `throw lastErr` throws: the last error, or `undefined` when the
      loop never ran (a negative retry count). */
  datatype Thrown<E> = Raised(error: E) | Undefined

  /** The outcome of `embedWithRetries`, the number of embedder calls made,
      and the sleeps taken in between, in milliseconds. */
  datatype RetryRun<V, E> = RetryRun(outcome: Result<V, Thrown<E>>, calls: nat, waits: seq<nat>)

  /** A whole number: the only retry counts the `attempt === retries` test
      can match. */
  predicate Whole(x: real) {
    x == x.Floor as real
  }

  /** Calls left to make from attempt `attempt` on. */
  function Remaining(retries: real, attempt: nat): (n: nat)
    ensures n > 0 <==> attempt as real <= retries
  {
    if attempt as real <= retries then retries.Floor + 1 - attempt else 0
  }

  /** The retry loop from attempt `attempt`, with `last` the error of the
      attempt before it; `call(a)` is what attempt `a` of the embedder
      returns. */
  function RetriesFrom<V, E>(retries: real, call: nat -> Result<V, E>, attempt: nat, last: Thrown<E>): (run: RetryRun<V, E>)
    ensures run.calls <= Remaining(retries, attempt)
    ensures forall a :: attempt <= a < attempt + run.calls - 1 ==> call(a).Failure?
    ensures run.outcome.Success? ==> run.calls > 0 && call(attempt + run.calls - 1) == Success(run.outcome.value)
    ensures run.outcome.Failure? ==> && run.calls == Remaining(retries, attempt)
                                     && (run.calls > 0 ==> call(attempt + run.calls - 1).Failure?)
                                     && run.outcome.error == (if run.calls == 0 then last else Raised(call(attempt + run.calls - 1).error))
    ensures forall i :: 0 <= i < |run.waits| ==> run.waits[i] == RetryStepMs * (attempt + i + 1)
    ensures |run.waits| == if run.calls == 0 then 0
                           else if run.outcome.Success? || Whole(retries) then run.calls - 1
                           else run.calls
    decreases Remaining(retries, attempt)
  {
    if !(attempt as real <= retries) then RetryRun(Failure(last), 0, [])
    else
      match call(attempt)
      case Success(v) => RetryRun(Success(v), 1, [])
      case Failure(e) =>
        if attempt as real == retries then RetryRun(Failure(Raised(e)), 1, [])
        else
          var rest := RetriesFrom(retries, call, attempt + 1, Raised(e));
          RetryRun(rest.outcome, rest.calls + 1, [RetryStepMs * (attempt + 1)] + rest.waits)
  }

  /** `embedWithRetries(chunk, retries)`, with the embedder's answer to each
      attempt given by `call`. */
  function EmbedWithRetries<V, E>(retries: real, call: nat -> Result<V, E>): RetryRun<V, E> {
    RetriesFrom(retries, call, 0, Undefined)
  }

  /** At most `retries + 1` calls; the first success is returned at once;
      if every call fails, exactly `retries + 1` are made and the last error
      is thrown; the sleep after failed attempt `a` is `250 * (a + 1)`
      milliseconds, and there is none after the last attempt when `retries`
      is a whole number. */
  lemma EmbedWithRetriesSpec<V, E>(retries: real, call: nat -> Result<V, E>)
    requires retries >= 0.0
    ensures var run := EmbedWithRetries(retries, call);
      && 1 <= run.calls <= retries.Floor + 1
      && (forall a :: 0 <= a < run.calls - 1 ==> call(a).Failure?)
      && (run.outcome.Success? ==> call(run.calls - 1) == Success(run.outcome.value))
      && (run.outcome.Failure? ==> run.calls == retries.Floor + 1 && run.outcome.error == Raised(call(run.calls - 1).error))
      && (forall a :: 0 <= a < |run.waits| ==> run.waits[a] == RetryStepMs * (a + 1))
      && (Whole(retries) ==> |run.waits| == run.calls - 1)
  {
  }

  /** A negative retry count makes no call and throws `undefined`. */
  lemma EmbedWithRetriesNegative<V, E>(retries: real, call: nat -> Result<V, E>)
    requires retries < 0.0
    ensures EmbedWithRetries(retries, call) == RetryRun(Failure(Undefined), 0, [])
  {
  }

  /** A fractional retry count sleeps once more after the final failure. */
  lemma EmbedWithRetriesFractional<V, E>(retries: real, call: nat -> Result<V, E>)
    requires retries >= 0.0 && !Whole(retries)
    requires forall a :: 0 <= a <= retries.Floor ==> call(a).Failure?
    ensures var run := EmbedWithRetries(retries, call);
      run.outcome.Failure? && |run.waits| == run.calls
  {
  }

  /** With the default two retries, a chunk whose attempts all fail costs
      three calls, with sleeps of 250 and 500 ms between them, and the third
      error is thrown. */
  lemma DefaultEmbedRetriesSchedule<V, E>(call: nat -> Result<V, E>)
    requires forall a: nat :: a <= 2 ==> call(a).Failure?
    ensures var run := EmbedWithRetries(DefaultEmbedRetries, call);
      && run.calls == 3
      && run.waits == [250, 500]
      && run.outcome == Failure(Raised(call(2).error))
  {
    EmbedWithRetriesSpec(DefaultEmbedRetries, call);
  }

  // -------------------------------------------------------------- articles

  /** The embedder as the ingest loop sees it: `embed(url, i, a)` is its
      answer to attempt `a` for chunk `i` of the article at `url`. */
  type Embedder<E> = (string, nat, nat) -> Result<seq<real>, E>

  /** The retry loop around chunk `i` of the article at `url`. */
  function EmbedChunk<E>(retries: real, embed: Embedder<E>, url: string, i: nat): RetryRun<seq<real>, E> {
    EmbedWithRetries(retries, a => embed(url, i, a))
  }

  /** What the retry loop returns for each chunk of the article at `url`. */
  function ChunkOutcomes<E>(retries: real, embed: Embedder<E>, url: string): nat -> Result<seq<real>, Thrown<E>> {
    (j: nat) => EmbedChunk(retries, embed, url, j).outcome
  }

  /** Where the loop over chunks `i..n` stops: the first chunk whose
      embedding fails, or `n`. */
  function EmbeddedPrefix<V, E>(outcome: nat -> Result<V, E>, n: nat, i: nat): (k: nat)
    requires i <= n
    ensures i <= k <= n
    ensures forall j :: i <= j < k ==> outcome(j).Success?
    ensures k < n ==> outcome(k).Failure?
    decreases n - i
  {
    if i == n then n
    else if outcome(i).Failure? then i
    else EmbeddedPrefix(outcome, n, i + 1)
  }

  /** The stopping point is the only one with every chunk before it embedded
      and the chunk at it failed (or the end). */
  lemma {:induction false} EmbeddedPrefixUnique<V, E>(outcome: nat -> Result<V, E>, n: nat, i: nat, m: nat)
    requires i <= m <= n
    requires forall j :: i <= j < m ==> outcome(j).Success?
    requires m < n ==> outcome(m).Failure?
    ensures EmbeddedPrefix(outcome, n, i) == m
    decreases n - i
  {
    if i < m {
      EmbeddedPrefixUnique(outcome, n, i + 1, m);
    }
  }

  /** The item chunk `j` becomes once embedded. */
  function ChunkItem<E>(url: string, title: string, chunks: seq<string>, outcome: nat -> Result<seq<real>, E>, j: nat): (item: Retrieve.VectorItem)
    requires j < |chunks| && outcome(j).Success?
    ensures item.id == ChunkId(url, j) && item.url == url && item.title == title && item.chunk == chunks[j]
    ensures item.embedding == outcome(j).value
  {
    Retrieve.VectorItem(ChunkId(url, j), url, title, chunks[j], outcome(j).value)
  }

  /** The items of one parsed article: chunk by chunk, up to the first chunk
      whose embedding fails. */
  function ChunkItems<E>(url: string, title: string, chunks: seq<string>, outcome: nat -> Result<seq<real>, E>): (items: seq<Retrieve.VectorItem>)
    ensures |items| <= |chunks|
    ensures forall j :: 0 <= j < |items| ==> outcome(j).Success?
    ensures |items| < |chunks| ==> outcome(|items|).Failure?
    ensures forall j :: 0 <= j < |items| ==> items[j] == ChunkItem(url, title, chunks, outcome, j)
  {
    var k := EmbeddedPrefix(outcome, |chunks|, 0);
    seq(k, j requires 0 <= j < k => ChunkItem(url, title, chunks, outcome, j))
  }

  /** The loop of `runIngest` over one article's chunks: embed, then push,
      until an embedding throws. `outcome(j)` is what the retry loop around
      chunk `j` settles on. */
  method AssembleItems<E>(url: string, title: string, chunks: seq<string>, outcome: nat -> Result<seq<real>, E>)
    returns (items: seq<Retrieve.VectorItem>, failed: bool)
    ensures items == ChunkItems(url, title, chunks, outcome)
    ensures failed <==> |items| < |chunks|
  {
    items := [];
    failed := false;
    var i := 0;
    while i < |chunks| && !failed
      invariant 0 <= i <= |chunks| && |items| == i
      invariant forall j :: 0 <= j < i ==> outcome(j).Success?
      invariant forall j :: 0 <= j < i ==> items[j] == ChunkItem(url, title, chunks, outcome, j)
      invariant failed ==> i < |chunks| && outcome(i).Failure?
      decreases |chunks| - i, if failed then 0 else 1
    {
      if outcome(i).Failure? {
        failed := true;
      } else {
        items := items + [ChunkItem(url, title, chunks, outcome, i)];
        i := i + 1;
      }
    }
    EmbeddedPrefixUnique(outcome, |chunks|, 0, i);
  }

  /** The title and the chunks of a fetched page, or nothing when the fetch
      failed or the page yields no article. */
  function ArticleChunks<F>(fetched: Result<Article.Page, F>, cfg: Chunk.Config): Option<(string, seq<string>)>
    requires Chunk.ValidConfig(cfg)
  {
    if fetched.Failure? then None
    else
      match Article.ParseArticleHtml(fetched.value)
      case None => None
      case Some(parsed) => Some((parsed.title, Chunk.ChunkText(parsed.bodyText, cfg)))
  }

  /** What one article contributes to the vectors file: nothing when the
      fetch fails or the page yields no article; otherwise the items of its
      chunks. */
  function ArticleItems<F, E>(url: string, fetched: Result<Article.Page, F>, cfg: Chunk.Config, retries: real,
                              embed: Embedder<E>): (items: seq<Retrieve.VectorItem>)
    requires Chunk.ValidConfig(cfg)
    ensures fetched.Failure? ==> items == []
    ensures fetched.Success? && Article.ParseArticleHtml(fetched.value).None? ==> items == []
    ensures forall j :: 0 <= j < |items| ==> items[j].url == url && items[j].id == ChunkId(url, j)
  {
    match ArticleChunks(fetched, cfg)
    case None => []
    case Some((title, chunks)) => ChunkItems(url, title, chunks, ChunkOutcomes(retries, embed, url))
  }

  /** For a parsed article, item `j` is chunk `j` with its id, the URL, the
      article title and the embedding the retry loop returned; every chunk
      before the cut embedded successfully and the chunk at the cut did
      not, so its items are kept and none come after it. */
  lemma ArticleItemsParsed<F, E>(url: string, fetched: Result<Article.Page, F>, cfg: Chunk.Config, retries: real,
                                 embed: Embedder<E>)
    requires Chunk.ValidConfig(cfg)
    requires fetched.Success? && Article.ParseArticleHtml(fetched.value).Some?
    ensures var parsed := Article.ParseArticleHtml(fetched.value).value;
      var chunks := Chunk.ChunkText(parsed.bodyText, cfg);
      var items := ArticleItems(url, fetched, cfg, retries, embed);
      && |items| <= |chunks|
      && (forall j :: 0 <= j < |items| ==>
            && items[j] == Retrieve.VectorItem(ChunkId(url, j), url, parsed.title, chunks[j], items[j].embedding)
            && EmbedChunk(retries, embed, url, j).outcome == Success(items[j].embedding))
      && (|items| < |chunks| ==> EmbedChunk(retries, embed, url, |items|).outcome.Failure?)
  {
    var parsed := Article.ParseArticleHtml(fetched.value).value;
    var chunks := Chunk.ChunkText(parsed.bodyText, cfg);
    assert ArticleChunks(fetched, cfg) == Some((parsed.title, chunks));
    EmbeddedItems(url, parsed.title, chunks, retries, embed);
  }

  /** The chunk items in terms of the retry loop around each chunk. */
  lemma EmbeddedItems<E>(url: string, title: string, chunks: seq<string>, retries: real, embed: Embedder<E>)
    ensures var items := ChunkItems(url, title, chunks, ChunkOutcomes(retries, embed, url));
      && |items| <= |chunks|
      && (forall j :: 0 <= j < |items| ==>
            && items[j] == Retrieve.VectorItem(ChunkId(url, j), url, title, chunks[j], items[j].embedding)
            && EmbedChunk(retries, embed, url, j).outcome == Success(items[j].embedding))
      && (|items| < |chunks| ==> EmbedChunk(retries, embed, url, |items|).outcome.Failure?)
  {
    var outcome := ChunkOutcomes(retries, embed, url);
    var items := ChunkItems(url, title, chunks, outcome);
    forall j | 0 <= j < |items|
      ensures items[j] == Retrieve.VectorItem(ChunkId(url, j), url, title, chunks[j], items[j].embedding)
      ensures EmbedChunk(retries, embed, url, j).outcome == Success(items[j].embedding)
    {
      assert outcome(j) == EmbedChunk(retries, embed, url, j).outcome;
    }
    if |items| < |chunks| {
      assert outcome(|items|) == EmbedChunk(retries, embed, url, |items|).outcome;
    }
  }

  /** When every embedding succeeds, every chunk becomes an item. */
  lemma ChunkItemsComplete<E>(url: string, title: string, chunks: seq<string>, outcome: nat -> Result<seq<real>, E>)
    requires forall j :: 0 <= j < |chunks| ==> outcome(j).Success?
    ensures |ChunkItems(url, title, chunks, outcome)| == |chunks|
  {
    EmbeddedPrefixUnique(outcome, |chunks|, 0, |chunks|);
  }

  /** The item's id is the id of some chunk of its own URL. */
  ghost predicate HasChunkId(item: Retrieve.VectorItem) {
    exists j: nat :: item.id == ChunkId(item.url, j)
  }

  /** Every item of `itemsOf(u)` names `u` and carries the id of its
      position: what `ArticleItems` guarantees. */
  ghost predicate ItemsNamed(urls: seq<string>, itemsOf: string -> seq<Retrieve.VectorItem>) {
    forall u, j :: u in urls && 0 <= j < |itemsOf(u)| ==> itemsOf(u)[j].url == u && itemsOf(u)[j].id == ChunkId(u, j)
  }

  /** The articles' items one article after another. */
  function Concat(urls: seq<string>, itemsOf: string -> seq<Retrieve.VectorItem>): seq<Retrieve.VectorItem> {
    if |urls| == 0 then [] else itemsOf(urls[0]) + Concat(urls[1..], itemsOf)
  }

  /** The sequential run. The source processes articles concurrently, so
      only the order within one article is meaningful. */
  function IngestItems<F, E>(urls: seq<string>, fetch: string -> Result<Article.Page, F>, cfg: Chunk.Config, retries: real,
                             embed: Embedder<E>): (items: seq<Retrieve.VectorItem>)
    requires Chunk.ValidConfig(cfg)
    ensures forall k :: 0 <= k < |items| ==> items[k].url in urls && HasChunkId(items[k])
  {
    var itemsOf := url => ArticleItems(url, fetch(url), cfg, retries, embed);
    assert ItemsNamed(urls, itemsOf);
    ConcatNamed(urls, itemsOf);
    Concat(urls, itemsOf)
  }

  /** Every concatenated item names one of the URLs and carries a chunk id
      of it. */
  lemma {:induction false} ConcatNamed(urls: seq<string>, itemsOf: string -> seq<Retrieve.VectorItem>)
    requires ItemsNamed(urls, itemsOf)
    ensures forall k :: 0 <= k < |Concat(urls, itemsOf)| ==> Concat(urls, itemsOf)[k].url in urls && HasChunkId(Concat(urls, itemsOf)[k])
  {
    if |urls| > 0 {
      var here: seq<Retrieve.VectorItem>, rest: seq<Retrieve.VectorItem> := itemsOf(urls[0]), Concat(urls[1..], itemsOf);
      assert ItemsNamed(urls[1..], itemsOf);
      ConcatNamed(urls[1..], itemsOf);
      forall k | 0 <= k < |here + rest| ensures (here + rest)[k].url in urls && HasChunkId((here + rest)[k]) {
        if k < |here| {
          assert (here + rest)[k] == here[k];
          assert here[k].url == urls[0] && here[k].id == ChunkId(urls[0], k);
          Witnessed(here[k], k);
        } else {
          var r := rest[k - |here|];
          assert (here + rest)[k] == r;
          var m :| 0 <= m < |urls[1..]| && urls[1..][m] == r.url;
          assert urls[m + 1] == r.url;
        }
      }
    }
  }

  lemma Witnessed(item: Retrieve.VectorItem, j: nat)
    requires item.id == ChunkId(item.url, j)
    ensures HasChunkId(item)
  {
  }

  /** No two items share an id. */
  predicate IdsDistinct(items: seq<Retrieve.VectorItem>) {
    forall k, l :: 0 <= k < l < |items| ==> items[k].id != items[l].id
  }

  /** With distinct article URLs, as discovery returns them, every stored
      item has its own id. */
  lemma IngestIdsDistinct<F, E>(urls: seq<string>, fetch: string -> Result<Article.Page, F>, cfg: Chunk.Config,
                                retries: real, embed: Embedder<E>)
    requires Chunk.ValidConfig(cfg)
    requires forall i, j :: 0 <= i < j < |urls| ==> urls[i] != urls[j]
    ensures IdsDistinct(IngestItems(urls, fetch, cfg, retries, embed))
  {
    var itemsOf := url => ArticleItems(url, fetch(url), cfg, retries, embed);
    assert ItemsNamed(urls, itemsOf);
    ConcatIdsDistinct(urls, itemsOf);
  }

  lemma {:induction false} ConcatIdsDistinct(urls: seq<string>, itemsOf: string -> seq<Retrieve.VectorItem>)
    requires ItemsNamed(urls, itemsOf)
    requires forall i, j :: 0 <= i < j < |urls| ==> urls[i] != urls[j]
    ensures IdsDistinct(Concat(urls, itemsOf))
  {
    if |urls| > 0 {
      var url := urls[0];
      var here: seq<Retrieve.VectorItem>, rest: seq<Retrieve.VectorItem> := itemsOf(url), Concat(urls[1..], itemsOf);
      assert ItemsNamed(urls[1..], itemsOf);
      ConcatIdsDistinct(urls[1..], itemsOf);
      ConcatNamed(urls[1..], itemsOf);
      forall k | 0 <= k < |rest| ensures rest[k].url != url {
        var m :| 0 <= m < |urls[1..]| && urls[1..][m] == rest[k].url;
        assert urls[m + 1] == rest[k].url;
      }
      IdsDistinctAppend(here, rest, url);
    }
  }

  /** One article's items followed by other articles' items keep their ids
      apart. */
  lemma IdsDistinctAppend(here: seq<Retrieve.VectorItem>, rest: seq<Retrieve.VectorItem>, url: string)
    requires forall j :: 0 <= j < |here| ==> here[j].id == ChunkId(url, j)
    requires forall k :: 0 <= k < |rest| ==> rest[k].url != url && HasChunkId(rest[k])
    requires IdsDistinct(rest)
    ensures IdsDistinct(here + rest)
  {
    var items := here + rest;
    forall k, l | 0 <= k < l < |items| ensures items[k].id != items[l].id {
      if l < |here| {
        if ChunkId(url, k) == ChunkId(url, l) { ChunkIdInjective(url, k, url, l); }
      } else if k < |here| {
        var r := rest[l - |here|];
        if items[k].id == r.id { ItemIdUrl(url, k, r); }
      } else {
        assert items[k] == rest[k - |here|] && items[l] == rest[l - |here|];
      }
    }
  }

  lemma ItemIdUrl(url: string, k: nat, r: Retrieve.VectorItem)
    requires HasChunkId(r)
    requires ChunkId(url, k) == r.id
    ensures url == r.url
  {
    var j: nat :| r.id == ChunkId(r.url, j);
    ChunkIdInjective(url, k, r.url, j);
  }
}

=== FILE: llm.dfy ===
/** The chat-model client (`src/rag/llm.ts`): its request timeout, the
    model lists offered to the user interface, the choice of the model a
    question is sent to, and the single Gemini `generateContent` exchange
    with the extraction of the reply text. The server is an oracle from the
    request to what came back. */
module Llm {
  import opened Wrappers
  import opened Env
  import opened Text
  import opened Dedup

  /** The timeout used when `LLM_HTTP_TIMEOUT_MS` is unset or not finite. */
  const DefaultLlmTimeoutMs: nat := 20000

  /** The only provider this client speaks to, and the default. */
  const DefaultProvider := "gemini"

  /** The providers offered to the user interface. */
  const UiProviders: seq<string> := [DefaultProvider]

  /** The model list offered when no variable names one. */
  const DefaultUiModels := "gemini-2.5-flash,gemini-2.5-pro"

  /** The model a question goes to when neither the request nor
      `GEMINI_CHAT_MODEL` names one. */
  const DefaultChatModel := "gemini-2.5-flash"

  /** The answer when the reply carries no text. */
  const FallbackReply := "No encontré información " + "suficiente en la base de conocimiento."

  /** The variables the client reads. */
  datatype LlmEnv = LlmEnv(timeout: EnvNum, uiModels: Option<string>, geminiModels: Option<string>,
                           geminiModel: Option<string>, apiKey: Option<string>)

  /** `getLlmTimeoutMs`: `Number(LLM_HTTP_TIMEOUT_MS ?? "20000")`, the
      default when that is not finite, else truncated and at least one
      second. */
  function LlmTimeoutMs(v: EnvNum): (ms: int)
    ensures ms >= 1000
    ensures v.Unset? || (v.Parsed? && v.number.NonFinite?) ==> ms == DefaultLlmTimeoutMs
    ensures v.Empty? ==> ms == 1000
    ensures v.Parsed? && v.number.Finite? && v.number.value >= 1000.0 ==>
              ms as real <= v.number.value < ms as real + 1.0
    ensures v.Parsed? && v.number.Finite? && v.number.value < 1000.0 ==> ms == 1000
  {
    TimeoutMs(v, DefaultLlmTimeoutMs)
  }

  // ------------------------------------------------------------ model lists

  /** The pieces of `xs` that are not empty, in order. */
  function NonEmpty(xs: seq<string>): (ps: seq<string>)
    ensures forall p :: p in ps <==> p in xs && |p| > 0
  {
    if |xs| == 0 then []
    else
      var rest := NonEmpty(xs[1..]);
      assert forall p :: p in xs <==> p == xs[0] || p in xs[1..];
      (if |xs[0]| > 0 then [xs[0]] else []) + rest
  }

  /** Each piece of `xs`, trimmed. */
  function TrimEach(xs: seq<string>): (ts: seq<string>)
    ensures |ts| == |xs|
    ensures forall i :: 0 <= i < |xs| ==> ts[i] == Trim(xs[i])
  {
    seq(|xs|, i requires 0 <= i < |xs| => Trim(xs[i]))
  }

  /** Trimming a piece without `c` leaves a piece without `c`. */
  lemma TrimKeepsOut(s: string, c: char)
    requires c !in s
    ensures c !in Trim(s)
  {
    var r := Trim(s);
    forall i | 0 <= i < |r| ensures r[i] != c {
      assert r[i] == s[SpaceRun(s) + i];
    }
  }

  /** The list entries of `raw`: its comma-separated pieces, trimmed, the
      empty ones dropped. */
  function Pieces(raw: string): (ps: seq<string>)
    ensures forall p :: p in ps <==> p in TrimEach(Split(raw, ',')) && |p| > 0
  {
    NonEmpty(TrimEach(Split(raw, ',')))
  }

  /** Every entry is non-empty, trimmed and free of commas. */
  lemma PiecesShape(raw: string)
    ensures forall p :: p in Pieces(raw) ==> |p| > 0 && Trimmed(p) && ',' !in p
  {
    var parts := Split(raw, ',');
    var ts := TrimEach(parts);
    forall p | p in Pieces(raw) ensures |p| > 0 && Trimmed(p) && ',' !in p {
      var i :| 0 <= i < |ts| && ts[i] == p;
      TrimKeepsOut(parts[i], ',');
    }
  }

  function Same(s: string): string { s }

  /** `splitUniqueCsv`: the entries of `raw` with repeats removed, each kept
      where it first occurs. */
  function SplitUniqueCsv(raw: string): (models: seq<string>)
    ensures models == FirstOccurrences(Pieces(raw), Same)
  {
    DedupBy(Pieces(raw), Same)
  }

  /** The offered models are non-empty, trimmed, comma-free and pairwise
      distinct, and they are exactly the entries of the list. */
  lemma SplitUniqueCsvSpec(raw: string)
    ensures var models := SplitUniqueCsv(raw);
      && (forall i :: 0 <= i < |models| ==> |models[i]| > 0 && Trimmed(models[i]) && ',' !in models[i])
      && (forall i, j :: 0 <= i < j < |models| ==> models[i] != models[j])
      && (forall p :: p in models <==> p in Pieces(raw))
  {
    UniqueEntries(raw);
    UniqueDistinct(raw);
    UniqueCovers(raw);
  }

  lemma UniqueEntries(raw: string)
    ensures forall m :: m in SplitUniqueCsv(raw) ==> |m| > 0 && Trimmed(m) && ',' !in m && m in Pieces(raw)
  {
    FirstOccurrencesSpec(Pieces(raw), Same);
    PiecesShape(raw);
  }

  lemma UniqueDistinct(raw: string)
    ensures var models := SplitUniqueCsv(raw);
      forall i, j :: 0 <= i < j < |models| ==> models[i] != models[j]
  {
    var models := SplitUniqueCsv(raw);
    FirstOccurrencesSpec(Pieces(raw), Same);
    forall i, j | 0 <= i < j < |models| ensures models[i] != models[j] {
      assert Same(models[i]) != Same(models[j]);
    }
  }

  lemma UniqueCovers(raw: string)
    ensures forall p :: p in Pieces(raw) ==> p in SplitUniqueCsv(raw)
  {
    KeepsEvery(Pieces(raw));
  }

  /** De-duplication drops repeats only: every entry survives. */
  lemma KeepsEvery(ps: seq<string>)
    ensures forall p :: p in ps ==> p in FirstOccurrences(ps, Same)
  {
    var models := FirstOccurrences(ps, Same);
    FirstOccurrencesSpec(ps, Same);
    forall p | p in ps ensures p in models {
      var i :| 0 <= i < |ps| && ps[i] == p;
      assert Same(ps[i]) in KeysOf(ps, Same);
      var j :| 0 <= j < |models| && Same(models[j]) == p;
    }
  }

  /** Every non-blank piece of the list, trimmed, is offered. */
  lemma SplitUniqueCsvCovers(raw: string, i: nat)
    requires i < |Split(raw, ',')| && |Trim(Split(raw, ',')[i])| > 0
    ensures Trim(Split(raw, ',')[i]) in SplitUniqueCsv(raw)
  {
    assert TrimEach(Split(raw, ','))[i] == Trim(Split(raw, ',')[i]);
    SplitUniqueCsvSpec(raw);
  }

  /** The text the model list is read from: the first of
      `UI_CHAT_MODELS_GEMINI`, `GEMINI_CHAT_MODELS` and `GEMINI_CHAT_MODEL`
      that is set (an empty value counts as set), else the default list. */
  function UiModelsSource(env: LlmEnv): (raw: string)
    ensures env.uiModels.Some? ==> raw == env.uiModels.value
    ensures env.uiModels.None? && env.geminiModels.Some? ==> raw == env.geminiModels.value
    ensures env.uiModels.None? && env.geminiModels.None? && env.geminiModel.Some? ==> raw == env.geminiModel.value
    ensures env.uiModels.None? && env.geminiModels.None? && env.geminiModel.None? ==> raw == DefaultUiModels
  {
    match env.uiModels
    case Some(v) => v
    case None =>
      match env.geminiModels
      case Some(v) => v
      case None => env.geminiModel.GetOr(DefaultUiModels)
  }

  /** `getUiChatModels`. */
  function UiChatModels(env: LlmEnv): (models: seq<string>)
    ensures models == SplitUniqueCsv(UiModelsSource(env))
    ensures forall i, j :: 0 <= i < j < |models| ==> models[i] != models[j]
    ensures forall m :: m in models ==> |m| > 0 && Trimmed(m)
  {
    SplitUniqueCsvSpec(UiModelsSource(env));
    SplitUniqueCsv(UiModelsSource(env))
  }

  /** A set but empty `UI_CHAT_MODELS_GEMINI` hides the later variables
      and offers no model at all. */
  lemma UiChatModelsEmptyKept(env: LlmEnv)
    requires env.uiModels == Some("")
    ensures UiChatModels(env) == []
  {
    var parts := Split("", ',');
    assert parts == [""] by {
      assert ',' !in "";
    }
    assert Pieces("") == [];
  }

  // ------------------------------------------------------------ model choice

  /** The model `askLlm` sends a question to: the trimmed requested model if
      not blank, else `GEMINI_CHAT_MODEL` if set and not empty (untrimmed),
      else the default. */
  function ChatModel(requested: Option<string>, geminiModel: Option<string>): (m: string)
    ensures |m| > 0
    ensures requested.Some? && |Trim(requested.value)| > 0 ==> m == Trim(requested.value)
    ensures (requested.None? || |Trim(requested.value)| == 0) && geminiModel.Some? && |geminiModel.value| > 0 ==>
              m == geminiModel.value
    ensures (requested.None? || |Trim(requested.value)| == 0) && (geminiModel.None? || geminiModel.value == "") ==>
              m == DefaultChatModel
  {
    if requested.Some? && |Trim(requested.value)| > 0 then Trim(requested.value)
    else if geminiModel.Some? && |geminiModel.value| > 0 then geminiModel.value
    else DefaultChatModel
  }

  /** A model from the offered list reaches the request unchanged. */
  lemma ChatModelKeepsOffered(env: LlmEnv, m: string)
    requires m in UiChatModels(env)
    ensures ChatModel(Some(m), env.geminiModel) == m
  {
    TrimTrimmed(m);
  }

  // ------------------------------------------------------------ the exchange

  /** The `generateContent` call: model, key, prompt and the timer. */
  datatype GeminiChatRequest = GeminiChatRequest(model: string, key: string, prompt: string, timeoutMs: int)

  /** A `text` field of a reply part: a string, or any other JSON value. */
  datatype PartText = Str(text: string) | NotStr

  /** `data?.candidates?.[0]?.content?.parts`: an array of parts, or
      anything else (missing included). */
  datatype Parts = PartList(parts: seq<PartText>) | NotArray

  /** The body of a successful reply: not JSON (`JSON.parse` throws with
      the given message), or the parts it carries. */
  datatype ChatPayload = NotJson(message: string) | Json(parts: Parts)

  /** What the exchange gave: the timer fired, `fetch` threw, or a response
      arrived. */
  datatype ChatReply = TimedOut | Unreachable(message: string)
                     | Answered(status: nat, statusText: string, raw: string, payload: ChatPayload)

  /** Every error the client throws. */
  datatype LlmError =
    | NoKey
    | Timeout(ms: int)
    | Transport(message: string)
    | Status(model: string, status: nat, statusText: string, raw: string)
    | BadJson(message: string)

  /** The `message` of each error. */
  function LlmErrorMessage(e: LlmError): string {
    match e
    case NoKey => "Gemini chat error" + ": missing GEMINI_API_KEY"
    case Timeout(ms) => "LLM request timeout" + (" after " + Decimal(if ms < 0 then 0 else ms) + "ms")
    case Transport(m) => m
    case Status(model, status, text, raw) =>
      "Gemini chat error" + (" (" + model + "): " + Decimal(status) + " " + text + ". " + raw)
    case BadJson(m) => m
  }

  /** The part texts, a non-string becoming the empty text. */
  function PartTexts(parts: seq<PartText>): (ts: seq<string>)
    ensures |ts| == |parts|
    ensures forall i :: 0 <= i < |parts| ==> ts[i] == (if parts[i].Str? then parts[i].text else "")
  {
    seq(|parts|, i requires 0 <= i < |parts| => if parts[i].Str? then parts[i].text else "")
  }

  /** The answer read off the reply: the part texts joined by line breaks
      and trimmed, or the fallback sentence when that is empty or there is
      no array of parts. */
  function ReplyText(parts: Parts): (answer: string)
    ensures |answer| > 0 && Trimmed(answer)
    ensures parts.NotArray? ==> answer == FallbackReply
    ensures parts.PartList? && AllSpace(Join(PartTexts(parts.parts), "\n")) ==> answer == FallbackReply
  {
    FallbackTrimmed();
    var out := if parts.PartList? then Trim(Join(PartTexts(parts.parts), "\n")) else "";
    if out == "" then FallbackReply else out
  }

  lemma FallbackTrimmed()
    ensures |FallbackReply| > 0 && Trimmed(FallbackReply)
  {
    assert FallbackReply[0] == 'N';
    assert FallbackReply[|FallbackReply| - 1] == '.';
  }

  /** Every string part with visible text reaches the answer: its trimmed
      text occurs in it. */
  lemma ReplyTextKeepsParts(parts: seq<PartText>, i: nat)
    requires i < |parts| && parts[i].Str? && |Trim(parts[i].text)| > 0
    ensures Contains(ReplyText(PartList(parts)), Trim(parts[i].text))
  {
    var ts := PartTexts(parts);
    var joined := Join(ts, "\n");
    JoinContainsParts(ts, "\n");
    assert Contains(joined, ts[i]);
    ContainsTrimmed(joined, ts[i]);
  }

  /** The trimmed text of a visible occurrence survives trimming the text
      around it. */
  lemma ContainsTrimmed(s: string, t: string)
    requires Contains(s, t) && |Trim(t)| > 0
    ensures Contains(Trim(s), Trim(t))
  {
    var i :| 0 <= i <= |s| - |t| && OccursAt(s, t, i);
    OccurrenceTrimmed(s, t, i);
  }

  lemma OccurrenceTrimmed(s: string, t: string, i: nat)
    requires OccursAt(s, t, i) && |Trim(t)| > 0
    ensures Contains(Trim(s), Trim(t))
  {
    TrimVisibleEnds(t);
    TrimBlankEnds(s);
    WindowSurvives(s, t, i, Trim(t), SpaceRun(t), Trim(s), SpaceRun(s), IsSpace);
  }

  /** A trim that is not empty is a slice with visible ends. */
  lemma TrimVisibleEnds(t: string)
    requires |Trim(t)| > 0
    ensures var u, c := Trim(t), SpaceRun(t);
      c + |u| <= |t| && u == t[c..c + |u|] && !IsSpace(u[0]) && !IsSpace(u[|u| - 1])
  {
    var u := Trim(t);
    assert Trimmed(u);
  }

  /** What trimming drops is blank. */
  lemma TrimBlankEnds(s: string)
    ensures var r, a := Trim(s), SpaceRun(s);
      && a + |r| <= |s| && r == s[a..a + |r|]
      && (forall j :: 0 <= j < a ==> IsSpace(s[j]))
      && (forall j :: a + |r| <= j < |s| ==> IsSpace(s[j]))
  {
  }

  /** The same with the blank characters and both trims as parameters: the
      visible window `u` of an occurrence of `t` lies inside the slice `r`
      of `s` that drops blank ends. */
  lemma WindowSurvives(s: string, t: string, i: nat, u: string, c: nat, r: string, a: nat, blank: char -> bool)
    requires OccursAt(s, t, i)
    requires 0 < |u| && c + |u| <= |t| && u == t[c..c + |u|] && !blank(u[0]) && !blank(u[|u| - 1])
    requires a + |r| <= |s| && r == s[a..a + |r|]
    requires forall j :: 0 <= j < a ==> blank(s[j])
    requires forall j :: a + |r| <= j < |s| ==> blank(s[j])
    ensures Contains(r, u)
  {
    var k := i + c;
    SubSlice(s, i, i + |t|, k, k + |u|);
    assert s[k..k + |u|] == u;
    assert u[0] == s[k] && u[|u| - 1] == s[k + |u| - 1];
    SubSlice(s, a, a + |r|, k, k + |u|);
    assert OccursAt(r, u, k - a);
  }

  /** A slice of a slice is a slice. */
  lemma SubSlice(x: string, a: nat, c: nat, b: nat, e: nat)
    requires a <= b <= e <= c <= |x|
    ensures x[a..c][b - a..e - a] == x[b..e]
  {
    var y := x[a..c];
    forall j | 0 <= j < e - b ensures y[b - a..e - a][j] == x[b..e][j] {
      assert y[b - a + j] == x[b + j];
    }
  }

  /** `askLlmGemini`: a blank key fails before any request; otherwise one
      request, whose failure, error status or non-JSON body is thrown and
      whose parts give the answer. */
  datatype LlmRun = LlmRun(outcome: Result<string, LlmError>, request: Option<GeminiChatRequest>)

  function AskLlmGemini(env: LlmEnv, prompt: string, model: string, send: GeminiChatRequest -> ChatReply): (run: LlmRun)
    ensures |Trim(env.apiKey.GetOr(""))| == 0 <==> run.request.None?
    ensures run.request.None? ==> run.outcome == Failure(NoKey)
    ensures run.request.Some? ==>
              && run.request.value.model == model && run.request.value.prompt == prompt
              && run.request.value.key == Trim(env.apiKey.value) && |run.request.value.key| > 0
              && run.request.value.timeoutMs == LlmTimeoutMs(env.timeout)
    ensures run.request.Some? ==> run.outcome == Answer(model, run.request.value.timeoutMs, send(run.request.value))
    ensures run.outcome.Success? ==> |run.outcome.value| > 0 && Trimmed(run.outcome.value)
  {
    var key := Trim(env.apiKey.GetOr(""));
    if key == "" then LlmRun(Failure(NoKey), None)
    else
      var request := GeminiChatRequest(model, key, prompt, LlmTimeoutMs(env.timeout));
      LlmRun(Answer(model, request.timeoutMs, send(request)), Some(request))
  }

  /** The outcome of the exchange once a reply is in. */
  function Answer(model: string, timeoutMs: int, reply: ChatReply): (r: Result<string, LlmError>)
    ensures reply.TimedOut? ==> r == Failure(Timeout(timeoutMs))
    ensures reply.Unreachable? ==> r == Failure(Transport(reply.message))
    ensures reply.Answered? && !(200 <= reply.status <= 299) ==>
              r == Failure(Status(model, reply.status, reply.statusText, reply.raw))
    ensures r.Success? <==> reply.Answered? && 200 <= reply.status <= 299 && reply.payload.Json?
    ensures r.Success? ==> r.value == ReplyText(reply.payload.parts)
  {
    match reply
    case TimedOut => Failure(Timeout(timeoutMs))
    case Unreachable(m) => Failure(Transport(m))
    case Answered(status, text, raw, payload) =>
      if !(200 <= status <= 299) then Failure(Status(model, status, text, raw))
      else
        match payload
        case NotJson(m) => Failure(BadJson(m))
        case Json(parts) => Success(ReplyText(parts))
  }

  /** `askLlm`: the chosen model, then the exchange. */
  function AskLlm(env: LlmEnv, prompt: string, requested: Option<string>, send: GeminiChatRequest -> ChatReply): (run: LlmRun)
    ensures run.request.Some? ==> run.request.value.model == ChatModel(requested, env.geminiModel)
    ensures run.request.None? <==> run.outcome == Failure(NoKey)
  {
    AskLlmGemini(env, prompt, ChatModel(requested, env.geminiModel), send)
  }

  /** Without a key nothing is sent, whatever the model and the server. */
  lemma NoKeyNoRequest(env: LlmEnv, prompt: string, requested: Option<string>,
                       send: GeminiChatRequest -> ChatReply, other: GeminiChatRequest -> ChatReply)
    requires env.apiKey.None? || AllSpace(env.apiKey.value)
    ensures AskLlm(env, prompt, requested, send) == AskLlm(env, prompt, requested, other) == LlmRun(Failure(NoKey), None)
  {
  }
}

=== FILE: order.dfy ===
/** The order `Array.prototype.sort` uses when no comparator is given:
    strings compared code unit by code unit, a proper prefix first. */
module Order {

  /** `a < b` on strings. */
  predicate Less(a: string, b: string)
    decreases |a|
  {
    |b| > 0 && (|a| == 0 || a[0] < b[0] || (a[0] == b[0] && Less(a[1..], b[1..])))
  }

  lemma {:induction false} LessIrreflexive(a: string)
    ensures !Less(a, a)
    decreases |a|
  {
    if |a| > 0 {
      LessIrreflexive(a[1..]);
    }
  }

  lemma {:induction false} LessTransitive(a: string, b: string, c: string)
    requires Less(a, b) && Less(b, c)
    ensures Less(a, c)
    decreases |a|
  {
    if |a| > 0 && a[0] == b[0] && b[0] == c[0] {
      LessTransitive(a[1..], b[1..], c[1..]);
    }
  }

  /** Any two different strings are ordered one way or the other. */
  lemma {:induction false} LessTotal(a: string, b: string)
    requires a != b
    ensures Less(a, b) || Less(b, a)
    decreases |a|
  {
    if |a| > 0 && |b| > 0 && a[0] == b[0] {
      assert a == [a[0]] + a[1..] && b == [b[0]] + b[1..];
      LessTotal(a[1..], b[1..]);
    }
  }

  lemma LessAsymmetric(a: string, b: string)
    requires Less(a, b)
    ensures !Less(b, a)
  {
    if Less(b, a) {
      LessTransitive(a, b, a);
      LessIrreflexive(a);
    }
  }

  /** Strictly ascending, hence free of duplicates. */
  predicate Ascending(s: seq<string>) {
    forall i, j :: 0 <= i < j < |s| ==> Less(s[i], s[j])
  }

  predicate Distinct(s: seq<string>) {
    forall i, j :: 0 <= i < j < |s| ==> s[i] != s[j]
  }

  /** Insert `x` before the first element it is less than. */
  function Insert(x: string, s: seq<string>): (r: seq<string>)
    ensures |r| == |s| + 1
    ensures multiset(r) == multiset(s) + multiset{x}
  {
    if |s| == 0 then [x]
    else if Less(s[0], x) then
      assert s == [s[0]] + s[1..];
      [s[0]] + Insert(x, s[1..])
    else [x] + s
  }

  /** The sort, as an insertion sort. */
  function Sort(xs: seq<string>): (r: seq<string>)
    ensures multiset(r) == multiset(xs)
    decreases |xs|
  {
    if |xs| == 0 then []
    else
      assert xs == xs[..|xs| - 1] + [xs[|xs| - 1]];
      Insert(xs[|xs| - 1], Sort(xs[..|xs| - 1]))
  }

  lemma {:induction false} InsertAscending(x: string, s: seq<string>)
    requires Ascending(s) && x !in s
    ensures Ascending(Insert(x, s))
    decreases |s|
  {
    if |s| > 0 {
      if Less(s[0], x) {
        assert x !in s[1..];
        AscendingTail(s);
        InsertAscending(x, s[1..]);
        var r := Insert(x, s);
        var tail := Insert(x, s[1..]);
        assert r == [s[0]] + tail;
        forall j | 0 < j < |r| ensures Less(r[0], r[j]) {
          assert r[j] == tail[j - 1];
          assert tail[j - 1] in multiset(s[1..]) + multiset{x};
          if tail[j - 1] != x {
            assert tail[j - 1] in s[1..];
            var k :| 0 <= k < |s[1..]| && s[1..][k] == tail[j - 1];
            assert s[k + 1] == tail[j - 1];
          }
        }
      } else {
        assert x != s[0];
        LessTotal(x, s[0]);
        forall j | 0 < j < |s| ensures Less(x, s[j]) {
          LessTransitive(x, s[0], s[j]);
        }
      }
    }
  }

  lemma AscendingTail(s: seq<string>)
    requires Ascending(s) && |s| > 0
    ensures Ascending(s[1..])
  {
    forall i, j | 0 <= i < j < |s| - 1 ensures Less(s[1..][i], s[1..][j]) {
      assert s[1..][i] == s[i + 1] && s[1..][j] == s[j + 1];
    }
  }

  /** Sorting distinct strings gives them in strictly ascending order. */
  lemma {:induction false} SortAscending(xs: seq<string>)
    requires Distinct(xs)
    ensures Ascending(Sort(xs))
    decreases |xs|
  {
    if |xs| > 0 {
      var n := |xs| - 1;
      var init := xs[..n];
      assert Distinct(init) by {
        forall i, j | 0 <= i < j < n ensures init[i] != init[j] {
          assert init[i] == xs[i] && init[j] == xs[j];
        }
      }
      SortAscending(init);
      assert xs[n] !in multiset(Sort(init));
      InsertAscending(xs[n], Sort(init));
    }
  }

  lemma SortKeepsElements(xs: seq<string>)
    ensures forall x :: x in Sort(xs) <==> x in xs
  {
    forall x ensures x in Sort(xs) <==> x in xs {
      assert x in Sort(xs) <==> x in multiset(Sort(xs));
      assert x in xs <==> x in multiset(xs);
    }
  }

  /** A set has one strictly ascending arrangement. */
  lemma {:induction false} AscendingUnique(a: seq<string>, b: seq<string>)
    requires Ascending(a) && Ascending(b)
    requires forall x :: x in a <==> x in b
    ensures a == b
    decreases |a|
  {
    if |b| > 0 {
      assert b[0] in a;
    }
    if |a| > 0 {
      assert a[0] in b;
      var k :| 0 <= k < |a| && a[k] == b[0];
      var m :| 0 <= m < |b| && b[m] == a[0];
      if k > 0 && m > 0 {
        LessAsymmetric(a[0], a[k]);
        assert false;
      }
      assert a[0] == b[0];
      AscendingTail(a);
      AscendingTail(b);
      forall x ensures x in a[1..] <==> x in b[1..] {
        AscendingHeadNotInTail(a, x);
        AscendingHeadNotInTail(b, x);
      }
      AscendingUnique(a[1..], b[1..]);
      assert a == [a[0]] + a[1..] && b == [b[0]] + b[1..];
    }
  }

  lemma AscendingHeadNotInTail(s: seq<string>, x: string)
    requires Ascending(s) && |s| > 0
    ensures x in s[1..] <==> x in s && x != s[0]
  {
    if x in s[1..] {
      var k :| 0 <= k < |s| - 1 && s[1..][k] == x;
      assert s[k + 1] == x;
      if x == s[0] {
        LessIrreflexive(x);
      }
    }
    if x in s && x != s[0] {
      var k :| 0 <= k < |s| && s[k] == x;
      assert s[1..][k - 1] == x;
    }
  }
}

=== FILE: retrieve.dfy ===
/** The retriever (`retrieveTopK`): scores every stored chunk against the
    question embedding, ranks them, keeps the first `TOP_K`, refuses when
    the best score is under `MIN_SCORE`, and otherwise builds the context
    text and the de-duplicated source list. The stored index and the
    question embedding are inputs. */
module Retrieve {
  import opened Wrappers
  import opened Env
  import opened Text
  import opened Score
  import opened Dedup

  const DefaultTopK: real := 6.0
  const DefaultMinScore: real := 0.78

  /** One stored chunk of the vectors file. */
  datatype VectorItem = VectorItem(id: string, url: string, title: string, chunk: string, embedding: seq<real>)

  datatype Source = Source(title: string, url: string)

  /** A stored chunk with its similarity to the question; `index` is its
      position in the stored list, which is what the stable sort falls back
      on for equal scores. */
  datatype Hit = Hit(index: nat, item: VectorItem, score: real)

  /** `{ ok: false }` or `{ ok: true, topScore, context, sources }`. */
  datatype Retrieval = NoMatch | Match(topScore: real, context: string, sources: seq<Source>)

  function ScoreAll(items: seq<VectorItem>, q: seq<real>, sqrt: real -> real): (hits: seq<Hit>)
    ensures |hits| == |items|
    ensures forall i :: 0 <= i < |hits| ==> hits[i] == Hit(i, items[i], Cosine(q, items[i].embedding, sqrt))
  {
    seq(|items|, i requires 0 <= i < |items| => Hit(i, items[i], Cosine(q, items[i].embedding, sqrt)))
  }

  // ------------------------------------------------------------- ranking

  /** The order `Array.prototype.sort` produces with the comparator
      `b.score - a.score`: higher score first, and, the sort being stable,
      earlier stored position first among equal scores. */
  predicate Before(x: Hit, y: Hit) {
    x.score > y.score || (x.score == y.score && x.index < y.index)
  }

  predicate Ranked(s: seq<Hit>) {
    forall i, j :: 0 <= i < j < |s| ==> Before(s[i], s[j])
  }

  predicate IndicesAscend(s: seq<Hit>) {
    forall i, j :: 0 <= i < j < |s| ==> s[i].index < s[j].index
  }

  /** Insert `x` after every element scoring at least as much. */
  function Insert(x: Hit, s: seq<Hit>): (r: seq<Hit>)
    ensures |r| == |s| + 1
    ensures multiset(r) == multiset(s) + multiset{x}
  {
    if |s| == 0 then [x]
    else if s[0].score >= x.score then
      assert s == [s[0]] + s[1..];
      [s[0]] + Insert(x, s[1..])
    else [x] + s
  }

  /** The stable descending sort, as an insertion sort over the hits in
      stored order. It has the shape of `Order.Sort`, but the two sorts
      differ where it matters: this one is descending by score and keeps
      equal scores in store order, that one is ascending by code units on
      distinct URLs, so each carries its own ordering lemmas. */
  function SortHits(hs: seq<Hit>): (r: seq<Hit>)
    ensures multiset(r) == multiset(hs)
    decreases |hs|
  {
    if |hs| == 0 then []
    else
      assert hs == hs[..|hs| - 1] + [hs[|hs| - 1]];
      Insert(hs[|hs| - 1], SortHits(hs[..|hs| - 1]))
  }

  lemma {:induction false} InsertRanked(x: Hit, s: seq<Hit>)
    requires Ranked(s)
    requires forall y :: y in s ==> y.index < x.index
    ensures Ranked(Insert(x, s))
  {
    if |s| > 0 && s[0].score >= x.score {
      InsertRanked(x, s[1..]);
      var r := Insert(x, s);
      var tail := Insert(x, s[1..]);
      assert r == [s[0]] + tail;
      forall j | 0 < j < |r| ensures Before(r[0], r[j]) {
        assert r[j] in multiset(tail);
        assert r[j] in multiset(s[1..]) + multiset{x};
        if r[j] == x {
          assert Before(s[0], x);
        } else {
          assert r[j] in s[1..];
          var k :| 0 <= k < |s[1..]| && s[1..][k] == r[j];
          assert s[k + 1] == r[j];
        }
      }
    } else if |s| > 0 {
      assert s[0] in s;
    }
  }

  lemma InitBelowLast(hs: seq<Hit>)
    requires IndicesAscend(hs) && |hs| > 0
    ensures IndicesAscend(hs[..|hs| - 1])
    ensures forall y :: y in hs[..|hs| - 1] ==> y.index < hs[|hs| - 1].index
  {
    var init := hs[..|hs| - 1];
    forall y | y in init ensures y.index < hs[|hs| - 1].index {
      var k :| 0 <= k < |init| && init[k] == y;
      assert init[k] == hs[k];
    }
  }

  /** Sorting hits given in stored order yields the stable descending
      order. */
  lemma {:induction false} SortHitsRanked(hs: seq<Hit>)
    requires IndicesAscend(hs)
    ensures Ranked(SortHits(hs))
    decreases |hs|
  {
    if |hs| > 0 {
      var n := |hs| - 1;
      var init := hs[..n];
      InitBelowLast(hs);
      SortHitsRanked(init);
      forall y | y in SortHits(init) ensures y in init {
        assert y in multiset(SortHits(init));
      }
      InsertRanked(hs[n], SortHits(init));
    }
  }

  /** A ranked arrangement of a collection is unique: `SortHits` is the one
      stable descending order there is. */
  lemma {:induction false} RankedUnique(a: seq<Hit>, b: seq<Hit>)
    requires Ranked(a) && Ranked(b) && multiset(a) == multiset(b)
    ensures a == b
    decreases |a|
  {
    if |a| > 0 {
      assert |b| == |a| by {
        assert |multiset(a)| == |a| && |multiset(b)| == |b|;
      }
      RankedSameHead(a, b);
      MultisetTail(a);
      MultisetTail(b);
      RankedTail(a);
      RankedTail(b);
      RankedUnique(a[1..], b[1..]);
      assert a == [a[0]] + a[1..];
      assert b == [b[0]] + b[1..];
    }
  }

  /** Two ranked arrangements of one collection start alike: each head
      would otherwise have to come before the other. */
  lemma RankedSameHead(a: seq<Hit>, b: seq<Hit>)
    requires Ranked(a) && Ranked(b) && multiset(a) == multiset(b) && |a| > 0 && |b| > 0
    ensures a[0] == b[0]
  {
    assert a[0] in multiset(b) && b[0] in multiset(a);
    var k :| 0 <= k < |a| && a[k] == b[0];
    var m :| 0 <= m < |b| && b[m] == a[0];
    if k > 0 && m > 0 {
      assert false;
    }
  }

  lemma MultisetTail(s: seq<Hit>)
    requires |s| > 0
    ensures multiset(s[1..]) == multiset(s) - multiset{s[0]}
  {
    assert s == [s[0]] + s[1..];
  }

  lemma RankedTail(s: seq<Hit>)
    requires Ranked(s) && |s| > 0
    ensures Ranked(s[1..])
  {
    forall i, j | 0 <= i < j < |s| - 1 ensures Before(s[1..][i], s[1..][j]) {
      assert s[1..][i] == s[i + 1] && s[1..][j] == s[j + 1];
    }
  }

  lemma RankedFirstIsMax(s: seq<Hit>)
    requires Ranked(s) && |s| > 0
    ensures forall h :: h in s ==> h.score <= s[0].score
  {
  }

  // ------------------------------------------------------------ selection

  /** The end index of `xs.slice(0, k)` for an integer `k`: negative ends
      count from the back. */
  function SliceEnd(n: nat, k: int): (e: nat)
    ensures e <= n
  {
    if k < 0 then Max(n + k, 0) else Min(k, n)
  }

  /** The hits kept: the ranked hits cut at `slice(0, topK)`, the count
      truncated toward zero as `slice` does. */
  function Best(items: seq<VectorItem>, q: seq<real>, topK: real, sqrt: real -> real): seq<Hit>
  {
    var ranked := SortHits(ScoreAll(items, q, sqrt));
    ranked[..SliceEnd(|ranked|, Trunc(topK))]
  }

  function TopScore(best: seq<Hit>): real {
    if |best| > 0 then best[0].score else 0.0
  }

  /** One context block: `[#n] title`, the URL line, the excerpt header and
      the chunk. */
  function Block(n: nat, h: Hit): string {
    "[#" + Decimal(n) + "] " + h.item.title + "\nURL: " + h.item.url + "\nEXTRACTO:\n" + h.item.chunk + "\n"
  }

  /** The blocks of `best`, numbered from 1 in rank order. */
  function Blocks(best: seq<Hit>): (bs: seq<string>)
    ensures |bs| == |best|
  {
    seq(|best|, i requires 0 <= i < |best| => Block(i + 1, best[i]))
  }

  /** The blocks joined with `\n---\n`. */
  function Context(best: seq<Hit>): string {
    Join(Blocks(best), "\n---\n")
  }

  function SourceUrl(s: Source): string {
    s.url
  }

  /** The sources of the kept hits, first-seen by URL. */
  function Sources(best: seq<Hit>): seq<Source> {
    DedupBy(seq(|best|, i requires 0 <= i < |best| => Source(best[i].item.title, best[i].item.url)), SourceUrl)
  }

  /** `retrieveTopK`: no index means no match; a failed question embedding is
      re-thrown; otherwise the kept hits decide. */
  function Retrieve(index: Option<seq<VectorItem>>, topKVar: EnvNum, minScoreVar: EnvNum,
                    qEmb: Result<seq<real>, string>, sqrt: real -> real): (r: Result<Retrieval, string>)
    ensures index.None? ==> r == Success(NoMatch)
    ensures index.Some? && qEmb.Failure? ==> r == Failure(qEmb.error)
    ensures r.Failure? ==> index.Some? && qEmb.Failure?
    ensures r.Success? && r.value.Match? ==> r.value.topScore >= GetEnvNum(minScoreVar, DefaultMinScore)
  {
    match index
    case None => Success(NoMatch)
    case Some(items) =>
      var topK := GetEnvNum(topKVar, DefaultTopK);
      var minScore := GetEnvNum(minScoreVar, DefaultMinScore);
      match qEmb
      case Failure(e) => Failure(e)
      case Success(q) =>
        var best := Best(items, q, topK, sqrt);
        var topScore := TopScore(best);
        if topScore < minScore then Success(NoMatch)
        else Success(Match(topScore, Context(best), Sources(best)))
  }

  // ------------------------------------------------------------ properties

  /** The kept hits are ranked, there are as many as `slice(0, topK)`
      leaves of the whole index, and the first of them scores at least as
      much as every stored chunk. */
  lemma BestSpec(items: seq<VectorItem>, q: seq<real>, topK: real, sqrt: real -> real)
    ensures var best := Best(items, q, topK, sqrt);
      && Ranked(best)
      && |best| == SliceEnd(|items|, Trunc(topK))
      && (|best| > 0 ==> forall i :: 0 <= i < |items| ==> Cosine(q, items[i].embedding, sqrt) <= TopScore(best))
  {
    var hits := ScoreAll(items, q, sqrt);
    var ranked := SortHits(hits);
    var best := Best(items, q, topK, sqrt);
    SortHitsRanked(hits);
    assert |ranked| == |hits| by {
      assert |multiset(ranked)| == |ranked| && |multiset(hits)| == |hits|;
    }
    assert best == ranked[..|best|];
    if |best| > 0 {
      RankedFirstIsMax(ranked);
      forall i | 0 <= i < |items| ensures Cosine(q, items[i].embedding, sqrt) <= TopScore(best) {
        assert hits[i] in multiset(ranked);
      }
    }
  }

  /** With an index and a question embedding, the retrieval matches exactly
      when the best kept score reaches `MIN_SCORE`, and then carries that
      score, the context of the kept hits and their sources. Those parts are
      pinned down separately: `BestSpec` says which hits are kept,
      `ContextHasEveryHit` what the context holds and `SourcesSpec` what the
      sources list. */
  lemma RetrieveMatch(items: seq<VectorItem>, topKVar: EnvNum, minScoreVar: EnvNum, q: seq<real>, sqrt: real -> real)
    ensures var best := Best(items, q, GetEnvNum(topKVar, DefaultTopK), sqrt);
      var r := Retrieve(Some(items), topKVar, minScoreVar, Success(q), sqrt);
      && r.Success?
      && (r.value.Match? <==> TopScore(best) >= GetEnvNum(minScoreVar, DefaultMinScore))
      && (r.value.Match? ==> r.value == Match(TopScore(best), Context(best), Sources(best)))
  {
  }

  /** The sources have pairwise distinct URLs, each is the title and URL of a
      kept hit, and every kept hit's URL is among them. */
  lemma SourcesSpec(best: seq<Hit>)
    ensures var s := Sources(best);
      && (forall i, j :: 0 <= i < j < |s| ==> s[i].url != s[j].url)
      && (forall x :: x in s ==> exists h :: h in best && x == Source(h.item.title, h.item.url))
      && (forall h :: h in best ==> exists x :: x in s && x.url == h.item.url)
  {
    var all := seq(|best|, i requires 0 <= i < |best| => Source(best[i].item.title, best[i].item.url));
    var s := Sources(best);
    FirstOccurrencesSpec(all, SourceUrl);
    forall x | x in s ensures exists h :: h in best && x == Source(h.item.title, h.item.url) {
      assert x in all;
      var k :| 0 <= k < |all| && all[k] == x;
      assert best[k] in best;
    }
    forall h | h in best ensures exists x :: x in s && x.url == h.item.url {
      var k :| 0 <= k < |best| && best[k] == h;
      assert SourceUrl(all[k]) in KeysOf(all, SourceUrl);
      assert h.item.url in KeysOf(s, SourceUrl);
      var m :| 0 <= m < |s| && SourceUrl(s[m]) == h.item.url;
      assert s[m] in s;
    }
  }

  /** When no stored vector has the question's dimension every similarity is
      0, so a positive `MIN_SCORE` refuses. */
  lemma DimensionMismatchRefuses(items: seq<VectorItem>, topKVar: EnvNum, minScoreVar: EnvNum, q: seq<real>, sqrt: real -> real)
    requires forall i :: 0 <= i < |items| ==> |items[i].embedding| != |q|
    requires GetEnvNum(minScoreVar, DefaultMinScore) > 0.0
    ensures Retrieve(Some(items), topKVar, minScoreVar, Success(q), sqrt) == Success(NoMatch)
  {
    var best := Best(items, q, GetEnvNum(topKVar, DefaultTopK), sqrt);
    var hits := ScoreAll(items, q, sqrt);
    if |best| > 0 {
      assert best[0] in multiset(SortHits(hits));
      assert best[0] in hits;
    }
  }

  /** A block shows the hit's URL line and its chunk. */
  lemma BlockShowsHit(n: nat, h: Hit)
    ensures Contains(Block(n, h), "\nURL: " + h.item.url + "\n")
    ensures Contains(Block(n, h), h.item.chunk)
  {
    var head := "[#" + Decimal(n) + "] " + h.item.title;
    var urlLine := "\nURL: " + h.item.url + "\n";
    assert Block(n, h) == head + urlLine + ("EXTRACTO:\n" + h.item.chunk + "\n");
    ContainsInfix(head, urlLine, "EXTRACTO:\n" + h.item.chunk + "\n");
    assert Block(n, h) == (head + urlLine + "EXTRACTO:\n") + h.item.chunk + "\n";
    ContainsInfix(head + urlLine + "EXTRACTO:\n", h.item.chunk, "\n");
  }

  /** Every kept hit reaches the model: its block, numbered by its rank,
      occurs in the context, and so do its URL line and its chunk. */
  lemma ContextHasEveryHit(best: seq<Hit>)
    ensures forall i :: 0 <= i < |best| ==> Contains(Context(best), Block(i + 1, best[i]))
    ensures forall i :: 0 <= i < |best| ==> Contains(Context(best), "\nURL: " + best[i].item.url + "\n")
    ensures forall i :: 0 <= i < |best| ==> Contains(Context(best), best[i].item.chunk)
  {
    var bs := Blocks(best);
    JoinContainsParts(bs, "\n---\n");
    forall i | 0 <= i < |best|
      ensures Contains(Context(best), Block(i + 1, best[i]))
      ensures Contains(Context(best), "\nURL: " + best[i].item.url + "\n")
      ensures Contains(Context(best), best[i].item.chunk)
    {
      assert bs[i] == Block(i + 1, best[i]);
      BlockShowsHit(i + 1, best[i]);
      ContainsWithin(Context(best), bs[i], "\nURL: " + best[i].item.url + "\n");
      ContainsWithin(Context(best), bs[i], best[i].item.chunk);
    }
  }
}

=== FILE: score.dfy ===
/** Cosine similarity (`cosineSimilarity`) between two embedding vectors.
    Numbers are reals; `Math.sqrt` is a parameter `sqrt`, and the bound and
    self-similarity properties hold for any `sqrt` that really is the
    non-negative square root on non-negative arguments. */
module Score {
  import opened Arith

  /** `sqrt` agrees with the non-negative square root on `[0, ∞)`. */
  ghost predicate IsSqrt(sqrt: real -> real) {
    forall x: real {:trigger sqrt(x)} :: x >= 0.0 ==> sqrt(x) >= 0.0 && sqrt(x) * sqrt(x) == x
  }

  /** Σ a[i]·b[i] over the common prefix of length `n`, accumulated from
      index 0 upwards as the source's loop does. */
  function Dot(a: seq<real>, b: seq<real>, n: nat): real
    requires n <= |a| && n <= |b|
  {
    if n == 0 then 0.0 else Dot(a, b, n - 1) + a[n - 1] * b[n - 1]
  }

  /** Σ a[i]² over the first `n` entries. */
  function SumSq(a: seq<real>, n: nat): (r: real)
    requires n <= |a|
    ensures r >= 0.0
  {
    if n == 0 then 0.0 else SumSq(a, n - 1) + a[n - 1] * a[n - 1]
  }

  /** The last line of `cosineSimilarity`: the dot product over the product
      of the norms, or 0 when that product is 0. */
  function Ratio(dot: real, na: real, nb: real, sqrt: real -> real): real {
    var denom := sqrt(na) * sqrt(nb);
    if denom == 0.0 then 0.0 else dot / denom
  }

  /** `cosineSimilarity(a, b)`: 0 for vectors of different lengths and when
      either vector has norm 0, otherwise the dot product over the product
      of the norms. */
  function Cosine(a: seq<real>, b: seq<real>, sqrt: real -> real): (r: real)
    ensures |a| != |b| ==> r == 0.0
  {
    if |a| != |b| then 0.0
    else Ratio(Dot(a, b, |a|), SumSq(a, |a|), SumSq(b, |b|), sqrt)
  }

  /** The loop of `cosineSimilarity` as written: one pass accumulating the
      dot product and both squared norms. */
  method CosineLoop(a: seq<real>, b: seq<real>, sqrt: real -> real) returns (r: real)
    ensures r == Cosine(a, b, sqrt)
  {
    if |a| != |b| {
      return 0.0;
    }
    var dot, na, nb := 0.0, 0.0, 0.0;
    var i := 0;
    while i < |a|
      invariant 0 <= i <= |a|
      invariant dot == Dot(a, b, i) && na == SumSq(a, i) && nb == SumSq(b, i)
    {
      AccumulateStep(a, b, i);
      dot := dot + a[i] * b[i];
      na := na + a[i] * a[i];
      nb := nb + b[i] * b[i];
      i := i + 1;
    }
    r := Ratio(dot, na, nb, sqrt);
  }

  lemma AccumulateStep(a: seq<real>, b: seq<real>, i: nat)
    requires i < |a| == |b|
    ensures Dot(a, b, i + 1) == Dot(a, b, i) + a[i] * b[i]
    ensures SumSq(a, i + 1) == SumSq(a, i) + a[i] * a[i]
    ensures SumSq(b, i + 1) == SumSq(b, i) + b[i] * b[i]
  {
  }

  // ------------------------------------------------------------ properties

  /** Σ (a[i]·t − b[i])², the quadratic behind Cauchy–Schwarz. */
  function SumSqDiff(a: seq<real>, b: seq<real>, t: real, n: nat): (r: real)
    requires n <= |a| && n <= |b|
    ensures r >= 0.0
  {
    if n == 0 then 0.0
    else SumSqDiff(a, b, t, n - 1) + (a[n - 1] * t - b[n - 1]) * (a[n - 1] * t - b[n - 1])
  }

  lemma {:induction false} SumSqDiffExpand(a: seq<real>, b: seq<real>, t: real, n: nat)
    requires n <= |a| && n <= |b|
    ensures SumSqDiff(a, b, t, n) == SumSq(a, n) * t * t - 2.0 * Dot(a, b, n) * t + SumSq(b, n)
  {
    if n > 0 {
      SumSqDiffExpand(a, b, t, n - 1);
      var x, y := a[n - 1], b[n - 1];
      assert (x * t - y) * (x * t - y) == x * x * t * t - 2.0 * x * y * t + y * y;
    }
  }

  /** Cauchy–Schwarz: (a·b)² ≤ |a|²·|b|². The quadratic
      Σ (a[i]·t − b[i])² = A·t² − 2·D·t + B is never negative; at
      t = D / A it is B − D²/A. */
  lemma CauchySchwarz(a: seq<real>, b: seq<real>, n: nat)
    requires n <= |a| && n <= |b|
    ensures Dot(a, b, n) * Dot(a, b, n) <= SumSq(a, n) * SumSq(b, n)
  {
    var A, B, D := SumSq(a, n), SumSq(b, n), Dot(a, b, n);
    var t := if A == 0.0 && D != 0.0 then (B + 1.0) / (2.0 * D) else if A == 0.0 then 0.0 else D / A;
    SumSqDiffQuadratic(a, b, t, n);
    QuadraticNonneg(A, B, D, t, SumSqDiff(a, b, t, n), D * D, A * B);
  }

  lemma SumSqDiffQuadratic(a: seq<real>, b: seq<real>, t: real, n: nat)
    requires n <= |a| && n <= |b|
    ensures Quadratic(SumSq(a, n), Dot(a, b, n), SumSq(b, n), t) == SumSqDiff(a, b, t, n) >= 0.0
  {
    SumSqDiffExpand(a, b, t, n);
  }

  /** `A·t² − 2·D·t + B`. */
  function Quadratic(A: real, D: real, B: real, t: real): real {
    A * t * t - 2.0 * D * t + B
  }

  /** A quadratic that is non-negative at the point `t` chosen below has
      `D² ≤ A·B`: at the vertex `t = D / A` when `A ≠ 0`, and when `A = 0`
      the line `B − 2·D·t` would go negative at `t = (B + 1) / (2·D)`
      unless `D = 0`. */
  lemma QuadraticNonneg(A: real, B: real, D: real, t: real, q: real, DD: real, AB: real)
    requires A >= 0.0 && B >= 0.0
    requires t == if A == 0.0 && D != 0.0 then (B + 1.0) / (2.0 * D) else if A == 0.0 then 0.0 else D / A
    requires q == Quadratic(A, D, B, t) && q >= 0.0
    requires DD == D * D && AB == A * B
    ensures DD <= AB
  {
    if A == 0.0 {
      if D != 0.0 {
        FlatQuadratic(A, B, D, t, q);
        assert false;
      }
    } else {
      QuadraticAtVertex(A, B, D, t, q, DD, AB);
    }
  }

  /** With `A = 0` the quadratic is the line `B − 2·D·t`, which is −1 at
      `t = (B + 1) / (2·D)`. */
  lemma FlatQuadratic(A: real, B: real, D: real, t: real, q: real)
    requires A == 0.0 && D != 0.0 && t == (B + 1.0) / (2.0 * D)
    requires q == Quadratic(A, D, B, t)
    ensures q == -1.0
  {
    DivCancel(2.0 * D, B + 1.0);
  }

  /** A non-negative quadratic `A·t² − 2·D·t + B` evaluated at `t = D / A`
      gives `D² ≤ A·B`. */
  lemma QuadraticAtVertex(A: real, B: real, D: real, t: real, q: real, DD: real, AB: real)
    requires A > 0.0 && t == D / A
    requires q == A * t * t - 2.0 * D * t + B && q >= 0.0
    requires DD == D * D && AB == A * B
    ensures DD <= AB
  {
    DivCancel(A, D);
    calc {
      0.0;
    <=
      q;
    ==
      A * t * t - 2.0 * D * t + B;
    ==  { assert A * t * t == (A * t) * t == D * t; }
      B - D * t;
    }
    calc {
      D * D;
    ==
      (A * t) * D;
    ==
      A * (D * t);
    <=  { MulLeNonneg(A, D * t, B); }
      A * B;
    }
  }

  /** The quotient of `D` by the product of the square roots of `A` and
      `B` lies in `[-1, 1]` when `D² ≤ A·B`. */
  lemma RatioBound(D: real, A: real, B: real, sa: real, sb: real)
    requires D * D <= A * B
    requires sa >= 0.0 && sb >= 0.0 && sa * sa == A && sb * sb == B && sa * sb != 0.0
    ensures -1.0 <= D / (sa * sb) <= 1.0
  {
    var denom := sa * sb;
    MulLeNonneg(sa, 0.0, sb);
    calc {
      denom * denom;
    ==
      (sa * sa) * (sb * sb);
    ==
      A * B;
    }
    AbsBound(D, denom);
    DivWithin(D, denom);
  }

  /** `Ratio` of a dot product and two squared norms that satisfy
      Cauchy–Schwarz lies in `[-1, 1]`. */
  lemma RatioBounded(D: real, A: real, B: real, sqrt: real -> real)
    requires IsSqrt(sqrt)
    requires A >= 0.0 && B >= 0.0 && D * D <= A * B
    ensures -1.0 <= Ratio(D, A, B, sqrt) <= 1.0
  {
    var sa, sb := sqrt(A), sqrt(B);
    if sa * sb != 0.0 {
      RatioBound(D, A, B, sa, sb);
    }
  }

  /** Cosine similarity lies in `[-1, 1]`. */
  lemma CosineBounded(a: seq<real>, b: seq<real>, sqrt: real -> real)
    requires IsSqrt(sqrt)
    ensures -1.0 <= Cosine(a, b, sqrt) <= 1.0
  {
    if |a| == |b| {
      CauchySchwarz(a, b, |a|);
      RatioBounded(Dot(a, b, |a|), SumSq(a, |a|), SumSq(b, |b|), sqrt);
    }
  }

  /** The similarity is symmetric. */
  lemma {:induction false} CosineSymmetric(a: seq<real>, b: seq<real>, sqrt: real -> real)
    ensures Cosine(a, b, sqrt) == Cosine(b, a, sqrt)
  {
    if |a| == |b| {
      DotSymmetric(a, b, |a|);
    }
  }

  lemma {:induction false} DotSymmetric(a: seq<real>, b: seq<real>, n: nat)
    requires n <= |a| && n <= |b|
    ensures Dot(a, b, n) == Dot(b, a, n)
  {
    if n > 0 {
      DotSymmetric(a, b, n - 1);
    }
  }

  lemma {:induction false} DotSelf(a: seq<real>, n: nat)
    requires n <= |a|
    ensures Dot(a, a, n) == SumSq(a, n)
  {
    if n > 0 {
      DotSelf(a, n - 1);
    }
  }

  /** A vector with non-zero norm is fully similar to itself, and a vector
      of norm zero is similar to nothing. */
  lemma CosineSelf(a: seq<real>, sqrt: real -> real)
    requires IsSqrt(sqrt)
    ensures SumSq(a, |a|) > 0.0 ==> Cosine(a, a, sqrt) == 1.0
    ensures SumSq(a, |a|) == 0.0 ==> Cosine(a, a, sqrt) == 0.0
  {
    var A := SumSq(a, |a|);
    var sa := sqrt(A);
    DotSelf(a, |a|);
    assert sa * sa == A;
    if A > 0.0 {
      calc {
        Cosine(a, a, sqrt);
      ==
        Dot(a, a, |a|) / (sa * sa);
      ==
        A / A;
      ==  { DivSelf(A); }
        1.0;
      }
    } else {
      assert sa * sa == 0.0;
    }
  }

  /** Against a zero-norm vector the similarity is 0. */
  lemma CosineZero(a: seq<real>, b: seq<real>, sqrt: real -> real)
    requires IsSqrt(sqrt)
    requires SumSq(a, |a|) == 0.0 || SumSq(b, |b|) == 0.0
    ensures Cosine(a, b, sqrt) == 0.0
  {
    var sa, sb := sqrt(SumSq(a, |a|)), sqrt(SumSq(b, |b|));
    if SumSq(a, |a|) == 0.0 {
      assert sa * sa == 0.0;
    } else {
      assert sb * sb == 0.0;
    }
  }
}

=== FILE: text.dfy ===
/** String operations of the JavaScript runtime that the pipeline relies on:
    `trim`, the `\s` character class, `startsWith`, `includes`, `split`,
    `join`, ASCII lower-casing, decimal rendering of counters, and the two
    regular-expression cleanups shared by the chunker and the article
    extractor. Strings are sequences of characters. */
module Text {

  /** JavaScript's WhiteSpace and LineTerminator characters: the set that
      both `String.prototype.trim` and the regular-expression class `\s`
      use. */
  predicate IsSpace(c: char) {
    || c == '\t' || c == '\n' || c == '\U{B}' || c == '\U{C}' || c == '\r'
    || c == ' ' || c == '\U{A0}' || c == '\U{1680}'
    || ('\U{2000}' <= c <= '\U{200A}')
    || c == '\U{2028}' || c == '\U{2029}' || c == '\U{202F}' || c == '\U{205F}'
    || c == '\U{3000}' || c == '\U{FEFF}'
  }

  predicate AllSpace(s: string) {
    forall i :: 0 <= i < |s| ==> IsSpace(s[i])
  }

  /** `s` has no whitespace at either end. */
  predicate Trimmed(s: string) {
    |s| == 0 || (!IsSpace(s[0]) && !IsSpace(s[|s| - 1]))
  }

  predicate StartsWith(s: string, prefix: string) {
    |prefix| <= |s| && s[..|prefix|] == prefix
  }

  /** `pattern` occurs in `s` starting at index `i`. */
  predicate OccursAt(s: string, pattern: string, i: int) {
    0 <= i && i + |pattern| <= |s| && s[i..i + |pattern|] == pattern
  }

  /** JavaScript's `s.includes(pattern)`. */
  predicate Contains(s: string, pattern: string) {
    exists i :: 0 <= i <= |s| - |pattern| && OccursAt(s, pattern, i)
  }

  lemma AllSpaceConcat(a: string, b: string)
    ensures AllSpace(a + b) <==> AllSpace(a) && AllSpace(b)
  {
    if AllSpace(a) && AllSpace(b) {
      forall i | 0 <= i < |a + b| ensures IsSpace((a + b)[i]) {
        if i >= |a| { assert (a + b)[i] == b[i - |a|]; }
      }
    }
    if AllSpace(a + b) {
      forall i | 0 <= i < |b| ensures IsSpace(b[i]) {
        assert (a + b)[|a| + i] == b[i];
      }
      forall i | 0 <= i < |a| ensures IsSpace(a[i]) {
        assert (a + b)[i] == a[i];
      }
    }
  }

  /** The characters of `s` that are not whitespace, in order: the text a
      whitespace cleanup must keep. */
  function NonBlank(s: string): (r: string)
    ensures |r| <= |s|
    decreases |s|
  {
    if |s| == 0 then [] else (if IsSpace(s[0]) then [] else [s[0]]) + NonBlank(s[1..])
  }

  lemma {:induction false} NonBlankConcat(a: string, b: string)
    ensures NonBlank(a + b) == NonBlank(a) + NonBlank(b)
    decreases |a|
  {
    if |a| == 0 {
      assert a + b == b;
    } else {
      assert (a + b)[1..] == a[1..] + b;
      NonBlankConcat(a[1..], b);
    }
  }

  /** Whitespace alone has no text. */
  lemma {:induction false} NonBlankAllSpace(s: string)
    requires AllSpace(s)
    ensures NonBlank(s) == []
    decreases |s|
  {
    if |s| > 0 {
      NonBlankAllSpace(s[1..]);
    }
  }

  /** Two strings that agree position by position on which characters are
      whitespace, and on every character that is not, have the same text. */
  lemma {:induction false} NonBlankSameText(a: string, b: string)
    requires |a| == |b|
    requires forall i :: 0 <= i < |a| ==> IsSpace(a[i]) == IsSpace(b[i])
    requires forall i :: 0 <= i < |a| && !IsSpace(a[i]) ==> a[i] == b[i]
    ensures NonBlank(a) == NonBlank(b)
    decreases |a|
  {
    if |a| > 0 {
      NonBlankSameText(a[1..], b[1..]);
    }
  }

  // ---------------------------------------------------------------- trim

  /** Length of the leading whitespace run of `s`. */
  function SpaceRun(s: string): (k: nat)
    ensures k <= |s|
    ensures forall i :: 0 <= i < k ==> IsSpace(s[i])
    ensures k == |s| || !IsSpace(s[k])
  {
    if |s| > 0 && IsSpace(s[0]) then 1 + SpaceRun(s[1..]) else 0
  }

  /** Length of the trailing whitespace run of `s`. */
  function TrailingSpaceRun(s: string): (k: nat)
    ensures k <= |s|
    ensures forall i :: |s| - k <= i < |s| ==> IsSpace(s[i])
    ensures k == |s| || !IsSpace(s[|s| - 1 - k])
  {
    if |s| > 0 && IsSpace(s[|s| - 1]) then 1 + TrailingSpaceRun(s[..|s| - 1]) else 0
  }

  /** JavaScript's `s.trim()`: the slice of `s` that starts after its leading
      whitespace and ends before its trailing whitespace. It is the unique
      slice whose removed prefix and suffix are all whitespace and whose ends
      are not. */
  function Trim(s: string): (r: string)
    ensures SpaceRun(s) + |r| <= |s|
    ensures r == s[SpaceRun(s)..SpaceRun(s) + |r|]
    ensures forall i :: SpaceRun(s) + |r| <= i < |s| ==> IsSpace(s[i])
    ensures Trimmed(r)
    ensures |r| == 0 <==> AllSpace(s)
  {
    var a := SpaceRun(s);
    if a == |s| then ""
    else
      var b := TrailingSpaceRun(s);
      assert !IsSpace(s[a]);
      assert |s| - b > a;
      s[a..|s| - b]
  }

  lemma TrimIdempotent(s: string)
    ensures Trim(Trim(s)) == Trim(s)
  {
    var r := Trim(s);
    if |r| > 0 {
      assert SpaceRun(r) == 0;
      assert TrailingSpaceRun(r) == 0;
    }
  }

  /** Trimming leaves a trimmed string alone. */
  lemma TrimTrimmed(s: string)
    requires Trimmed(s)
    ensures Trim(s) == s
  {
    if |s| > 0 {
      assert SpaceRun(s) == 0;
      assert TrailingSpaceRun(s) == 0;
    }
  }

  /** Trimming removes whitespace only. */
  lemma TrimKeepsText(s: string)
    ensures NonBlank(Trim(s)) == NonBlank(s)
  {
    var a, r := SpaceRun(s), Trim(s);
    var tail := s[a + |r|..];
    assert s == s[..a] + r + tail;
    NonBlankConcat(s[..a] + r, tail);
    NonBlankConcat(s[..a], r);
    NonBlankAllSpace(s[..a]);
    NonBlankAllSpace(tail);
  }

  /** `s.replace(/\s+/g, " ")`: every maximal whitespace run becomes one
      space. */
  function CollapseSpaces(s: string): (r: string)
    ensures AllSpace(r) <==> AllSpace(s)
    ensures |s| > 0 ==> |r| > 0
    decreases |s|
  {
    if |s| == 0 then []
    else if IsSpace(s[0]) then
      var k := SpaceRun(s);
      var rest := CollapseSpaces(s[k..]);
      assert AllSpace(s) <==> k == |s| by {
        if k < |s| { assert !IsSpace(s[k]); }
      }
      assert AllSpace(s[k..]) <==> k == |s| by {
        if k < |s| { assert s[k..][0] == s[k]; }
      }
      AllSpaceConcat([' '], rest);
      [' '] + rest
    else
      var rest := CollapseSpaces(s[1..]);
      assert !AllSpace(s);
      assert !AllSpace([s[0]] + rest) by { assert ([s[0]] + rest)[0] == s[0]; }
      [s[0]] + rest
  }

  /** Collapsing whitespace runs keeps the text. */
  lemma {:induction false} CollapseSpacesKeepsText(s: string)
    ensures NonBlank(CollapseSpaces(s)) == NonBlank(s)
    decreases |s|
  {
    if |s| > 0 {
      if IsSpace(s[0]) {
        var k := SpaceRun(s);
        CollapseSpacesKeepsText(s[k..]);
        assert s == s[..k] + s[k..];
        NonBlankConcat(s[..k], s[k..]);
        NonBlankAllSpace(s[..k]);
        NonBlankConcat([' '], CollapseSpaces(s[k..]));
      } else {
        CollapseSpacesKeepsText(s[1..]);
      }
    }
  }

  /** The collapsed string has no two adjacent whitespace characters, and the
      only whitespace left is the plain space. */
  lemma {:induction false} CollapseSpacesShape(s: string)
    ensures forall i :: 0 <= i < |CollapseSpaces(s)| && IsSpace(CollapseSpaces(s)[i]) ==> CollapseSpaces(s)[i] == ' '
    ensures forall i :: 0 <= i < |CollapseSpaces(s)| - 1 && IsSpace(CollapseSpaces(s)[i]) ==> !IsSpace(CollapseSpaces(s)[i + 1])
    decreases |s|
  {
    if |s| == 0 {
    } else if IsSpace(s[0]) {
      var k := SpaceRun(s);
      CollapseSpacesShape(s[k..]);
      if k < |s| {
        CollapseStartsWith(s[k..]);
      }
    } else {
      CollapseSpacesShape(s[1..]);
    }
  }

  /** A string that does not start with whitespace collapses to one that
      starts with the same character. */
  lemma CollapseStartsWith(s: string)
    requires |s| > 0 && !IsSpace(s[0])
    ensures |CollapseSpaces(s)| > 0 && CollapseSpaces(s)[0] == s[0]
  {
  }

  /** The only whitespace is the plain space, and never two in a row: the
      shape `CollapseSpaces` produces. */
  predicate SingleSpaced(s: string) {
    && (forall i :: 0 <= i < |s| && IsSpace(s[i]) ==> s[i] == ' ')
    && (forall i :: 0 <= i < |s| - 1 && IsSpace(s[i]) ==> !IsSpace(s[i + 1]))
  }

  lemma SingleSpacedSlice(s: string, a: nat, b: nat)
    requires a <= b <= |s| && SingleSpaced(s)
    ensures SingleSpaced(s[a..b])
  {
    var t := s[a..b];
    forall i | 0 <= i < |t| - 1 && IsSpace(t[i]) ensures !IsSpace(t[i + 1]) {
      assert t[i] == s[a + i] && t[i + 1] == s[a + i + 1];
    }
  }

  /** A single-spaced string has nothing to collapse. */
  lemma {:induction false} CollapseSpacesFixed(s: string)
    requires SingleSpaced(s)
    ensures CollapseSpaces(s) == s
    decreases |s|
  {
    if |s| > 0 {
      SingleSpacedSlice(s, 1, |s|);
      CollapseSpacesFixed(s[1..]);
      if IsSpace(s[0]) {
        assert |s| == 1 || !IsSpace(s[1]);
        assert SpaceRun(s) == 1;
      }
      assert s == [s[0]] + s[1..];
    }
  }

  // ------------------------------------------ [ \t]+\n -> \n  (line ends)

  predicate IsBlank(c: char) {
    c == ' ' || c == '\t'
  }

  /** `s` starts with zero or more spaces/tabs followed by a newline. */
  predicate BlanksThenNewline(s: string)
    decreases |s|
  {
    |s| > 0 && (s[0] == '\n' || (IsBlank(s[0]) && BlanksThenNewline(s[1..])))
  }

  /** `s.replace(/[ \t]+\n/g, "\n")`: spaces and tabs that end a line are
      dropped; every other character is kept in order. */
  function StripLineEndBlanks(s: string): (r: string)
    ensures |r| <= |s|
    ensures forall ch :: ch in r ==> ch in s
    decreases |s|
  {
    if |s| == 0 then []
    else
      var rest := StripLineEndBlanks(s[1..]);
      assert forall ch :: ch in s[1..] ==> ch in s;
      if IsBlank(s[0]) && BlanksThenNewline(s[1..]) then rest
      else [s[0]] + rest
  }

  /** Only blanks are dropped: the text is kept. */
  lemma {:induction false} StripLineEndBlanksKeepsText(s: string)
    ensures NonBlank(StripLineEndBlanks(s)) == NonBlank(s)
    decreases |s|
  {
    if |s| > 0 {
      StripLineEndBlanksKeepsText(s[1..]);
    }
  }

  /** A blank that `StripLineEndBlanks` drops is exactly one whose run of
      blanks reaches a newline: every kept blank is followed, in the output,
      by something other than a newline. */
  lemma {:induction false} StripLineEndBlanksNoBlankBeforeNewline(s: string)
    ensures forall i :: 0 <= i < |StripLineEndBlanks(s)| - 1 && StripLineEndBlanks(s)[i + 1] == '\n' ==> !IsBlank(StripLineEndBlanks(s)[i])
    decreases |s|
  {
    if |s| > 0 {
      StripLineEndBlanksNoBlankBeforeNewline(s[1..]);
      if !(IsBlank(s[0]) && BlanksThenNewline(s[1..])) && IsBlank(s[0]) {
        StripStartsWithoutNewline(s[1..]);
      }
    }
  }

  /** When `s` does not start with blanks-then-newline, neither does its
      stripped form start with a newline. */
  lemma {:induction false} StripStartsWithoutNewline(s: string)
    requires !BlanksThenNewline(s)
    ensures |StripLineEndBlanks(s)| == 0 || StripLineEndBlanks(s)[0] != '\n'
  {
  }

  /** No space or tab directly before a newline. */
  predicate NoBlankBeforeNewline(s: string) {
    forall i :: 0 <= i < |s| - 1 && s[i + 1] == '\n' ==> !IsBlank(s[i])
  }

  /** A blank followed by blanks-then-newline puts some blank right before a
      newline. */
  lemma {:induction false} BlankRunReachesNewline(s: string)
    requires |s| > 0 && IsBlank(s[0]) && BlanksThenNewline(s[1..])
    ensures !NoBlankBeforeNewline(s)
    decreases |s|
  {
    if s[1] != '\n' {
      BlankRunReachesNewline(s[1..]);
      var i :| 0 <= i < |s[1..]| - 1 && s[1..][i + 1] == '\n' && IsBlank(s[1..][i]);
      assert s[i + 2] == '\n' && IsBlank(s[i + 1]);
    }
  }

  /** With no blank before a newline there is nothing to strip. */
  lemma {:induction false} StripLineEndBlanksFixed(s: string)
    requires NoBlankBeforeNewline(s)
    ensures StripLineEndBlanks(s) == s
    decreases |s|
  {
    if |s| > 0 {
      assert NoBlankBeforeNewline(s[1..]) by {
        forall i | 0 <= i < |s[1..]| - 1 && s[1..][i + 1] == '\n' ensures !IsBlank(s[1..][i]) {
          assert s[1..][i] == s[i + 1] && s[1..][i + 1] == s[i + 2];
        }
      }
      StripLineEndBlanksFixed(s[1..]);
      if IsBlank(s[0]) && BlanksThenNewline(s[1..]) {
        BlankRunReachesNewline(s);
        assert false;
      }
      assert s == [s[0]] + s[1..];
    }
  }

  lemma NoBlankBeforeNewlineSlice(s: string, a: nat, b: nat)
    requires a <= b <= |s| && NoBlankBeforeNewline(s)
    ensures NoBlankBeforeNewline(s[a..b])
  {
    var t := s[a..b];
    forall i | 0 <= i < |t| - 1 && t[i + 1] == '\n' ensures !IsBlank(t[i]) {
      assert t[i] == s[a + i] && t[i + 1] == s[a + i + 1];
    }
  }

  // ------------------------------------------------- \n{3,} -> \n\n

  /** No three consecutive newlines. */
  predicate NoTripleNewline(s: string) {
    forall i :: 0 <= i < |s| - 2 ==> !(s[i] == '\n' && s[i + 1] == '\n' && s[i + 2] == '\n')
  }

  /** Length of the leading newline run of `s`. */
  function NewlineRun(s: string): (k: nat)
    ensures k <= |s|
    ensures forall i :: 0 <= i < k ==> s[i] == '\n'
    ensures k == |s| || s[k] != '\n'
    decreases |s|
  {
    if |s| > 0 && s[0] == '\n' then 1 + NewlineRun(s[1..]) else 0
  }

  /** `s.replace(/\n{3,}/g, "\n\n")`: every run of three or more newlines
      becomes exactly two. */
  function CollapseBlankLines(s: string): (r: string)
    ensures NoTripleNewline(r)
    ensures |s| > 0 && s[0] != '\n' ==> |r| > 0 && r[0] == s[0]
    ensures forall ch :: ch in r ==> ch in s
    decreases |s|
  {
    if |s| == 0 then []
    else if s[0] == '\n' then
      var k := NewlineRun(s);
      var head := if k >= 3 then "\n\n" else s[..k];
      var rest := CollapseBlankLines(s[k..]);
      NoTripleAcrossRun(head, rest);
      assert forall ch :: ch in head ==> ch == '\n';
      assert forall ch :: ch in s[k..] ==> ch in s;
      head + rest
    else
      var rest := CollapseBlankLines(s[1..]);
      NoTripleAcrossRun([s[0]], rest);
      assert forall ch :: ch in s[1..] ==> ch in s;
      [s[0]] + rest
  }

  /** Only newlines are dropped: the text is kept. */
  lemma {:induction false} CollapseBlankLinesKeepsText(s: string)
    ensures NonBlank(CollapseBlankLines(s)) == NonBlank(s)
    decreases |s|
  {
    if |s| > 0 {
      if s[0] == '\n' {
        var k := NewlineRun(s);
        var head := if k >= 3 then "\n\n" else s[..k];
        CollapseBlankLinesKeepsText(s[k..]);
        assert s == s[..k] + s[k..];
        NonBlankConcat(s[..k], s[k..]);
        NonBlankAllSpace(s[..k]);
        NonBlankConcat(head, CollapseBlankLines(s[k..]));
        NonBlankAllSpace(head);
      } else {
        CollapseBlankLinesKeepsText(s[1..]);
        NonBlankConcat([s[0]], CollapseBlankLines(s[1..]));
      }
    }
  }

  /** Joining a short run (at most two newlines, or one non-newline character)
      to a string without a triple that does not start with a newline keeps the
      property. */
  lemma NoTripleAcrossRun(head: string, rest: string)
    requires NoTripleNewline(rest)
    requires (|head| <= 2 && forall i :: 0 <= i < |head| ==> head[i] == '\n' && (|rest| == 0 || rest[0] != '\n'))
          || (|head| == 1 && head[0] != '\n')
    ensures NoTripleNewline(head + rest)
  {
    var s := head + rest;
    forall i | 0 <= i < |s| - 2
      ensures !(s[i] == '\n' && s[i + 1] == '\n' && s[i + 2] == '\n')
    {
      if i >= |head| {
        assert s[i] == rest[i - |head|] && s[i + 1] == rest[i - |head| + 1] && s[i + 2] == rest[i - |head| + 2];
      } else if |head| == 1 && head[0] != '\n' {
        assert s[i] == head[0];
      } else {
        assert s[|head|] == rest[0];
      }
    }
  }

  /** Slicing never creates three consecutive newlines. */
  lemma NoTripleSlice(s: string, a: nat, b: nat)
    requires a <= b <= |s|
    requires NoTripleNewline(s)
    ensures NoTripleNewline(s[a..b])
  {
    var t := s[a..b];
    forall i | 0 <= i < |t| - 2
      ensures !(t[i] == '\n' && t[i + 1] == '\n' && t[i + 2] == '\n')
    {
      assert t[i] == s[a + i] && t[i + 1] == s[a + i + 1] && t[i + 2] == s[a + i + 2];
    }
  }

  /** Text without three newlines in a row has nothing to collapse. */
  lemma {:induction false} CollapseBlankLinesFixed(s: string)
    requires NoTripleNewline(s)
    ensures CollapseBlankLines(s) == s
    decreases |s|
  {
    if |s| > 0 {
      if s[0] == '\n' {
        var k := NewlineRun(s);
        if k >= 3 {
          LongNewlineRun(s);
          assert false;
        }
        NoTripleSlice(s, k, |s|);
        CollapseBlankLinesFixed(s[k..]);
        assert s == s[..k] + s[k..];
      } else {
        NoTripleSlice(s, 1, |s|);
        CollapseBlankLinesFixed(s[1..]);
        assert s == [s[0]] + s[1..];
      }
    }
  }

  lemma LongNewlineRun(s: string)
    requires NewlineRun(s) >= 3
    ensures !NoTripleNewline(s)
  {
    assert s[0] == '\n' && s[1] == '\n' && s[2] == '\n';
  }

  /** Shortening newline runs never puts a blank before a newline. */
  lemma {:induction false} CollapseBlankLinesKeepsNoBlank(s: string)
    requires NoBlankBeforeNewline(s)
    ensures NoBlankBeforeNewline(CollapseBlankLines(s))
    decreases |s|
  {
    if |s| > 0 {
      if s[0] == '\n' {
        var k := NewlineRun(s);
        NoBlankBeforeNewlineSlice(s, k, |s|);
        CollapseBlankLinesKeepsNoBlank(s[k..]);
      } else {
        NoBlankBeforeNewlineSlice(s, 1, |s|);
        CollapseBlankLinesKeepsNoBlank(s[1..]);
        var rest := CollapseBlankLines(s[1..]);
        var r := CollapseBlankLines(s);
        assert r == [s[0]] + rest;
        if |rest| > 0 && rest[0] == '\n' {
          CollapseBlankLinesStart(s[1..]);
          assert s[1] == '\n';
        }
        forall i | 0 <= i < |r| - 1 && r[i + 1] == '\n' ensures !IsBlank(r[i]) {
          if i > 0 {
            assert r[i] == rest[i - 1] && r[i + 1] == rest[i];
          }
        }
      }
    }
  }

  /** Collapsing keeps the first character. */
  lemma CollapseBlankLinesStart(s: string)
    requires |s| > 0
    ensures |CollapseBlankLines(s)| > 0 && CollapseBlankLines(s)[0] == s[0]
  {
  }

  // ---------------------------------------------------------- lower case

  /** `toLowerCase` restricted to ASCII letters. */
  function AsciiLower(s: string): (r: string)
    ensures |r| == |s|
    ensures forall i :: 0 <= i < |s| ==> r[i] == (if 'A' <= s[i] <= 'Z' then (s[i] as int + 32) as char else s[i])
  {
    seq(|s|, i requires 0 <= i < |s| => if 'A' <= s[i] <= 'Z' then (s[i] as int + 32) as char else s[i])
  }

  /** Text without capitals is its own lower case. */
  lemma AsciiLowerNoCapitals(s: string)
    requires forall i :: 0 <= i < |s| ==> !('A' <= s[i] <= 'Z')
    ensures AsciiLower(s) == s
  {
  }

  // -------------------------------------------------------- split / join

  /** `xs.join(sep)`. */
  function Join(xs: seq<string>, sep: string): string
  {
    if |xs| == 0 then ""
    else if |xs| == 1 then xs[0]
    else xs[0] + sep + Join(xs[1..], sep)
  }

  lemma ContainsInfix(a: string, b: string, c: string)
    ensures Contains(a + b + c, b)
  {
    var s := a + b + c;
    assert s[|a|..|a| + |b|] == b;
    assert OccursAt(s, b, |a|);
  }

  lemma ContainsExtend(s: string, pattern: string, a: string, c: string)
    requires Contains(s, pattern)
    ensures Contains(a + s + c, pattern)
  {
    var i :| 0 <= i <= |s| - |pattern| && OccursAt(s, pattern, i);
    var t := a + s + c;
    assert t[|a| + i..|a| + i + |pattern|] == s[i..i + |pattern|];
    assert OccursAt(t, pattern, |a| + i);
  }

  /** Occurrence is transitive. */
  lemma ContainsWithin(s: string, t: string, u: string)
    requires Contains(s, t) && Contains(t, u)
    ensures Contains(s, u)
  {
    var i :| 0 <= i <= |s| - |t| && OccursAt(s, t, i);
    var j :| 0 <= j <= |t| - |u| && OccursAt(t, u, j);
    forall k | 0 <= k < |u| ensures s[i + j + k] == u[k] {
      assert u[k] == t[j..j + |u|][k] == t[j + k];
      assert t[j + k] == s[i..i + |t|][j + k] == s[i + j + k];
    }
    assert s[i + j..i + j + |u|] == u;
    assert OccursAt(s, u, i + j);
  }

  /** Every joined piece occurs in the joined string. */
  lemma {:induction false} JoinContainsParts(xs: seq<string>, sep: string)
    ensures forall i :: 0 <= i < |xs| ==> Contains(Join(xs, sep), xs[i])
  {
    if |xs| == 1 {
      ContainsInfix("", xs[0], "");
      assert "" + xs[0] + "" == xs[0];
    } else if |xs| > 1 {
      JoinContainsParts(xs[1..], sep);
      var rest := Join(xs[1..], sep);
      forall i | 0 <= i < |xs| ensures Contains(Join(xs, sep), xs[i]) {
        if i == 0 {
          ContainsInfix("", xs[0], sep + rest);
          assert "" + xs[0] + (sep + rest) == Join(xs, sep);
        } else {
          assert xs[1..][i - 1] == xs[i];
          ContainsExtend(rest, xs[i], xs[0] + sep, "");
          assert (xs[0] + sep) + rest + "" == Join(xs, sep);
        }
      }
    }
  }

  /** Position of the first `c` in `s`. */
  function IndexOf(s: string, c: char): (k: nat)
    requires c in s
    ensures k < |s| && s[k] == c && c !in s[..k]
  {
    if s[0] == c then 0
    else
      var k := 1 + IndexOf(s[1..], c);
      assert s[..k] == [s[0]] + s[1..][..k - 1];
      k
  }

  /** `s.split(c)` for a one-character separator: the pieces never contain
      the separator and joining them back with it gives `s`. */
  function Split(s: string, c: char): (r: seq<string>)
    ensures |r| >= 1
    ensures forall i :: 0 <= i < |r| ==> c !in r[i]
    ensures Join(r, [c]) == s
    decreases |s|
  {
    if c !in s then [s]
    else
      var k := IndexOf(s, c);
      var rest := Split(s[k + 1..], c);
      assert s == s[..k] + [c] + s[k + 1..];
      [s[..k]] + rest
  }

  // ------------------------------------------------------ decimal numbers

  function Digit(d: nat): (c: char)
    requires d < 10
    ensures '0' <= c <= '9'
  {
    ('0' as int + d) as char
  }

  predicate AllDigits(s: string) {
    forall i :: 0 <= i < |s| ==> '0' <= s[i] <= '9'
  }

  /** The decimal rendering of a natural number, as `${n}` produces it. */
  function Decimal(n: nat): (r: string)
    ensures |r| > 0 && AllDigits(r)
    decreases n
  {
    if n < 10 then [Digit(n)] else Decimal(n / 10) + [Digit(n % 10)]
  }

  function ParseDecimal(s: string): nat
    requires AllDigits(s)
  {
    if |s| == 0 then 0
    else ParseDecimal(s[..|s| - 1]) * 10 + (s[|s| - 1] as int - '0' as int)
  }

  lemma {:induction false} DecimalRoundTrip(n: nat)
    ensures ParseDecimal(Decimal(n)) == n
    decreases n
  {
    if n >= 10 {
      DecimalRoundTrip(n / 10);
      var d := Decimal(n);
      assert d[..|d| - 1] == Decimal(n / 10);
    }
  }

  /** Distinct numbers render differently. */
  lemma DecimalInjective(m: nat, n: nat)
    requires Decimal(m) == Decimal(n)
    ensures m == n
  {
    DecimalRoundTrip(m);
    DecimalRoundTrip(n);
  }
}

=== FILE: wrappers.dfy ===
/** Failure-compatible wrappers used throughout the model: `Option` for the
    source's `undefined`/`null` results and `Result` for thrown errors. */
module Wrappers {

  datatype Option<+T> = None | Some(value: T) {

    predicate IsFailure() {
      None?
    }

    function PropagateFailure<U>(): Option<U>
      requires None?
    {
      None
    }

    function Extract(): T
      requires Some?
    {
      value
    }

    function GetOr(default: T): T {
      match this
      case Some(v) => v
      case None => default
    }
  }

  datatype Result<+R, +E> = Success(value: R) | Failure(error: E) {

    predicate IsFailure() {
      Failure?
    }

    function PropagateFailure<U>(): Result<U, E>
      requires Failure?
    {
      Failure(error)
    }

    function Extract(): R
      requires Success?
    {
      value
    }
  }
}
